=== FILE: README.md ===
# Rajarata Pawning Center admin panel: display order, validators and session gate

Rajarata Pawning Center's website has an admin panel over four flat tables:
home-page sliders, branches, services and news. This project models the
bookkeeping that panel keeps, and proves what it promises:

- **Display order.** Every table has an `order_index`.
  - Lists are shown ascending by it. News falls back to date descending when the ordered query fails.
  - A new row gets the current maximum plus one, or 0 on an empty table.
  - Branches, services and sliders are reordered by writing each listed row's position as its index.
  - A news item moves up or down by exchanging its index with its neighbour's.
  - The page-level move buttons swap two adjacent cells of the shown list, then persist.
- **Image storage.** Uploads go to the `slider-images` and `news-images` buckets. Deleting a slider or replacing a news image works out the storage key from the stored public URL by splitting on a marker.
- **Validators.** The checks are the 5-image cap, the `image/` MIME prefix, the 5 MiB size limit and non-blank bilingual titles and descriptions.
- **Session gate.** `localStorage` holds an `adminAuthenticated` flag and an `adminLoginTime` in milliseconds. The session is valid for 24 hours. The login page writes both keys.

## How the model is built

- **Tables.**
  - `Tables.Table<P>` is a table: a class whose `rows` sequence the operations update in place.
  - Each row is a `Row(id, orderIndex, createdAt, fields)`. Branches, services and sliders use it with their own field records.
  - News has its own `NewsService.NewsTable`, because its `order_index` and `image_url` may be NULL.
  - `Storage.Bucket` is a bucket: the set of keys it holds.
- **Failure inputs.** Every database or storage call that can fail takes an explicit boolean failure input. Failures show up as a `Result` error, the way the source throws.
- **Service operations** are methods on those objects: add, update, delete, reorder and move. Their `ensures` tie the new rows to a specification function of the old rows:
  - `NextOrderIndex`, `Patched`, `Without`, `Renumbered`;
  - `NewsUpdated`, `NewsWithIndex`, `MovedUp`, `MovedDown`.
- **List views.**
  - `OrderedView` and `NewsView` are a stable sort by `order_index`; NULL indexes go last, as PostgreSQL's ascending order puts them.
  - `DateView` orders news by date, descending.
  - The database does not specify the order among equal keys. The model fixes the stable order; every property below that relies on the order among equal keys assumes strictly increasing indexes.
- **Pages.**
  - The four admin pages are classes holding the React state they update: the list, the form fields, the item being edited, the chosen file and the last message.
  - Each handler is a method. `SliderPage`'s `error` and `success` are texts shown inline; the other pages keep the last result or error message they show at once as `popup`.
- **Browser.** `AdminAuth.Browser` holds `localStorage` as a map and the router pushes as a sequence.

## Model

| member | source | states |
|---|---|---|
| Tables.OrderedView | rajarata-pawning-center/src/lib/branchService.ts:7-10 | the ordered query returns a permutation of the rows, non-decreasing by `order_index` |
| Tables.NextOrderIndex | rajarata-pawning-center/src/lib/branchService.ts:36-44 | 0 when the max query fails or the table is empty; otherwise strictly above every stored index and exactly one above some index (max + 1) |
| Tables.Patched | rajarata-pawning-center/src/lib/branchService.ts:81-92 | an update keeps ids and length, rewrites the fields of the rows with that id and leaves every other row equal |
| Tables.WithOrderIndex | rajarata-pawning-center/src/lib/sliderService.ts:125-129 | the `order_index` write changes only the rows with that id and keeps ids and length |
| Tables.Without | rajarata-pawning-center/src/lib/branchService.ts:106-109 | after the delete, a row is kept exactly when it was there and has a different id |
| Tables.WithoutRemovesId | rajarata-pawning-center/src/lib/branchService.ts:106-109 | no row with the deleted id is left |
| Tables.WithoutMissing | rajarata-pawning-center/src/lib/branchService.ts:106-114 | deleting a missing id changes nothing and is no error |
| Tables.WithoutDistinct | rajarata-pawning-center/src/lib/branchService.ts:106-109 | a delete keeps ids distinct |
| Tables.RenumberedSpec | rajarata-pawning-center/src/lib/branchService.ts:122-136 | after n successful updates, the listed rows 0..n-1 carry their position, everything else is untouched, and ids, fields and dates are kept |
| Tables.RenumberedIds | rajarata-pawning-center/src/lib/branchService.ts:127-131 | renumbering never changes which ids are stored or in what order |
| Tables.Swap | rajarata-pawning-center/src/app/admin/branches/page.tsx:139-142 | the two cells are exchanged, every other cell is equal, and the list is a permutation of the old one |
| Tables.SwappedCopy | rajarata-pawning-center/src/app/admin/branches/page.tsx:132-142 | the copy-then-swap-through-`temp` gives exactly `Swap` of the list |
| Tables.SwapListsAllRows | rajarata-pawning-center/src/app/admin/branches/page.tsx:139-147 | a list naming every stored row once still does so after a swap |
| Tables.DistinctIdsPermutation | rajarata-pawning-center/src/lib/branchService.ts:7-10 | any permutation of rows with distinct ids (the ordered view included) has distinct ids |
| Tables.ViewFollowsStoredOrder | rajarata-pawning-center/src/lib/branchService.ts:7-10 | when each row stores its position in a list, the ordered view lists exactly that list |
| Tables.ReorderStoresListOrder | rajarata-pawning-center/src/lib/branchService.ts:122-136 | a completed reorder of a list naming every row stores each row's list position |
| Tables.ReorderedViewFollowsList | rajarata-pawning-center/src/lib/branchService.ts:122-136 | after a completed reorder the ordered view shows the rows in exactly the list's order |
| Tables.IdsOfSwap | rajarata-pawning-center/src/app/admin/branches/page.tsx:139-142 | swapping rows swaps their ids the same way |
| Tables.ViewListsAllRows | rajarata-pawning-center/src/app/admin/branches/page.tsx:36-40 | the loaded list names every stored row exactly once |
| Tables.SwappedReorderFollowsList | rajarata-pawning-center/src/app/admin/branches/page.tsx:139-147 | persisting a swapped complete list makes the next load show the swapped order |
| Tables.MoveAfterLoadFollowsList | rajarata-pawning-center/src/app/admin/branches/page.tsx:131-147 | a move started from the loaded list, once persisted, is exactly what the next load shows |
| Tables.Table.Select | rajarata-pawning-center/src/lib/branchService.ts:7-15 | the ordered select: all rows, non-decreasing by index, or a database error |
| Tables.Table.Insert | rajarata-pawning-center/src/lib/branchService.ts:49-65 | a successful insert appends one row under a fresh id; a failed one changes nothing |
| Tables.Table.SetOrderIndex | rajarata-pawning-center/src/lib/branchService.ts:128-131 | the plain update writes one row's index, or changes nothing on error |
| Tables.Table.UpdateSingle | rajarata-pawning-center/src/lib/branchService.ts:81-97 | `update ... single()` succeeds iff no error and the id exists, then patches exactly that row and returns it |
| Tables.Table.Delete | rajarata-pawning-center/src/lib/branchService.ts:106-114 | deletes the rows with that id, keeps ids distinct, or changes nothing on error |
| Sorting.SortBy | rajarata-pawning-center/src/lib/newsService.ts:9-12 | the sort used for every ordered query returns a sorted permutation of its input |
| Sorting.Insert | rajarata-pawning-center/src/lib/newsService.ts:9-12 | inserting into a sorted list keeps it sorted and adds exactly one element |
| Sorting.SortedPermutationUnique | rajarata-pawning-center/src/lib/newsService.ts:202-206 | with no ties, two sorted permutations of the same rows are equal, so the view after a move is determined |
| Storage.Bucket.Upload | rajarata-pawning-center/src/lib/sliderService.ts:31-41 | `upsert: false`: succeeds iff no error and the key is new; only then is the key added |
| Storage.Bucket.Remove | rajarata-pawning-center/src/lib/sliderService.ts:99-105 | removing a key takes it out; a missing key is no error; a failure changes nothing |
| BranchService.GetAllBranches | rajarata-pawning-center/src/lib/branchService.ts:5-19 | all rows, ascending by `order_index`; a query error is thrown |
| BranchService.AddBranch | rajarata-pawning-center/src/lib/branchService.ts:21-69 | one new row with the given texts and flag, no address/contact/map, index max + 1 or 0; other rows kept; an insert error changes nothing |
| BranchService.UpdateBranch | rajarata-pawning-center/src/lib/branchService.ts:71-101 | only the two titles, two descriptions and `is_coming_soon` of that id change; a missing id or error fails and changes nothing |
| BranchService.DeleteBranch | rajarata-pawning-center/src/lib/branchService.ts:103-117 | removes exactly the rows with that id, or throws and changes nothing |
| BranchService.ReorderBranches | rajarata-pawning-center/src/lib/branchService.ts:119-140 | fails iff some update fails; updates before the failing one are written in list order and later ones never issued; on success each listed id stores its position |
| ServiceService.GetAllServices | rajarata-pawning-center/src/lib/serviceService.ts:5-19 | all rows, ascending by `order_index`; a query error is thrown |
| ServiceService.AddService | rajarata-pawning-center/src/lib/serviceService.ts:21-66 | one new row with the four texts, index max + 1 or 0; other rows kept; an insert error changes nothing |
| ServiceService.UpdateService | rajarata-pawning-center/src/lib/serviceService.ts:68-96 | only the four texts of that id change; a missing id or error fails and changes nothing |
| ServiceService.DeleteService | rajarata-pawning-center/src/lib/serviceService.ts:98-112 | removes exactly the rows with that id, or throws and changes nothing |
| ServiceService.ReorderServices | rajarata-pawning-center/src/lib/serviceService.ts:114-135 | stops at the first failing update; on success each listed id stores its position |
| SliderService.GetAllSliders | rajarata-pawning-center/src/lib/sliderService.ts:5-17 | all rows, ascending by `order_index`; a query error is thrown |
| SliderService.StorageKeyOfUrl | rajarata-pawning-center/src/lib/sliderService.ts:94-101 | no key iff `/slider-images/` is absent; otherwise `sliders/` followed by the last `/`-segment of the text between the first `/slider-images/` and the next one (or the end) |
| SliderService.StorageKeyOfImageUrl | rajarata-pawning-center/src/lib/sliderService.ts:25-27 | round trip: the URL of an object stored at `sliders/<file>` gives back the key `sliders/<file>` |
| SliderService.SlidersPathSplit | rajarata-pawning-center/src/lib/sliderService.ts:101 | `split('/')` of `sliders/<file>` is `["sliders", file]`, so `pop()` gives the file name |
| SliderService.ImageUrlSplit | rajarata-pawning-center/src/lib/sliderService.ts:94-96 | a stored URL splits on the marker into exactly its origin and the object path |
| SliderService.AddSlider | rajarata-pawning-center/src/lib/sliderService.ts:20-88 | uploads under `sliders/<name>.<ext>`; an upload error (or an existing key) inserts nothing and leaves the bucket as it was; otherwise the object is added and there is one new row with the public URL and index max + 1 or 0, or an insert error with the upload left behind; success iff upload and insert both go through |
| SliderService.DeleteSlider | rajarata-pawning-center/src/lib/sliderService.ts:91-122 | removes the derived key (nothing without the marker); a storage error is ignored; the row is deleted unless the database delete fails |
| SliderService.UpdateSliderOrder | rajarata-pawning-center/src/lib/sliderService.ts:125-135 | sets that row's index and changes nothing else; an error is thrown |
| SliderService.RenumberedSkippingSpec | rajarata-pawning-center/src/lib/sliderService.ts:138-147 | each listed row whose update went through stores its position; rows with a failed update and unlisted rows are unchanged |
| SliderService.RenumberedSkippingNothing | rajarata-pawning-center/src/lib/sliderService.ts:138-147 | when no update fails this is the sequential renumbering of the branch/service reorder |
| SliderService.ReorderSliders | rajarata-pawning-center/src/lib/sliderService.ts:138-147 | the final table is the renumbering minus the failed updates, and no error is ever reported |
| NewsService.NewsView | rajarata-pawning-center/src/lib/newsService.ts:9-12 | a permutation, sorted ascending by index with NULL indexes last |
| NewsService.DateView | rajarata-pawning-center/src/lib/newsService.ts:17-20 | a permutation, sorted by `date` descending |
| NewsService.GetAllNews | rajarata-pawning-center/src/lib/newsService.ts:5-33 | ordered by index when that query works, by date descending when only the fallback works, and an error only when both fail |
| NewsService.NextNewsIndex | rajarata-pawning-center/src/lib/newsService.ts:86-99 | max + 1 where a missing maximum counts as -1 (empty table gives 0); 0 also when the query fails |
| NewsService.ImageUrlOrNull | rajarata-pawning-center/src/lib/newsService.ts:108 | `imageUrl \|\| null`: NULL exactly for an absent or empty URL, otherwise the URL |
| NewsService.AddNews | rajarata-pawning-center/src/lib/newsService.ts:76-131 | one new row with the texts, date, URL-or-NULL and the next index, under a fresh id; an insert error changes nothing |
| NewsService.NewsUpdated | rajarata-pawning-center/src/lib/newsService.ts:144-154 | only the texts, date and image URL of that id change; `order_index` and all other rows are kept |
| NewsService.UpdateNews | rajarata-pawning-center/src/lib/newsService.ts:133-165 | `single()`: fails on error or a missing id and changes nothing; otherwise the table is `NewsUpdated` |
| NewsService.NewsWithout | rajarata-pawning-center/src/lib/newsService.ts:170-173 | a row is kept exactly when it had a different id; a missing id changes nothing |
| NewsService.DeleteNews | rajarata-pawning-center/src/lib/newsService.ts:167-181 | removes exactly the rows with that id, or throws and changes nothing |
| NewsService.NewsWithIndex | rajarata-pawning-center/src/lib/newsService.ts:186-189 | writes the index of the rows with that id and nothing else |
| NewsService.UpdateOrderIndex | rajarata-pawning-center/src/lib/newsService.ts:183-197 | sets that id's index, or throws and changes nothing |
| NewsService.UploadImage | rajarata-pawning-center/src/lib/newsService.ts:35-59 | stores the file under `news/<name>.<ext>` and returns its public URL; an error or taken key throws and stores nothing |
| NewsService.ImageKeyOfUrl | rajarata-pawning-center/src/lib/newsService.ts:64-66 | no key iff the marker is absent; otherwise the key is exactly the text after the first marker, up to the next marker or the end, and holds no marker |
| NewsService.ImageKeyOfStoredUrl | rajarata-pawning-center/src/lib/newsService.ts:37-39 | round trip: the URL of an object stored at `news/<file>` gives back the key `news/<file>` |
| NewsService.DeleteImage | rajarata-pawning-center/src/lib/newsService.ts:61-74 | removes the derived key (nothing without the marker); never reports an error |
| NewsService.FindIndex | rajarata-pawning-center/src/lib/newsService.ts:211 | `findIndex`: the first position holding the id, or -1 when none does |
| NewsService.MoveNewsUp | rajarata-pawning-center/src/lib/newsService.ts:199-219 | first or missing: no write; otherwise the row takes its predecessor's index, then the predecessor takes `currentOrderIndex`; a failing second write leaves only the first |
| NewsService.MoveNewsDown | rajarata-pawning-center/src/lib/newsService.ts:221-241 | last: no write; otherwise the row takes its successor's index, then the successor takes `currentOrderIndex`; no guard for a missing id |
| NewsService.WriteTwoIndexes | rajarata-pawning-center/src/lib/newsService.ts:217-218 | two sequential index writes; the second is not issued after the first fails |
| NewsService.NewsWithIndexCommute | rajarata-pawning-center/src/lib/newsService.ts:217-218 | writes to two different ids can be done in either order |
| NewsService.MoveUpExchangesWithPrevious | rajarata-pawning-center/src/lib/newsService.ts:211-218 | with distinct ids and no ties, and `currentOrderIndex` equal to the stored index, moving up exchanges the row with its predecessor in the view and changes no other row |
| NewsService.MoveDownExchangesWithNext | rajarata-pawning-center/src/lib/newsService.ts:233-240 | the same for moving down, with the successor |
| NewsService.ViewAfterExchange | rajarata-pawning-center/src/lib/newsService.ts:214-218 | exchanging the indexes of two neighbours in the view swaps exactly those two places of the view |
| NewsService.MoveDownOfMissingId | rajarata-pawning-center/src/lib/newsService.ts:233-240 | a missing id gives `findIndex` -1, so `moveNewsDown` rewrites the first row's index to `currentOrderIndex` |
| NewsService.MoveUpOfFirstOrMissing | rajarata-pawning-center/src/lib/newsService.ts:211-212 | moving up the first row or a missing id changes nothing |
| AdminAuth.SessionVerdict | rajarata-pawning-center/src/lib/useAdminAuth.ts:13-27 | not authenticated exactly when the flag is not `"true"` or the login time is absent or empty; otherwise the session is live iff `now` − `parseInt(time)` < 86 400 000 ms, and a NaN time counts as expired |
| AdminAuth.AdminAuthHook.Logout | rajarata-pawning-center/src/lib/useAdminAuth.ts:38-42 | removes exactly the two keys and pushes `/admin/login` |
| AdminAuth.AdminAuthHook.CheckAuth | rajarata-pawning-center/src/lib/useAdminAuth.ts:12-33 | live: authenticated, storage and route untouched; expired: both keys removed; no session: storage untouched; a redirect to `/admin/login` happens exactly when the session is not live; loading ends every time |
| AdminAuth.LogoutEndsSession | rajarata-pawning-center/src/lib/useAdminAuth.ts:38-41 | after a logout no session is left |
| AdminAuth.LoginSessionLasts24Hours | rajarata-pawning-center/src/app/admin/login/page.tsx:25-26 | round trip: a session written at `t` with `toString` reads back through `parseInt` as live until `t` + 24 h and expired from then on |
| Text.TrimEmptyIffAllWhitespace | rajarata-pawning-center/src/app/admin/branches/page.tsx:59 | `!s.trim()` holds exactly when the string is all whitespace |
| Text.TrimStart | rajarata-pawning-center/src/app/admin/branches/page.tsx:59 | drops only leading whitespace and leaves a non-whitespace first character |
| Text.TrimEnd | rajarata-pawning-center/src/app/admin/branches/page.tsx:59 | drops only trailing whitespace and leaves a non-whitespace last character |
| Text.Split | rajarata-pawning-center/src/lib/sliderService.ts:94 | `split`: the pieces joined by the separator give back the string, no piece holds the separator, and there is one piece iff the string holds none |
| Text.IndexOf | rajarata-pawning-center/src/lib/newsService.ts:64 | the first occurrence at or after `from`, or none at all |
| Text.FirstPiece | rajarata-pawning-center/src/lib/newsService.ts:64-66 | `split(sep)[0]` is the text before the first occurrence of the separator, or the whole string |
| Text.SecondPiece | rajarata-pawning-center/src/lib/newsService.ts:64-66 | one piece when the separator does not occur; otherwise `split(sep)[1]` exists and is the text after the first occurrence up to the next one, or up to the end |
| Text.JoinEndsWithLast | rajarata-pawning-center/src/lib/sliderService.ts:101 | the last piece (`pop()`) ends the string, preceded by the separator when there are several |
| Text.LastSegment | rajarata-pawning-center/src/lib/sliderService.ts:25 | `split(c).pop()`: a suffix without `c`, preceded by a `c` unless it is the whole string |
| Text.ToDecimal | rajarata-pawning-center/src/app/admin/login/page.tsx:26 | `toString` of a timestamp: a non-empty digit string whose value is the number |
| Text.ParseInt | rajarata-pawning-center/src/lib/useAdminAuth.ts:19 | `parseInt` is NaN (`None`) iff no digit follows the leading whitespace and at most one sign |
| Text.DigitsStartAfterLead | rajarata-pawning-center/src/lib/useAdminAuth.ts:19 | the digits `parseInt` reads can start at one place only: right after the leading whitespace, or one further when a sign comes first; a `-` comes right before that place iff `trimStart` leaves a `-` first |
| Text.ParseIntReadsDigitRun | rajarata-pawning-center/src/lib/useAdminAuth.ts:19 | where the digits start, the result is the decimal value of the longest digit run, negated iff a `-` comes right before it |
| Text.ParseIntToDecimal | rajarata-pawning-center/src/lib/useAdminAuth.ts:19 | `parseInt(n.toString())` is n |
| Text.LexLeqTotal | rajarata-pawning-center/src/lib/newsService.ts:20 | string order on dates is total |
| Text.LexLeqTransitive | rajarata-pawning-center/src/lib/newsService.ts:20 | string order on dates is transitive |
| LoginPage.Configured | rajarata-pawning-center/src/app/admin/login/page.tsx:20-21 | `process.env.X \|\| fallback`: the variable when set and non-empty, else the fallback (`admin` / `admin123`) |
| LoginPage.LoginForm.HandleLogin | rajarata-pawning-center/src/app/admin/login/page.tsx:13-34 | the error is cleared first; matching credentials write the flag `"true"` and the decimal time and go to `/admin`; otherwise storage and route are unchanged, the error is `Invalid username or password` and loading stops |
| SliderPage.UploadCheck | rajarata-pawning-center/src/app/admin/slider/page.tsx:121-142 | the four checks in order (no file, 5 sliders already, not `image/`, over 5 MiB), each with its own message; none fails iff a file is chosen, fewer than `MAX_SLIDERS` exist and the file is an acceptable image |
| SliderPage.SelectedFileOnlyFailsOnCount | rajarata-pawning-center/src/app/admin/slider/page.tsx:98-142 | a file `handleFileSelect` kept can only be refused at upload by the count limit |
| SliderPage.MovePreservesListOrder | rajarata-pawning-center/src/app/admin/slider/page.tsx:192-199 | if every stored index equals the list position before a move, it still does for the swapped list after both writes |
| SliderPage.MoveKeepsViewInStep | rajarata-pawning-center/src/app/admin/slider/page.tsx:192-201 | under that premise, reloading shows exactly the swapped list |
| SliderPage.MoveWithGapsLeavesViewOutOfStep | rajarata-pawning-center/src/app/admin/slider/page.tsx:198-199 | with indexes left non-contiguous (say, by a delete), moving the last of three up makes the next load show a different order from the swapped list |
| SliderPage.GappedMoveWrites | rajarata-pawning-center/src/app/admin/slider/page.tsx:198-199 | the two writes give the moved rows positions 2 and 1 and leave the third untouched |
| SliderPage.ViewOfStrictlyIncreasing | rajarata-pawning-center/src/lib/sliderService.ts:6-9 | a permutation with strictly increasing indexes is the ordered view |
| SliderPage.SliderPage.LoadSliders | rajarata-pawning-center/src/app/admin/slider/page.tsx:76-87 | shows the ordered list; an error is silent and keeps the old list |
| SliderPage.SliderPage.HandleFileSelect | rajarata-pawning-center/src/app/admin/slider/page.tsx:89-113 | keeps a file iff it is an `image/` of at most 5 MiB, otherwise clears the selection; clears the error |
| SliderPage.SliderPage.HandleUpload | rajarata-pawning-center/src/app/admin/slider/page.tsx:115-169 | a failing check shows its message and calls `addSlider` zero times; otherwise success iff the upload (fresh key) and the insert go through, the bucket gains the object exactly when the upload went through (whatever the insert did), the error names the failing step; on success the list is reloaded and the selection cleared, on error table, list and selection are kept |
| SliderPage.SliderPage.MoveSlider | rajarata-pawning-center/src/app/admin/slider/page.tsx:185-207 | out of range: nothing; otherwise writes position `index` then `newIndex` to the swapped rows; the list becomes the swapped list only when both writes succeed |
| BranchesPage.BranchesPage.LoadBranches | rajarata-pawning-center/src/app/admin/branches/page.tsx:36-47 | shows the ordered list, or the load error and the old list |
| BranchesPage.BranchesPage.ResetForm | rajarata-pawning-center/src/app/admin/branches/page.tsx:171-177 | empties the four texts and clears the flag |
| BranchesPage.BranchesPage.HandleAddBranch | rajarata-pawning-center/src/app/admin/branches/page.tsx:58-81 | a title that trims to nothing is refused without a service call, the table, list and every form field kept; otherwise `addBranch` with the form, succeeding iff the insert does: then a fresh-id row is appended and the list reloaded and the form reset; on failure the error is shown and table, list and form are kept |
| BranchesPage.BranchesPage.HandleEditBranch | rajarata-pawning-center/src/app/admin/branches/page.tsx:83-107 | refused without an edited branch or with a blank title, the table, list, edit and every form field kept; otherwise, through `SaveEditedBranch`, succeeds iff the update goes through and the edited id is still in the table: exactly that branch's five fields change, the edit ends and the form resets (flag cleared); on failure table, list, edit and form are kept |
| BranchesPage.BranchesPage.SaveEditedBranch | rajarata-pawning-center/src/app/admin/branches/page.tsx:89-106 | succeeds iff the update goes through and the edited id is in the table: exactly that branch's five fields change, the list is reloaded, the edit ends and the form resets; on failure table, list, edit and form are kept |
| BranchesPage.BranchesPage.MoveBranch | rajarata-pawning-center/src/app/admin/branches/page.tsx:131-154 | out of range: nothing; otherwise the swapped list is shown and reordered; on failure the list is reloaded; the form's texts and flag are never touched |
| ServicesPage.ServicesPage.LoadServices | rajarata-pawning-center/src/app/admin/services/page.tsx:35-46 | shows the ordered list, or the load error and the old list |
| ServicesPage.ServicesPage.ResetForm | rajarata-pawning-center/src/app/admin/services/page.tsx:169-174 | empties the four texts |
| ServicesPage.ServicesPage.HandleAddService | rajarata-pawning-center/src/app/admin/services/page.tsx:57-80 | a blank title is refused without a service call, the table, list and form kept; otherwise `addService`, succeeding iff the insert does: then a fresh-id row is appended, the list reloaded and the form reset; on failure table, list and form are kept |
| ServicesPage.ServicesPage.HandleEditService | rajarata-pawning-center/src/app/admin/services/page.tsx:82-106 | refused without an edited service or with a blank title, the table, list, edit and form kept; otherwise, through `SaveEditedService`, succeeds iff the update goes through and the edited id is still in the table, and then exactly that service's four texts change; on failure table, list, edit and form are kept |
| ServicesPage.ServicesPage.SaveEditedService | rajarata-pawning-center/src/app/admin/services/page.tsx:88-105 | succeeds iff the update goes through and the edited id is in the table: exactly that service's four texts change, the list is reloaded, the edit ends and the form resets; on failure table, list, edit and form are kept |
| ServicesPage.ServicesPage.MoveService | rajarata-pawning-center/src/app/admin/services/page.tsx:130-153 | out of range: nothing; otherwise the swapped list is shown and handed whole to `reorderServices`; on failure the list is reloaded; the form's texts are never touched |
| NewsPage.FormCheckIsTrimTest | rajarata-pawning-center/src/app/admin/news/page.tsx:97-105 | the form check refuses both titles first, then both descriptions, exactly when one trims to nothing |
| NewsPage.MoveRefusedIffNoIndex | rajarata-pawning-center/src/app/admin/news/page.tsx:236 | `!x && x !== 0` refuses exactly a missing `order_index`; 0 is let through |
| NewsPage.EditKeepsImageWithoutNewFile | rajarata-pawning-center/src/app/admin/news/page.tsx:157 | without a new file the stored URL is the edited row's (`image_url \|\| ''`, stored as NULL) |
| NewsPage.NewsPage.LoadNews | rajarata-pawning-center/src/app/admin/news/page.tsx:40-51 | shows what `getAllNews` returns, or the load error and the old list |
| NewsPage.NewsPage.ResetForm | rajarata-pawning-center/src/app/admin/news/page.tsx:204-212 | empties the texts, sets today's date and drops the chosen file |
| NewsPage.NewsPage.HandleImageChange | rajarata-pawning-center/src/app/admin/news/page.tsx:214-228 | a file over 5 MiB is refused with a message and the old choice is kept; any other file is chosen; the list, the edit and every text field are never touched |
| NewsPage.NewsPage.UploadChosenImage | rajarata-pawning-center/src/app/admin/news/page.tsx:114-119 | uploads only when a file is chosen; succeeds iff there is none or the upload goes through under a fresh key, and the bucket gains exactly that key then; an upload error ends the save |
| NewsPage.NewsPage.SaveNews | rajarata-pawning-center/src/app/admin/news/page.tsx:114-121 | without a file the URL is `''` (stored NULL), with one the uploaded URL; succeeds iff the upload step and the insert both go through, the bucket gains the object exactly when the upload did, a storage error when the upload failed and a database error otherwise; an upload error inserts nothing |
| NewsPage.NewsPage.HandleAddNews | rajarata-pawning-center/src/app/admin/news/page.tsx:96-136 | the form check runs before any service call, and a refusal keeps the table, bucket, list and form; then success iff upload step and insert go through, with the exact bucket after the upload; a successful save appends one fresh-id row with the form and the next index, then the list is what `getAllNews` returns (the old one if that fails) and all four texts, the date and the file are reset; a failed one keeps table, list and form |
| NewsPage.NewsPage.ReplaceImage | rajarata-pawning-center/src/app/admin/news/page.tsx:160-168 | with a new file, the old image (if its URL is non-empty) is deleted before the upload; succeeds iff the upload goes through against the bucket after that delete, which then gains the new key; the new URL is returned |
| NewsPage.NewsPage.HandleEditNews | rajarata-pawning-center/src/app/admin/news/page.tsx:138-185 | refused without an edited row or on the form check, keeping the table, bucket, list, edit and form; otherwise the edit ends at once and the bucket is the old image deleted (unless that fails) then the new one added when the upload goes through; success iff the upload step and the update go through and the row is still there, and then exactly that row's texts, date and image change, the list is what `getAllNews` returns (the old one if that fails) and the whole form is reset; a failure keeps table, list and form |
| NewsPage.NewsPage.HandleMoveUp | rajarata-pawning-center/src/app/admin/news/page.tsx:235-255 | refused iff the row has no `order_index`; otherwise `moveNewsUp` with its index: on success the table is the swapped one and the list is reloaded; on failure the list and message are kept and the table is unchanged, or holds the first of the two writes when only the second failed; the form fields are never touched |
| NewsPage.NewsPage.HandleMoveDown | rajarata-pawning-center/src/app/admin/news/page.tsx:257-277 | the same with `moveNewsDown`: success, failure with no write or with only the first write, list and form fields as for `handleMoveUp` |

## Left out

- Rendering, styling, modal toggles, `FileReader` previews and the `confirm()` dialogs are presentation only. Popups shown through `setTimeout` and loading messages (`'Adding branch...'`, `'Moving news up...'` and the like) are not modelled; each page keeps only the last result or error message it shows at once.
- The hosted database and storage client is replaced by the in-memory tables and buckets, with explicit failure inputs. Queries, the network and public-URL generation are not modelled: the public URL is an input.
- Generated file names (`Math.random`, `Date.now`) are an opaque input `stem`. Only the `sliders/<stem>.<ext>` and `news/<stem>.<ext>` shape is modelled.
- Concurrency is not modelled:
  - `Promise.all` in `reorderSliders` becomes the sequential final state, with the set of failed updates as an input;
  - races between two admin sessions on the max-index read are not modelled.
- `hoursSinceLogin` is computed in floating point. The model compares integer milliseconds with 86 400 000 instead.
- `parseInt` is modelled for leading whitespace, an optional `+`/`-` sign and the longest run of decimal digits. The `0x` hexadecimal prefix is not modelled; `"0x1A"` reads here as 0. Login times are always written as plain digits, so that input cannot arise.
- Dates are compared as strings. The `YYYY-MM-DD` dates the form produces sort that way.
- `OrderedView`, `NewsView`, `DateView`: the database does not specify the order among equal keys. The model fixes a stable order, and the move and reorder lemmas assume strictly increasing indexes where that order matters.
- `StorageKeyOfImageUrl` and `ImageKeyOfStoredUrl` assume the URL's origin holds no `-`, so that the marker is found first where the object path starts.
- `SliderPage.SliderPage.MoveSlider`, `BranchesPage.BranchesPage.MoveBranch`, `ServicesPage.ServicesPage.MoveService` require `index` to be inside the list: the page only offers move buttons on listed rows.
- `NewsPage.NewsPage.ReplaceImage` does not model `uploadingImage` being set before the old image is deleted, since it is reset before any outcome is visible.
- The delete handlers of the pages (`handleDeleteBranch`, `handleDeleteService`, the slider and news `confirmDelete`) only call the service delete and reload. They are not modelled beyond `DeleteBranch`, `DeleteService`, `DeleteSlider` and `DeleteNews`.
- `useAuth.ts` is a wrapper over the hosted auth library the admin pages do not use. It is not part of this model.
- `src/app/api/sliders/route.ts` is an HTTP envelope around the slider service. It is not part of this model.
- `LanguageContext` loads translation files dynamically. It is not part of this model.
- Locale date formatting and the home page carousel timer are not part of this model.

=== FILE: admin_auth.dfy ===
/**
 * The admin session kept in the browser's `localStorage` (`useAdminAuth`):
 * a flag and the login time in milliseconds, valid for 24 hours.
 */
module AdminAuth {
  import opened Wrappers
  import opened Text

  const AuthenticatedKey: string := "adminAuthenticated"
  const LoginTimeKey: string := "adminLoginTime"
  const LoginRoute: string := "/admin/login"

  /** 24 hours in milliseconds. */
  const SessionMillis: int := 24 * 60 * 60 * 1000

  /** The browser state the admin pages touch: `localStorage` and the router's pushes, in order. */
  class Browser {
    var storage: map<string, string>
    var visited: seq<string>

    constructor (storage: map<string, string>)
      ensures this.storage == storage && visited == []
    {
      this.storage := storage;
      visited := [];
    }
  }

  /** What `checkAuth` concludes from the stored session. */
  datatype Verdict =
    | Authenticated    // flag and login time present, less than 24 hours old
    | Expired          // flag and login time present, but too old or not a number
    | Unauthenticated  // flag not "true", or login time missing or empty

  /**
   * The decision of `checkAuth` at time `now`: the flag must read "true" and
   * the login time must be a non-empty string; then `parseInt` of it must be a
   * number less than 24 hours before `now` (NaN compares false, so it counts
   * as expired).
   */
  function SessionVerdict(storage: map<string, string>, now: int): (v: Verdict)
    ensures v == Unauthenticated <==>
      AuthenticatedKey !in storage || storage[AuthenticatedKey] != "true" ||
      LoginTimeKey !in storage || storage[LoginTimeKey] == ""
  {
    if AuthenticatedKey in storage && storage[AuthenticatedKey] == "true"
       && LoginTimeKey in storage && storage[LoginTimeKey] != ""
    then
      match ParseInt(storage[LoginTimeKey])
      case Some(loginTime) => if now - loginTime < SessionMillis then Authenticated else Expired
      case None => Expired
    else Unauthenticated
  }

  /** The hook's state: `isAuthenticated` and `isLoading`. */
  class AdminAuthHook {
    var isAuthenticated: bool
    var isLoading: bool

    constructor ()
      ensures !isAuthenticated && isLoading
    {
      isAuthenticated := false;
      isLoading := true;
    }

    /**
     * `logout`: clears both keys and goes to the login page. It leaves
     * `isAuthenticated` as it is.
     */
    method Logout(browser: Browser)
      modifies browser
      ensures browser.storage == old(browser.storage) - {AuthenticatedKey, LoginTimeKey}
      ensures browser.visited == old(browser.visited) + [LoginRoute]
    {
      browser.storage := browser.storage - {AuthenticatedKey, LoginTimeKey};
      browser.visited := browser.visited + [LoginRoute];
    }

    /**
     * `checkAuth` at time `now`: a live session authenticates and stays put;
     * an expired one is logged out; no session redirects to the login page.
     * Loading ends in every case, and nothing ever resets `isAuthenticated`.
     */
    method CheckAuth(browser: Browser, now: int)
      modifies this, browser
      ensures !isLoading
      ensures var v := SessionVerdict(old(browser.storage), now);
        && (isAuthenticated <==> v == Authenticated || old(isAuthenticated))
        && (v == Authenticated ==> browser.storage == old(browser.storage) && browser.visited == old(browser.visited))
        && (v == Expired ==> browser.storage == old(browser.storage) - {AuthenticatedKey, LoginTimeKey})
        && (v == Unauthenticated ==> browser.storage == old(browser.storage))
        && (v != Authenticated ==> browser.visited == old(browser.visited) + [LoginRoute])
    {
      var v := SessionVerdict(browser.storage, now);
      if v == Authenticated {
        isAuthenticated := true;
      } else if v == Expired {
        Logout(browser);
      } else {
        browser.visited := browser.visited + [LoginRoute];
      }
      isLoading := false;
    }
  }

  /** After a logout no session is left, whatever the time. */
  lemma LogoutEndsSession(storage: map<string, string>, now: int)
    ensures SessionVerdict(storage - {AuthenticatedKey, LoginTimeKey}, now) == Unauthenticated
  {
  }

  /**
   * The session a login at time `t` stores is live exactly until 24 hours
   * after `t`, and expired from then on.
   */
  lemma LoginSessionLasts24Hours(storage: map<string, string>, t: nat, now: int)
    ensures var s := storage[AuthenticatedKey := "true"][LoginTimeKey := ToDecimal(t)];
      SessionVerdict(s, now) == (if now < t + SessionMillis then Authenticated else Expired)
  {
    var s := storage[AuthenticatedKey := "true"][LoginTimeKey := ToDecimal(t)];
    assert |AuthenticatedKey| != |LoginTimeKey|;
    assert s[AuthenticatedKey] == "true" && s[LoginTimeKey] == ToDecimal(t) != "";
    ParseIntToDecimal(t);
  }
}

=== FILE: branch_service.dfy ===
/** The `branches` table service: list, add, update, delete and whole-list reorder. */
module BranchService {
  import opened Wrappers
  import opened Tables

  /** The columns of a branch other than id, order_index and created_at. */
  datatype BranchFields = BranchFields(
    title: string,
    description: string,
    titleSi: string,
    descriptionSi: string,
    address: Option<string>,
    addressSi: Option<string>,
    contactNumber: Option<string>,
    mapUrl: Option<string>,
    isComingSoon: bool)

  type Branch = Row<BranchFields>

  /**
   * `getAllBranches`: every row, ascending by `order_index`; a query error is thrown.
   * The three services issue the same query, so all of them are `Table.Select`;
   * the contract is repeated here because callers rely on it for branches rows.
   */
  function GetAllBranches(t: Table<BranchFields>, fails: bool): (r: Result<seq<Branch>, Error>)
    reads t
    ensures r.Success? <==> !fails
    ensures r.Failure? ==> r.error == DbError
    ensures r.Success? ==> multiset(r.value) == multiset(t.rows)
    ensures r.Success? ==> forall i, j :: 0 <= i < j < |r.value| ==> r.value[i].orderIndex <= r.value[j].orderIndex
  {
    t.Select(fails)
  }

  /**
   * `addBranch`: reads the largest `order_index` (its error ignored), then
   * inserts one row with the given texts, the flag and the next index.
   */
  method AddBranch(t: Table<BranchFields>, title: string, description: string, titleSi: string,
                   descriptionSi: string, isComingSoon: bool, createdAt: string,
                   maxQueryFails: bool, insertFails: bool)
    returns (r: Result<Branch, Error>)
    requires t.Valid()
    modifies t
    ensures t.Valid()
    ensures r.Success? <==> !insertFails
    ensures r.Failure? ==> r.error == DbError && t.rows == old(t.rows)
    ensures r.Success? ==> t.rows == old(t.rows) + [r.value] && r.value.id !in Ids(old(t.rows))
    ensures r.Success? ==> r.value.orderIndex == NextOrderIndex(old(t.rows), maxQueryFails)
    ensures r.Success? ==> r.value.createdAt == createdAt
    ensures r.Success? ==>
      r.value.fields == BranchFields(title, description, titleSi, descriptionSi, None, None, None, None, isComingSoon)
  {
    var next := NextOrderIndex(t.rows, maxQueryFails);
    var fields := BranchFields(title, description, titleSi, descriptionSi, None, None, None, None, isComingSoon);
    r := t.Insert(next, createdAt, fields, insertFails);
  }

  /** The change `updateBranch` makes to the fields of the row it rewrites. */
  function BranchEdit(title: string, description: string, titleSi: string, descriptionSi: string,
                      isComingSoon: bool): BranchFields -> BranchFields
  {
    (f: BranchFields) => f.(title := title, description := description, titleSi := titleSi,
                            descriptionSi := descriptionSi, isComingSoon := isComingSoon)
  }

  /**
   * `updateBranch`: rewrites the two titles, the two descriptions and the flag
   * of the row with that id; `single()` makes a missing id an error.
   */
  method UpdateBranch(t: Table<BranchFields>, id: int, title: string, description: string,
                      titleSi: string, descriptionSi: string, isComingSoon: bool, fails: bool)
    returns (r: Result<Branch, Error>)
    requires t.Valid()
    modifies t
    ensures t.Valid()
    ensures r.Success? <==> !fails && id in Ids(old(t.rows))
    ensures r.Failure? ==> r.error == DbError && t.rows == old(t.rows)
    ensures r.Success? ==>
      t.rows == Patched(old(t.rows), id, BranchEdit(title, description, titleSi, descriptionSi, isComingSoon))
    ensures r.Success? ==> r.value in t.rows && r.value.id == id
  {
    r := t.UpdateSingle(id, BranchEdit(title, description, titleSi, descriptionSi, isComingSoon), fails);
  }

  /** `deleteBranch`: removes the row with that id; a missing id is no error. */
  method DeleteBranch(t: Table<BranchFields>, id: int, fails: bool) returns (r: Result<(), Error>)
    requires t.Valid()
    modifies t
    ensures t.Valid()
    ensures r.Success? <==> !fails
    ensures t.rows == if fails then old(t.rows) else Without(old(t.rows), id)
  {
    var ok := t.Delete(id, fails);
    r := if ok then Success(()) else Failure(DbError);
  }

  /**
   * `reorderBranches`: one `order_index = position` update per listed branch,
   * in list order; the first failing update is thrown and the later ones are
   * never issued. `failAt` names the update that fails, if any.
   */
  method ReorderBranches(t: Table<BranchFields>, branches: seq<Branch>, failAt: Option<nat>)
    returns (r: Result<(), Error>)
    requires t.Valid()
    modifies t
    ensures t.Valid()
    ensures r.Failure? <==> failAt.Some? && failAt.value < |branches|
    ensures r.Failure? ==> r.error == DbError
    ensures t.rows == Renumbered(old(t.rows), Ids(branches), if r.Success? then |branches| else failAt.value)
  {
    var ids := Ids(branches);
    var k := 0;
    while k < |branches|
      invariant 0 <= k <= |branches|
      invariant t.Valid()
      invariant failAt.Some? ==> k <= failAt.value
      invariant t.rows == Renumbered(old(t.rows), ids, k)
    {
      var ok := t.SetOrderIndex(branches[k].id, k, failAt == Some(k));
      if !ok {
        return Failure(DbError);
      }
      RenumberedStep(old(t.rows), ids, k, branches[k].id);
      k := k + 1;
    }
    return Success(());
  }
}

=== FILE: branches_page.dfy ===
/**
 * The branches admin page: the list it shows, the add/edit form with its
 * title guard, and the move buttons that exchange two adjacent branches and
 * persist the whole swapped list.
 */
module BranchesPage {
  import opened Wrappers
  import opened Text
  import opened Tables
  import opened BranchService

  const TitleRequiredMessage: string := "Please enter a branch title"
  const LoadFailedMessage: string := "Failed to load branches"
  const OrderUpdatedMessage: string := "Order updated!"
  const OrderFailedMessage: string := "Failed to update order"

  /**
   * The page's state; `popup` is the last result or error message shown at
   * once (not through a timer). Loading messages are not modelled.
   */
  class BranchesPage {
    var branches: seq<Branch>
    var loading: bool
    var editing: Option<Branch>
    var title: string
    var description: string
    var titleSi: string
    var descriptionSi: string
    var isComingSoon: bool
    var popup: Option<string>

    constructor ()
      ensures branches == [] && loading && editing.None? && popup.None?
      ensures title == "" && description == "" && titleSi == "" && descriptionSi == "" && !isComingSoon
    {
      branches := [];
      loading := true;
      editing := None;
      title, description, titleSi, descriptionSi := "", "", "", "";
      isComingSoon := false;
      popup := None;
    }

    /** `loadBranches`: shows the ordered list, or the load error and keeps the old list. */
    method LoadBranches(t: Table<BranchFields>, fails: bool)
      modifies this
      ensures branches == if fails then old(branches) else OrderedView(t.rows)
      ensures popup == if fails then Some(LoadFailedMessage) else old(popup)
      ensures !loading
      ensures editing == old(editing) && title == old(title) && description == old(description)
      ensures titleSi == old(titleSi) && descriptionSi == old(descriptionSi) && isComingSoon == old(isComingSoon)
    {
      loading := true;
      var r := GetAllBranches(t, fails);
      if r.Success? {
        branches := r.value;
      } else {
        popup := Some(LoadFailedMessage);
      }
      loading := false;
    }

    /** `resetForm`: empties the four texts and clears the flag. */
    method ResetForm()
      modifies this
      ensures title == "" && description == "" && titleSi == "" && descriptionSi == "" && !isComingSoon
      ensures branches == old(branches) && editing == old(editing) && popup == old(popup) && loading == old(loading)
    {
      title, description, titleSi, descriptionSi := "", "", "", "";
      isComingSoon := false;
    }

    /**
     * `handleAddBranch`: a title that trims to nothing (only whitespace) is
     * refused with a message and no service call; otherwise `addBranch` is
     * called with the form, and on success the list is reloaded and the form
     * reset. `outcome` is what `addBranch` returned, `None` when not called.
     */
    method HandleAddBranch(t: Table<BranchFields>, createdAt: string, maxQueryFails: bool,
                           insertFails: bool, reloadFails: bool)
      returns (outcome: Option<Result<Branch, Error>>)
      requires t.Valid()
      modifies this, t
      ensures t.Valid()
      ensures outcome.None? <==> AllWhitespace(old(title))
      ensures outcome.None? ==> t.rows == old(t.rows) && popup == Some(TitleRequiredMessage)
      ensures outcome.None? ==> branches == old(branches) && title == old(title)
      ensures outcome.None? ==>
        && description == old(description) && titleSi == old(titleSi)
        && descriptionSi == old(descriptionSi) && isComingSoon == old(isComingSoon)
      ensures outcome.Some? ==> (outcome.value.Success? <==> !insertFails)
      ensures outcome.Some? && outcome.value.Failure? ==>
        outcome.value.error == DbError && t.rows == old(t.rows) && branches == old(branches)
      ensures outcome.Some? && outcome.value.Failure? ==>
        && title == old(title) && description == old(description) && titleSi == old(titleSi)
        && descriptionSi == old(descriptionSi) && isComingSoon == old(isComingSoon)
      ensures outcome.Some? && outcome.value.Success? ==>
        && t.rows == old(t.rows) + [outcome.value.value]
        && outcome.value.value.id !in Ids(old(t.rows)) && outcome.value.value.createdAt == createdAt
      ensures outcome.Some? && outcome.value.Success? ==>
        && outcome.value.value.fields ==
             BranchFields(old(title), old(description), old(titleSi), old(descriptionSi), None, None, None, None, old(isComingSoon))
        && outcome.value.value.orderIndex == NextOrderIndex(old(t.rows), maxQueryFails)
      ensures outcome.Some? && outcome.value.Success? ==>
        && branches == (if reloadFails then old(branches) else OrderedView(t.rows))
        && title == "" && description == "" && titleSi == "" && descriptionSi == "" && !isComingSoon
      ensures editing == old(editing)
    {
      if IsBlank(title) {
        popup := Some(TitleRequiredMessage);
        return None;
      }
      var r := AddBranch(t, title, description, titleSi, descriptionSi, isComingSoon, createdAt,
                         maxQueryFails, insertFails);
      if r.Failure? {
        return Some(r);
      }
      LoadBranches(t, reloadFails);
      ResetForm();
      return Some(r);
    }

    /**
     * The `try` part of `handleEditBranch`: `updateBranch` rewrites the edited
     * branch from the form; on success the list is reloaded, the edit ended
     * and the form reset.
     */
    method SaveEditedBranch(t: Table<BranchFields>, fails: bool, reloadFails: bool)
      returns (r: Result<Branch, Error>)
      requires t.Valid() && editing.Some?
      modifies this, t
      ensures t.Valid()
      ensures r.Success? <==> !fails && old(editing).value.id in Ids(old(t.rows))
      ensures r.Failure? ==>
        r.error == DbError && t.rows == old(t.rows) && branches == old(branches) && editing == old(editing)
      ensures r.Failure? ==>
        && title == old(title) && description == old(description)
        && titleSi == old(titleSi) && descriptionSi == old(descriptionSi) && isComingSoon == old(isComingSoon)
      ensures r.Success? ==>
        var id := old(editing).value.id;
        && r.value.id == id
        && t.rows == Patched(old(t.rows), id,
                             BranchEdit(old(title), old(description), old(titleSi), old(descriptionSi), old(isComingSoon)))
      ensures r.Success? ==>
        && branches == (if reloadFails then old(branches) else OrderedView(t.rows))
        && editing.None? && title == "" && description == "" && titleSi == "" && descriptionSi == ""
        && !isComingSoon
      ensures popup == if r.Success? && reloadFails then Some(LoadFailedMessage) else old(popup)
    {
      r := UpdateBranch(t, editing.value.id, title, description, titleSi, descriptionSi, isComingSoon, fails);
      if r.Failure? {
        return;
      }
      ghost var rows := t.rows;
      LoadBranches(t, reloadFails);
      editing := None;
      ResetForm();
      assert t.rows == rows;
    }

    /**
     * `handleEditBranch`: refused with the same message when no branch is
     * being edited or the title is blank; otherwise `SaveEditedBranch`.
     */
    method HandleEditBranch(t: Table<BranchFields>, fails: bool, reloadFails: bool)
      returns (outcome: Option<Result<Branch, Error>>)
      requires t.Valid()
      modifies this, t
      ensures t.Valid()
      ensures outcome.None? <==> old(editing).None? || AllWhitespace(old(title))
      ensures outcome.None? ==> t.rows == old(t.rows) && popup == Some(TitleRequiredMessage)
      ensures outcome.None? ==> branches == old(branches) && editing == old(editing)
      ensures outcome.None? ==>
        && title == old(title) && description == old(description) && titleSi == old(titleSi)
        && descriptionSi == old(descriptionSi) && isComingSoon == old(isComingSoon)
      ensures outcome.Some? ==> (outcome.value.Success? <==> !fails && old(editing).value.id in Ids(old(t.rows)))
      ensures outcome.Some? && outcome.value.Failure? ==>
        outcome.value.error == DbError && t.rows == old(t.rows) && branches == old(branches) && editing == old(editing)
      ensures outcome.Some? && outcome.value.Failure? ==>
        && title == old(title) && description == old(description)
        && titleSi == old(titleSi) && descriptionSi == old(descriptionSi) && isComingSoon == old(isComingSoon)
      ensures outcome.Some? && outcome.value.Success? ==>
        var id := old(editing).value.id;
        && outcome.value.value.id == id
        && t.rows == Patched(old(t.rows), id,
                             BranchEdit(old(title), old(description), old(titleSi), old(descriptionSi), old(isComingSoon)))
      ensures outcome.Some? && outcome.value.Success? ==>
        && branches == (if reloadFails then old(branches) else OrderedView(t.rows))
        && editing.None? && title == "" && description == "" && titleSi == "" && descriptionSi == ""
        && !isComingSoon
    {
      if editing.None? || IsBlank(title) {
        popup := Some(TitleRequiredMessage);
        return None;
      }
      var r := SaveEditedBranch(t, fails, reloadFails);
      return Some(r);
    }

    /**
     * `moveBranch(index, up)`: nothing happens when the neighbour's position is
     * outside the list. Otherwise the list is copied, the two cells swapped,
     * the swapped list shown at once and handed to `reorderBranches`; on
     * failure the list is reloaded from the table. `failAt` names the failing
     * update of the reorder, if any.
     */
    method MoveBranch(t: Table<BranchFields>, index: nat, up: bool, failAt: Option<nat>, reloadFails: bool)
      returns (r: Option<Result<(), Error>>)
      requires index < |branches| && t.Valid()
      modifies this, t
      ensures t.Valid()
      ensures var target: int := if up then index - 1 else index + 1;
        !(0 <= target < |old(branches)|) ==>
          r.None? && t.rows == old(t.rows) && branches == old(branches) && popup == old(popup)
      ensures var target: int := if up then index - 1 else index + 1;
        0 <= target < |old(branches)| ==>
          var s := Swap(old(branches), index, target);
          && r.Some?
          && (r.value.Failure? <==> failAt.Some? && failAt.value < |s|)
          && t.rows == Renumbered(old(t.rows), Ids(s), if r.value.Success? then |s| else failAt.value)
          && (r.value.Success? ==> branches == s && popup == Some(OrderUpdatedMessage))
          && (r.value.Failure? ==> branches == (if reloadFails then s else OrderedView(t.rows)))
          && (r.value.Failure? ==> popup == Some(if reloadFails then LoadFailedMessage else OrderFailedMessage))
      ensures editing == old(editing) && title == old(title) && description == old(description)
      ensures titleSi == old(titleSi) && descriptionSi == old(descriptionSi) && isComingSoon == old(isComingSoon)
    {
      var target: int := if up then index - 1 else index + 1;
      if target < 0 || target >= |branches| {
        return None;
      }
      var newBranches := SwappedCopy(branches, index, target);
      branches := newBranches;
      var result := ReorderBranches(t, newBranches, failAt);
      if result.Success? {
        popup := Some(OrderUpdatedMessage);
      } else {
        popup := Some(OrderFailedMessage);
        LoadBranches(t, reloadFails);
      }
      return Some(result);
    }
  }
}

=== FILE: login_page.dfy ===
/** The admin login form: a fixed username and password checked in the browser. */
module LoginPage {
  import opened Wrappers
  import opened Text
  import opened AdminAuth

  const DefaultUsername: string := "admin"
  const DefaultPassword: string := "admin123"
  const InvalidCredentials: string := "Invalid username or password"
  const AdminRoute: string := "/admin"

  /** `process.env.X || fallback`: an unset or empty variable gives the fallback. */
  function Configured(env: Option<string>, fallback: string): (r: string)
    ensures env.Some? && env.value != "" ==> r == env.value
    ensures env.None? || env.value == "" ==> r == fallback
  {
    if env.Some? && env.value != "" then env.value else fallback
  }

  /** The form's `error` and `loading` state. */
  class LoginForm {
    var error: string
    var loading: bool

    constructor ()
      ensures error == "" && !loading
    {
      error := "";
      loading := false;
    }

    /**
     * `handleLogin` at time `now` (milliseconds): matching credentials store
     * the flag and the login time and go to `/admin`, leaving the form
     * loading; anything else shows the error and stops loading.
     */
    method HandleLogin(browser: Browser, username: string, password: string,
                       envUsername: Option<string>, envPassword: Option<string>, now: nat)
      modifies this, browser
      ensures var ok := username == Configured(envUsername, DefaultUsername)
                     && password == Configured(envPassword, DefaultPassword);
        && (ok ==> browser.storage == old(browser.storage)[AuthenticatedKey := "true"][LoginTimeKey := ToDecimal(now)])
        && (ok ==> browser.visited == old(browser.visited) + [AdminRoute] && error == "" && loading)
        && (!ok ==> browser.storage == old(browser.storage) && browser.visited == old(browser.visited))
        && (!ok ==> error == InvalidCredentials && !loading)
    {
      error := "";
      loading := true;
      var expectedUsername := Configured(envUsername, DefaultUsername);
      var expectedPassword := Configured(envPassword, DefaultPassword);
      if username == expectedUsername && password == expectedPassword {
        browser.storage := browser.storage[AuthenticatedKey := "true"];
        browser.storage := browser.storage[LoginTimeKey := ToDecimal(now)];
        browser.visited := browser.visited + [AdminRoute];
      } else {
        error := InvalidCredentials;
        loading := false;
      }
    }
  }
}

=== FILE: news_page.dfy ===
/**
 * The news admin page: the list it shows, the bilingual add/edit form with
 * its checks, the optional image (size-checked on selection, uploaded on
 * save, the previous one deleted on replacement), and the move buttons that
 * require the row to have an `order_index`.
 */
module NewsPage {
  import opened Wrappers
  import opened Text
  import opened Tables
  import opened Storage
  import opened NewsService

  const TitlesRequiredMessage: string := "Please enter news title in both languages"
  const DescriptionsRequiredMessage: string := "Please enter news description in both languages"
  const ImageTooLargeMessage: string := "Image size should be less than 5MB"
  const NoOrderIndexMessage: string := "Order management not available. Please run the SQL to add order_index column."
  const LoadFailedMessage: string := "Failed to load news"

  /** The largest image the page takes, 5 MiB. */
  const MaxImageBytes: nat := 5 * 1024 * 1024

  /** What the page sees of a chosen image file. */
  datatype ImageFile = ImageFile(name: string, size: nat)

  /**
   * The checks `handleAddNews` and `handleEditNews` make on the form, in
   * order: both titles must hold more than whitespace, then both
   * descriptions. The message of the first failing check, or `None`.
   */
  function FormCheck(title: string, titleSi: string, description: string, descriptionSi: string): Option<string>
  {
    if AllWhitespace(title) || AllWhitespace(titleSi) then Some(TitlesRequiredMessage)
    else if AllWhitespace(description) || AllWhitespace(descriptionSi) then Some(DescriptionsRequiredMessage)
    else None
  }

  /**
   * `FormCheck` is the page's test `!title.trim() || !titleSi.trim()`, then
   * `!description.trim() || !descriptionSi.trim()`: a field is refused
   * exactly when trimming leaves it empty.
   */
  lemma FormCheckIsTrimTest(title: string, titleSi: string, description: string, descriptionSi: string)
    ensures FormCheck(title, titleSi, description, descriptionSi) ==
      if Trim(title) == [] || Trim(titleSi) == [] then Some(TitlesRequiredMessage)
      else if Trim(description) == [] || Trim(descriptionSi) == [] then Some(DescriptionsRequiredMessage)
      else None
  {
    TrimEmptyIffAllWhitespace(title);
    TrimEmptyIffAllWhitespace(titleSi);
    TrimEmptyIffAllWhitespace(description);
    TrimEmptyIffAllWhitespace(descriptionSi);
  }

  /** JavaScript's `!x` on a number that may be null: null, undefined and 0 are falsy. */
  predicate Falsy(x: Option<int>)
  {
    x.None? || x.value == 0
  }

  /** The move guard `!news.order_index && news.order_index !== 0`. */
  predicate MoveRefused(orderIndex: Option<int>)
  {
    Falsy(orderIndex) && orderIndex != Some(0)
  }

  /** The guard refuses a move exactly when the row has no `order_index`; an index of 0 is let through. */
  lemma MoveRefusedIffNoIndex(orderIndex: Option<int>)
    ensures MoveRefused(orderIndex) <==> orderIndex.None?
    ensures !MoveRefused(Some(0))
  {
  }

  /**
   * The URL `handleEditNews` passes on: the uploaded one when a new file was
   * given, otherwise `editingNews.image_url || ''`.
   */
  function EditedImageUrl(current: Option<string>, uploaded: Option<string>): string
  {
    if uploaded.Some? then uploaded.value
    else if current.Some? then current.value
    else ""
  }

  /**
   * Without a new file, what `updateNews` stores is what the edited row held,
   * an empty URL becoming NULL as it would on any save.
   */
  lemma EditKeepsImageWithoutNewFile(current: Option<string>)
    ensures ImageUrlOrNull(Some(EditedImageUrl(current, None))) == ImageUrlOrNull(current)
  {
  }

  /** Whether the upload step lets a save go on: no file chosen, or `uploadImage` stored it under a fresh key. */
  predicate UploadSucceeds(objects: set<string>, file: Option<ImageFile>, stem: string, fails: bool)
  {
    file.None? || (!fails && ImagePath(stem, file.value.name) !in objects)
  }

  /** The bucket after the upload step, starting from `objects`. */
  function AfterUpload(objects: set<string>, file: Option<ImageFile>, stem: string, fails: bool): set<string>
  {
    if file.Some? && UploadSucceeds(objects, file, stem, fails) then objects + {ImagePath(stem, file.value.name)}
    else objects
  }

  /**
   * The bucket after `handleEditNews` deletes the edited row's image: only
   * when a new file was chosen, the row's URL is non-empty, a key can be
   * read from it and the delete goes through.
   */
  function AfterOldImageDeleted(objects: set<string>, imageUrl: Option<string>, file: Option<ImageFile>,
                                deleteFails: bool): set<string>
  {
    if file.Some? && imageUrl.Some? && imageUrl.value != "" && !deleteFails then
      match ImageKeyOfUrl(imageUrl.value)
      case Some(key) => objects - {key}
      case None => objects
    else objects
  }

  /**
   * The page's state; `popup` is the last result or error message shown at
   * once (not through a timer). Loading messages are not modelled.
   */
  class NewsPage {
    var newsList: seq<News>
    var loading: bool
    var editing: Option<News>
    var title: string
    var titleSi: string
    var description: string
    var descriptionSi: string
    var date: string
    var imageFile: Option<ImageFile>
    var uploadingImage: bool
    var popup: Option<string>

    /** `today` is the date the form starts with. */
    constructor (today: string)
      ensures newsList == [] && loading && editing.None? && imageFile.None? && !uploadingImage && popup.None?
      ensures title == "" && titleSi == "" && description == "" && descriptionSi == "" && date == today
    {
      newsList := [];
      loading := true;
      editing := None;
      title, titleSi, description, descriptionSi := "", "", "", "";
      date := today;
      imageFile := None;
      uploadingImage := false;
      popup := None;
    }

    /** `loadNews`: shows the list `getAllNews` returns, or the load error and keeps the old list. */
    method LoadNews(t: NewsTable, orderedFails: bool, dateFails: bool)
      modifies this
      ensures var r := GetAllNews(t, orderedFails, dateFails);
        && newsList == (if r.Success? then r.value else old(newsList))
        && popup == (if r.Success? then old(popup) else Some(LoadFailedMessage))
      ensures !loading && editing == old(editing) && imageFile == old(imageFile)
      ensures title == old(title) && titleSi == old(titleSi) && description == old(description)
      ensures descriptionSi == old(descriptionSi) && date == old(date) && uploadingImage == old(uploadingImage)
    {
      loading := true;
      var r := GetAllNews(t, orderedFails, dateFails);
      if r.Success? {
        newsList := r.value;
      } else {
        popup := Some(LoadFailedMessage);
      }
      loading := false;
    }

    /** `resetForm`: empties the texts, sets the date to `today` and drops the chosen file. */
    method ResetForm(today: string)
      modifies this
      ensures title == "" && titleSi == "" && description == "" && descriptionSi == "" && date == today
      ensures imageFile.None?
      ensures newsList == old(newsList) && editing == old(editing) && popup == old(popup)
      ensures loading == old(loading) && uploadingImage == old(uploadingImage)
    {
      title, titleSi, description, descriptionSi := "", "", "", "";
      date := today;
      imageFile := None;
    }

    /**
     * `handleImageChange`: a file over 5 MiB is refused with a message and
     * the current choice kept; any other file becomes the choice.
     */
    method HandleImageChange(file: Option<ImageFile>)
      modifies this
      ensures file.Some? && file.value.size > MaxImageBytes ==>
        imageFile == old(imageFile) && popup == Some(ImageTooLargeMessage)
      ensures file.Some? && file.value.size <= MaxImageBytes ==> imageFile == file && popup == old(popup)
      ensures file.None? ==> imageFile == old(imageFile) && popup == old(popup)
      ensures newsList == old(newsList) && editing == old(editing) && title == old(title) && date == old(date)
      ensures titleSi == old(titleSi) && description == old(description) && descriptionSi == old(descriptionSi)
      ensures loading == old(loading) && uploadingImage == old(uploadingImage)
    {
      if file.Some? {
        if file.value.size > MaxImageBytes {
          popup := Some(ImageTooLargeMessage);
          return;
        }
        imageFile := file;
      }
    }

    /**
     * The upload step of `handleAddNews` and `handleEditNews` for the chosen
     * `file`: nothing when there is none, otherwise `uploadImage`, whose error
     * ends the save.
     */
    method UploadChosenImage(bucket: Bucket, file: Option<ImageFile>, stem: string, publicUrl: string, fails: bool)
      returns (r: Result<Option<string>, Error>)
      modifies this, bucket
      ensures file.None? ==> r == Success(None) && bucket.objects == old(bucket.objects)
      ensures file.Some? ==>
        var path := ImagePath(stem, file.value.name);
        && (r.Success? <==> !fails && path !in old(bucket.objects))
        && (r.Success? ==> r.value == Some(publicUrl))
        && (bucket.objects == if r.Success? then old(bucket.objects) + {path} else old(bucket.objects))
      ensures r.Failure? ==> r.error == StorageError
      ensures !uploadingImage
      ensures newsList == old(newsList) && loading == old(loading) && editing == old(editing)
      ensures title == old(title) && titleSi == old(titleSi) && description == old(description)
      ensures descriptionSi == old(descriptionSi) && date == old(date) && imageFile == old(imageFile)
      ensures popup == old(popup)
    {
      if file.None? {
        uploadingImage := false;
        return Success(None);
      }
      uploadingImage := true;
      var uploaded := UploadImage(bucket, file.value.name, stem, publicUrl, fails);
      uploadingImage := false;
      if uploaded.Failure? {
        return Failure(uploaded.error);
      }
      return Success(Some(uploaded.value));
    }

    /**
     * The `try` part of `handleAddNews` up to the insert: uploads the chosen
     * `file` if there is one (an upload error ends the save before any
     * insert), then `addNews` with the form and the uploaded URL or `''`.
     */
    method SaveNews(t: NewsTable, bucket: Bucket, file: Option<ImageFile>, stem: string, publicUrl: string,
                    createdAt: string, uploadFails: bool, maxQueryFails: bool, insertFails: bool)
      returns (r: Result<News, Error>)
      requires t.Valid()
      modifies this, t, bucket
      ensures t.Valid() && !uploadingImage
      ensures file.None? ==> bucket.objects == old(bucket.objects)
      ensures bucket.objects == AfterUpload(old(bucket.objects), file, stem, uploadFails)
      ensures r.Success? <==> UploadSucceeds(old(bucket.objects), file, stem, uploadFails) && !insertFails
      ensures r.Failure? ==>
        r.error == if UploadSucceeds(old(bucket.objects), file, stem, uploadFails) then DbError else StorageError
      ensures r.Failure? ==> t.rows == old(t.rows)
      ensures r.Success? ==>
        && t.rows == old(t.rows) + [r.value]
        && r.value.id !in NewsIds(old(t.rows)) && r.value.createdAt == createdAt
        && r.value.title == title && r.value.titleSi == titleSi
        && r.value.description == description && r.value.descriptionSi == descriptionSi && r.value.date == date
        && r.value.orderIndex == Some(NextNewsIndex(old(t.rows), maxQueryFails))
        && r.value.imageUrl == (if file.None? then None else ImageUrlOrNull(Some(publicUrl)))
        && (file.Some? ==> ImagePath(stem, file.value.name) in bucket.objects)
      ensures newsList == old(newsList) && editing == old(editing) && imageFile == old(imageFile)
      ensures title == old(title) && titleSi == old(titleSi) && description == old(description)
      ensures descriptionSi == old(descriptionSi) && date == old(date) && popup == old(popup)
    {
      var uploaded := UploadChosenImage(bucket, file, stem, publicUrl, uploadFails);
      if uploaded.Failure? {
        return Failure(uploaded.error);
      }
      ghost var objects := bucket.objects;
      var imageUrl := if uploaded.value.Some? then uploaded.value.value else "";
      r := AddNews(t, title, titleSi, description, descriptionSi, date, Some(imageUrl), createdAt,
                   maxQueryFails, insertFails);
      assert bucket.objects == objects;
    }

    /**
     * `handleAddNews`: after `FormCheck`, `SaveNews` uploads the chosen file
     * and inserts the row; on success the list is reloaded and the form
     * reset. `outcome` is the error or the inserted row, `None` when the form
     * was refused.
     */
    method HandleAddNews(t: NewsTable, bucket: Bucket, stem: string, publicUrl: string, createdAt: string,
                         today: string, uploadFails: bool, maxQueryFails: bool, insertFails: bool,
                         orderedFails: bool, dateFails: bool)
      returns (outcome: Option<Result<News, Error>>)
      requires t.Valid()
      modifies this, t, bucket
      ensures t.Valid() && (outcome.Some? ==> !uploadingImage)
      ensures var check := FormCheck(old(title), old(titleSi), old(description), old(descriptionSi));
        && (outcome.None? <==> check.Some?)
        && (check.Some? ==> popup == check && title == old(title) && imageFile == old(imageFile))
      ensures outcome.None? ==> t.rows == old(t.rows) && bucket.objects == old(bucket.objects)
      ensures outcome.None? ==>
        && newsList == old(newsList) && editing == old(editing) && titleSi == old(titleSi)
        && description == old(description) && descriptionSi == old(descriptionSi) && date == old(date)
      ensures old(imageFile).None? ==> bucket.objects == old(bucket.objects)
      ensures outcome.Some? ==> bucket.objects == AfterUpload(old(bucket.objects), old(imageFile), stem, uploadFails)
      ensures outcome.Some? ==>
        (outcome.value.Success? <==> UploadSucceeds(old(bucket.objects), old(imageFile), stem, uploadFails) && !insertFails)
      ensures outcome.Some? && outcome.value.Failure? ==>
        && outcome.value.error == (if UploadSucceeds(old(bucket.objects), old(imageFile), stem, uploadFails)
                                   then DbError else StorageError)
        && t.rows == old(t.rows) && newsList == old(newsList) && editing == old(editing)
        && title == old(title) && titleSi == old(titleSi) && description == old(description)
        && descriptionSi == old(descriptionSi) && date == old(date) && imageFile == old(imageFile)
      ensures outcome.Some? && outcome.value.Success? ==>
        var row := outcome.value.value;
        && t.rows == old(t.rows) + [row] && row.id !in NewsIds(old(t.rows))
        && row.title == old(title) && row.titleSi == old(titleSi)
        && row.description == old(description) && row.descriptionSi == old(descriptionSi) && row.date == old(date)
        && row.orderIndex == Some(NextNewsIndex(old(t.rows), maxQueryFails))
        && row.imageUrl == (if old(imageFile).None? then None else ImageUrlOrNull(Some(publicUrl)))
        && (old(imageFile).Some? ==> ImagePath(stem, old(imageFile).value.name) in bucket.objects)
        && title == "" && imageFile.None? && date == today
      ensures outcome.Some? && outcome.value.Success? ==>
        titleSi == "" && description == "" && descriptionSi == ""
      ensures outcome.Some? && outcome.value.Success? ==>
        var g := GetAllNews(t, orderedFails, dateFails);
        newsList == if g.Success? then g.value else old(newsList)
    {
      var check := FormCheck(title, titleSi, description, descriptionSi);
      if check.Some? {
        popup := check;
        return None;
      }
      var r := SaveNews(t, bucket, imageFile, stem, publicUrl, createdAt, uploadFails, maxQueryFails, insertFails);
      ghost var objects, rows := bucket.objects, t.rows;
      if r.Success? {
        LoadNews(t, orderedFails, dateFails);
        assert bucket.objects == objects && t.rows == rows;
        ResetForm(today);
        assert bucket.objects == objects && t.rows == rows;
      }
      return Some(r);
    }

    /**
     * The image step of `handleEditNews` for the chosen `file`: nothing when
     * there is none; otherwise the edited row's old image is deleted when its
     * URL is non-empty (a failed delete is ignored), then the new file is
     * uploaded, whose error ends the save.
     */
    method ReplaceImage(bucket: Bucket, imageUrl: Option<string>, file: Option<ImageFile>, stem: string,
                        publicUrl: string, deleteFails: bool, uploadFails: bool)
      returns (r: Result<Option<string>, Error>)
      modifies this, bucket
      ensures file.None? ==> r == Success(None) && bucket.objects == old(bucket.objects)
      ensures file.Some? ==>
        var path := ImagePath(stem, file.value.name);
        && (r.Success? ==> r.value == Some(publicUrl) && path in bucket.objects)
        && (!uploadFails && path !in old(bucket.objects) ==> r.Success?)
        && (r.Failure? ==> uploadFails || path in old(bucket.objects))
        && bucket.objects - {path} <= old(bucket.objects)
      ensures var deleted := AfterOldImageDeleted(old(bucket.objects), imageUrl, file, deleteFails);
        && (r.Success? <==> UploadSucceeds(deleted, file, stem, uploadFails))
        && bucket.objects == AfterUpload(deleted, file, stem, uploadFails)
      ensures r.Failure? ==> r.error == StorageError
      ensures file.Some? && imageUrl.Some? && !deleteFails ==>
        var key := ImageKeyOfUrl(imageUrl.value);
        key.Some? && key.value != ImagePath(stem, file.value.name) ==> key.value !in bucket.objects
      ensures !uploadingImage
      ensures newsList == old(newsList) && loading == old(loading) && editing == old(editing)
      ensures title == old(title) && titleSi == old(titleSi) && description == old(description)
      ensures descriptionSi == old(descriptionSi) && date == old(date) && imageFile == old(imageFile)
      ensures popup == old(popup)
    {
      if file.Some? && imageUrl.Some? && imageUrl.value != "" {
        DeleteImage(bucket, imageUrl.value, deleteFails);
      }
      r := UploadChosenImage(bucket, file, stem, publicUrl, uploadFails);
    }

    /**
     * `handleEditNews`: refused with the titles message when nothing is being
     * edited, then `FormCheck`. The edit ends at once. With a new file,
     * `ReplaceImage` deletes the old image and uploads the new one;
     * `updateNews` then stores the texts, the date and `EditedImageUrl`. On
     * success the list is reloaded and the form reset.
     */
    method HandleEditNews(t: NewsTable, bucket: Bucket, stem: string, publicUrl: string, today: string,
                          deleteFails: bool, uploadFails: bool, updateFails: bool,
                          orderedFails: bool, dateFails: bool)
      returns (outcome: Option<Result<News, Error>>)
      requires t.Valid()
      modifies this, t, bucket
      ensures t.Valid() && (outcome.Some? ==> !uploadingImage)
      ensures var check := if old(editing).None? then Some(TitlesRequiredMessage)
                           else FormCheck(old(title), old(titleSi), old(description), old(descriptionSi));
        && (outcome.None? <==> check.Some?)
        && (check.Some? ==> popup == check && editing == old(editing) && t.rows == old(t.rows))
        && (check.Some? ==> bucket.objects == old(bucket.objects))
      ensures outcome.None? ==>
        && newsList == old(newsList) && title == old(title) && titleSi == old(titleSi)
        && description == old(description) && descriptionSi == old(descriptionSi)
        && date == old(date) && imageFile == old(imageFile)
      ensures outcome.Some? ==> editing.None?
      ensures old(imageFile).None? ==> bucket.objects == old(bucket.objects)
      ensures outcome.Some? && outcome.value.Failure? ==> t.rows == old(t.rows)
      ensures outcome.Some? && outcome.value.Failure? && old(imageFile).Some? ==>
        updateFails || uploadFails || ImagePath(stem, old(imageFile).value.name) in old(bucket.objects)
          || old(editing).value.id !in NewsIds(old(t.rows))
      ensures outcome.Some? ==>
        var deleted := AfterOldImageDeleted(old(bucket.objects), old(editing).value.imageUrl, old(imageFile), deleteFails);
        && bucket.objects == AfterUpload(deleted, old(imageFile), stem, uploadFails)
        && (outcome.value.Success? <==>
              UploadSucceeds(deleted, old(imageFile), stem, uploadFails) && !updateFails
              && old(editing).value.id in NewsIds(old(t.rows)))
        && (outcome.value.Failure? ==>
              outcome.value.error == if UploadSucceeds(deleted, old(imageFile), stem, uploadFails)
                                     then DbError else StorageError)
      ensures outcome.Some? && outcome.value.Failure? ==>
        && newsList == old(newsList) && title == old(title) && titleSi == old(titleSi)
        && description == old(description) && descriptionSi == old(descriptionSi)
        && date == old(date) && imageFile == old(imageFile)
      ensures outcome.Some? && outcome.value.Success? ==>
        var edited := old(editing).value;
        var url := EditedImageUrl(edited.imageUrl, if old(imageFile).None? then None else Some(publicUrl));
        && outcome.value.value.id == edited.id
        && t.rows == NewsUpdated(old(t.rows), edited.id, old(title), old(titleSi), old(description),
                                 old(descriptionSi), old(date), Some(url))
        && (old(imageFile).Some? ==> ImagePath(stem, old(imageFile).value.name) in bucket.objects)
        && title == "" && imageFile.None? && date == today
      ensures outcome.Some? && outcome.value.Success? ==>
        titleSi == "" && description == "" && descriptionSi == ""
      ensures outcome.Some? && outcome.value.Success? ==>
        var g := GetAllNews(t, orderedFails, dateFails);
        newsList == if g.Success? then g.value else old(newsList)
      ensures outcome.Some? && old(imageFile).Some? && old(editing).value.imageUrl.Some? && !deleteFails ==>
        var key := ImageKeyOfUrl(old(editing).value.imageUrl.value);
        key.Some? && key.value != ImagePath(stem, old(imageFile).value.name) ==> key.value !in bucket.objects
    {
      if editing.None? {
        popup := Some(TitlesRequiredMessage);
        return None;
      }
      var check := FormCheck(title, titleSi, description, descriptionSi);
      if check.Some? {
        popup := check;
        return None;
      }
      var news := editing.value;
      editing := None;
      var uploaded := ReplaceImage(bucket, news.imageUrl, imageFile, stem, publicUrl, deleteFails, uploadFails);
      if uploaded.Failure? {
        return Some(Failure(uploaded.error));
      }
      ghost var objects := bucket.objects;
      var r := UpdateNews(t, news.id, title, titleSi, description, descriptionSi, date,
                          Some(EditedImageUrl(news.imageUrl, uploaded.value)), updateFails);
      assert bucket.objects == objects;
      ghost var rows := t.rows;
      if r.Success? {
        LoadNews(t, orderedFails, dateFails);
        assert bucket.objects == objects && t.rows == rows;
        ResetForm(today);
      }
      assert bucket.objects == objects;
      return Some(r);
    }

    /**
     * `handleMoveUp(news)`: refused with a message when the row has no
     * `order_index`; otherwise `moveNewsUp(news.id, news.order_index)`, and on
     * success the list is reloaded.
     */
    method HandleMoveUp(t: NewsTable, news: News, fetchFails: bool, firstFails: bool, secondFails: bool,
                        orderedFails: bool, dateFails: bool)
      returns (outcome: Option<Result<(), Error>>)
      requires t.Valid()
      modifies this, t
      ensures t.Valid()
      ensures outcome.None? <==> news.orderIndex.None?
      ensures outcome.None? ==> t.rows == old(t.rows) && popup == Some(NoOrderIndexMessage) && newsList == old(newsList)
      ensures outcome.Some? && outcome.value.Success? ==>
        t.rows == MovedUp(old(t.rows), news.id, news.orderIndex.value)
      ensures outcome.Some? ==>
        var v := NewsView(old(t.rows)); var ci := FindIndex(v, news.id);
        && (outcome.value.Success? <==> !fetchFails && (ci <= 0 || (!firstFails && !secondFails)))
        && (fetchFails || ci <= 0 || firstFails ==> t.rows == old(t.rows))
        && (!fetchFails && ci > 0 && !firstFails && secondFails ==>
              t.rows == NewsWithIndex(old(t.rows), news.id, v[ci - 1].orderIndex))
      ensures outcome.Some? && outcome.value.Success? ==>
        var r := GetAllNews(t, orderedFails, dateFails);
        newsList == if r.Success? then r.value else old(newsList)
      ensures outcome.Some? && outcome.value.Failure? ==> newsList == old(newsList) && popup == old(popup)
      ensures editing == old(editing) && imageFile == old(imageFile) && date == old(date)
      ensures title == old(title) && titleSi == old(titleSi)
      ensures description == old(description) && descriptionSi == old(descriptionSi)
    {
      MoveRefusedIffNoIndex(news.orderIndex);
      if MoveRefused(news.orderIndex) {
        popup := Some(NoOrderIndexMessage);
        return None;
      }
      var r := MoveNewsUp(t, news.id, news.orderIndex.value, fetchFails, firstFails, secondFails);
      if r.Success? {
        LoadNews(t, orderedFails, dateFails);
      }
      return Some(r);
    }

    /** `handleMoveDown(news)`: as `HandleMoveUp`, with `moveNewsDown`. */
    method HandleMoveDown(t: NewsTable, news: News, fetchFails: bool, firstFails: bool, secondFails: bool,
                          orderedFails: bool, dateFails: bool)
      returns (outcome: Option<Result<(), Error>>)
      requires t.Valid()
      modifies this, t
      ensures t.Valid()
      ensures outcome.None? <==> news.orderIndex.None?
      ensures outcome.None? ==> t.rows == old(t.rows) && popup == Some(NoOrderIndexMessage) && newsList == old(newsList)
      ensures outcome.Some? && outcome.value.Success? ==>
        t.rows == MovedDown(old(t.rows), news.id, news.orderIndex.value)
      ensures outcome.Some? ==>
        var v := NewsView(old(t.rows)); var ci := FindIndex(v, news.id);
        && (outcome.value.Success? <==> !fetchFails && (ci >= |v| - 1 || (!firstFails && !secondFails)))
        && (fetchFails || ci >= |v| - 1 || firstFails ==> t.rows == old(t.rows))
        && (!fetchFails && ci < |v| - 1 && !firstFails && secondFails ==>
              t.rows == NewsWithIndex(old(t.rows), news.id, v[ci + 1].orderIndex))
      ensures outcome.Some? && outcome.value.Success? ==>
        var r := GetAllNews(t, orderedFails, dateFails);
        newsList == if r.Success? then r.value else old(newsList)
      ensures outcome.Some? && outcome.value.Failure? ==> newsList == old(newsList) && popup == old(popup)
      ensures editing == old(editing) && imageFile == old(imageFile) && date == old(date)
      ensures title == old(title) && titleSi == old(titleSi)
      ensures description == old(description) && descriptionSi == old(descriptionSi)
    {
      MoveRefusedIffNoIndex(news.orderIndex);
      if MoveRefused(news.orderIndex) {
        popup := Some(NoOrderIndexMessage);
        return None;
      }
      var r := MoveNewsDown(t, news.id, news.orderIndex.value, fetchFails, firstFails, secondFails);
      if r.Success? {
        LoadNews(t, orderedFails, dateFails);
      }
      return Some(r);
    }
  }
}

=== FILE: news_service.dfy ===
/**
 * The `news` table and its `news-images` bucket. Unlike the other tables,
 * `news.order_index` may be NULL (the column came later), the list falls back
 * to date order when ordering by it fails, and rows move one step at a time by
 * exchanging `order_index` with a neighbour.
 */
module NewsService {
  import opened Wrappers
  import opened Sorting
  import opened Text
  import opened Tables
  import opened Storage

  datatype News = News(
    id: int,
    title: string,
    titleSi: string,
    description: string,
    descriptionSi: string,
    date: string,
    imageUrl: Option<string>,
    orderIndex: Option<int>,
    createdAt: string)

  /**
   * The ids of `rows`, in order. `Tables.Ids` cannot serve here: a news row is
   * not a `Row`, since its `order_index` may be NULL and the table keeps no
   * generic field record.
   */
  function NewsIds(rows: seq<News>): (r: seq<int>)
    ensures |r| == |rows| && forall i :: 0 <= i < |rows| ==> r[i] == rows[i].id
  {
    seq(|rows|, i requires 0 <= i < |rows| => rows[i].id)
  }

  /** No two rows share an id: `Tables.DistinctIds` for news rows. */
  ghost predicate DistinctNewsIds(rows: seq<News>)
  {
    forall i, j :: 0 <= i < j < |rows| ==> rows[i].id != rows[j].id
  }

  /** `order('order_index', { ascending: true })`: ascending, NULLs last. */
  predicate NullsLastLeq(a: News, b: News)
  {
    b.orderIndex.None? || (a.orderIndex.Some? && a.orderIndex.value <= b.orderIndex.value)
  }

  /** `order('date', { ascending: false })`: latest date first. */
  predicate DateDescLeq(a: News, b: News)
  {
    LexLeq(b.date, a.date)
  }

  /** The rows as the list ordered by `order_index` shows them. */
  function NewsView(rows: seq<News>): (r: seq<News>)
    ensures multiset(r) == multiset(rows) && |r| == |rows|
    ensures Sorted(r, NullsLastLeq)
    ensures forall i, j :: 0 <= i < j < |r| && r[i].orderIndex.None? ==> r[j].orderIndex.None?
    ensures forall i, j :: 0 <= i < j < |r| && r[j].orderIndex.Some? ==>
      r[i].orderIndex.Some? && r[i].orderIndex.value <= r[j].orderIndex.value
  {
    assert TotalPreorder(NullsLastLeq);
    SortBy(rows, NullsLastLeq)
  }

  /** The rows as the fallback list ordered by date shows them. */
  function DateView(rows: seq<News>): (r: seq<News>)
    ensures multiset(r) == multiset(rows) && |r| == |rows|
    ensures forall i, j :: 0 <= i < j < |r| ==> LexLeq(r[j].date, r[i].date)
  {
    assert TotalPreorder(DateDescLeq) by {
      forall a: News, b: News ensures DateDescLeq(a, b) || DateDescLeq(b, a) {
        LexLeqTotal(a.date, b.date);
      }
      forall a: News, b: News, c: News | DateDescLeq(a, b) && DateDescLeq(b, c) ensures DateDescLeq(a, c) {
        LexLeqTransitive(c.date, b.date, a.date);
      }
    }
    var r := SortBy(rows, DateDescLeq);
    assert Sorted(r, DateDescLeq);
    r
  }

  class NewsTable {
    var rows: seq<News>
    var nextId: int

    ghost predicate Valid()
      reads this
    {
      DistinctNewsIds(rows) && forall i :: 0 <= i < |rows| ==> rows[i].id < nextId
    }

    constructor ()
      ensures Valid() && rows == []
    {
      rows := [];
      nextId := 1;
    }
  }

  /**
   * `getAllNews`: ordered by `order_index`; if that query fails, by date,
   * latest first; if that fails too, the error is thrown.
   */
  function GetAllNews(t: NewsTable, orderedFails: bool, dateFails: bool): (r: Result<seq<News>, Error>)
    reads t
    ensures r.Success? <==> !orderedFails || !dateFails
    ensures r.Failure? ==> r.error == DbError
    ensures r.Success? ==> multiset(r.value) == multiset(t.rows)
    ensures r.Success? && !orderedFails ==> forall i, j :: 0 <= i < j < |r.value| && r.value[j].orderIndex.Some? ==>
      r.value[i].orderIndex.Some? && r.value[i].orderIndex.value <= r.value[j].orderIndex.value
    ensures r.Success? && orderedFails ==> forall i, j :: 0 <= i < j < |r.value| ==> LexLeq(r.value[j].date, r.value[i].date)
  {
    if !orderedFails then Success(NewsView(t.rows))
    else if !dateFails then Success(DateView(t.rows))
    else Failure(DbError)
  }

  /** Every row has an `order_index`. */
  predicate Indexed(rows: seq<News>)
  {
    forall i :: 0 <= i < |rows| ==> rows[i].orderIndex.Some?
  }

  function MaxNewsIndex(rows: seq<News>): (m: int)
    requires rows != [] && Indexed(rows)
    ensures forall i :: 0 <= i < |rows| ==> rows[i].orderIndex.value <= m
    ensures exists i :: 0 <= i < |rows| && rows[i].orderIndex.value == m
    decreases |rows|
  {
    if |rows| == 1 then rows[0].orderIndex.value
    else
      var m := MaxNewsIndex(rows[1..]);
      assert forall i :: 1 <= i < |rows| ==> rows[i] == rows[1..][i - 1];
      if rows[0].orderIndex.value > m then rows[0].orderIndex.value else m
  }

  /**
   * The index `addNews` gives a new row: `(first?.order_index ?? -1) + 1` over
   * the rows by descending `order_index`. NULLs come first in that order, so a
   * single row without an index yields 0, as do an empty table and a failed
   * query.
   */
  function NextNewsIndex(rows: seq<News>, queryFails: bool): (r: int)
    ensures queryFails || !Indexed(rows) ==> r == 0
    ensures rows == [] ==> r == 0
    ensures !queryFails && rows != [] && Indexed(rows) ==>
      (forall i :: 0 <= i < |rows| ==> rows[i].orderIndex.value < r) &&
      (exists i :: 0 <= i < |rows| && rows[i].orderIndex.value == r - 1)
  {
    if queryFails || rows == [] || !Indexed(rows) then 0 else MaxNewsIndex(rows) + 1
  }

  /** `imageUrl || null`: an absent or empty URL is stored as NULL. */
  function ImageUrlOrNull(imageUrl: Option<string>): (r: Option<string>)
    ensures r.Some? <==> imageUrl.Some? && imageUrl.value != ""
    ensures r.Some? ==> r == imageUrl
  {
    if imageUrl.Some? && imageUrl.value != "" then imageUrl else None
  }

  /** `addNews`: inserts a row with the texts, the date, the image URL or NULL, and the next index. */
  method AddNews(t: NewsTable, title: string, titleSi: string, description: string, descriptionSi: string,
                 date: string, imageUrl: Option<string>, createdAt: string,
                 maxQueryFails: bool, insertFails: bool)
    returns (r: Result<News, Error>)
    requires t.Valid()
    modifies t
    ensures t.Valid()
    ensures r.Success? <==> !insertFails
    ensures r.Failure? ==> r.error == DbError && t.rows == old(t.rows)
    ensures r.Success? ==> t.rows == old(t.rows) + [r.value] && r.value.id !in NewsIds(old(t.rows))
    ensures r.Success? ==> r.value == News(r.value.id, title, titleSi, description, descriptionSi, date,
                                           ImageUrlOrNull(imageUrl), Some(NextNewsIndex(old(t.rows), maxQueryFails)),
                                           createdAt)
  {
    var next := NextNewsIndex(t.rows, maxQueryFails);
    if insertFails {
      return Failure(DbError);
    }
    var row := News(t.nextId, title, titleSi, description, descriptionSi, date, ImageUrlOrNull(imageUrl),
                    Some(next), createdAt);
    t.rows := t.rows + [row];
    t.nextId := t.nextId + 1;
    return Success(row);
  }

  /**
   * `updateNews`: rewrites the texts, the date and the image URL (or NULL) of
   * the row with that id; `single()` makes a missing id an error.
   */
  method UpdateNews(t: NewsTable, id: int, title: string, titleSi: string, description: string,
                    descriptionSi: string, date: string, imageUrl: Option<string>, fails: bool)
    returns (r: Result<News, Error>)
    requires t.Valid()
    modifies t
    ensures t.Valid() && t.nextId == old(t.nextId)
    ensures r.Success? <==> !fails && id in NewsIds(old(t.rows))
    ensures r.Failure? ==> r.error == DbError && t.rows == old(t.rows)
    ensures r.Success? ==> t.rows == NewsUpdated(old(t.rows), id, title, titleSi, description, descriptionSi, date, imageUrl)
    ensures r.Success? ==> r.value in t.rows && r.value.id == id
  {
    if fails || id !in NewsIds(t.rows) {
      return Failure(DbError);
    }
    var rows := t.rows;
    var i :| 0 <= i < |rows| && rows[i].id == id;
    t.rows := NewsUpdated(rows, id, title, titleSi, description, descriptionSi, date, imageUrl);
    return Success(t.rows[i]);
  }

  /**
   * The rows after the texts, the date and the image URL (NULL for an empty
   * one) of the row with that id were rewritten; every other row, the ids and
   * the order are kept.
   */
  function NewsUpdated(rows: seq<News>, id: int, title: string, titleSi: string, description: string,
                       descriptionSi: string, date: string, imageUrl: Option<string>): (r: seq<News>)
    ensures |r| == |rows| && NewsIds(r) == NewsIds(rows)
    ensures forall i :: 0 <= i < |rows| ==>
      r[i] == if rows[i].id == id
        then rows[i].(title := title, titleSi := titleSi, description := description,
                      descriptionSi := descriptionSi, date := date, imageUrl := ImageUrlOrNull(imageUrl))
        else rows[i]
  {
    var url := ImageUrlOrNull(imageUrl);
    var r := seq(|rows|, k requires 0 <= k < |rows| =>
      if rows[k].id == id
      then rows[k].(title := title, titleSi := titleSi, description := description,
                    descriptionSi := descriptionSi, date := date, imageUrl := url)
      else rows[k]);
    assert NewsIds(r) == NewsIds(rows);
    r
  }

  /** The table after `delete().eq('id', id)`. */
  function NewsWithout(rows: seq<News>, id: int): (r: seq<News>)
    ensures forall x :: x in r <==> x in rows && x.id != id
    ensures id !in NewsIds(rows) ==> r == rows
    decreases |rows|
  {
    if rows == [] then []
    else
      var rest := NewsWithout(rows[1..], id);
      assert forall x :: x in rows <==> x == rows[0] || x in rows[1..];
      assert id !in NewsIds(rows) ==> rows == [rows[0]] + rows[1..] && id !in NewsIds(rows[1..]);
      if rows[0].id == id then rest else [rows[0]] + rest
  }

  /** Deleting keeps the remaining ids distinct. */
  lemma {:induction false} NewsWithoutDistinct(rows: seq<News>, id: int)
    requires DistinctNewsIds(rows)
    ensures DistinctNewsIds(NewsWithout(rows, id))
    decreases |rows|
  {
    if rows != [] {
      assert DistinctNewsIds(rows[1..]) by {
        forall i, j | 0 <= i < j < |rows[1..]| ensures rows[1..][i].id != rows[1..][j].id {
          assert rows[1..][i] == rows[i + 1] && rows[1..][j] == rows[j + 1];
        }
      }
      NewsWithoutDistinct(rows[1..], id);
      var rest := NewsWithout(rows[1..], id);
      if rows[0].id != id {
        var r := [rows[0]] + rest;
        forall j | 0 < j < |r| ensures r[0].id != r[j].id {
          assert r[j] in rest;
          var k :| 1 <= k < |rows| && rows[k] == r[j];
        }
      }
    }
  }

  /** `deleteNews`: removes the row with that id; a missing id is no error. */
  method DeleteNews(t: NewsTable, id: int, fails: bool) returns (r: Result<(), Error>)
    requires t.Valid()
    modifies t
    ensures t.Valid() && t.nextId == old(t.nextId)
    ensures r.Success? <==> !fails
    ensures r.Failure? ==> r.error == DbError
    ensures t.rows == if fails then old(t.rows) else NewsWithout(old(t.rows), id)
  {
    if fails {
      return Failure(DbError);
    }
    NewsWithoutDistinct(t.rows, id);
    t.rows := NewsWithout(t.rows, id);
    return Success(());
  }

  /** The table after `update({ order_index: k }).eq('id', id)`; `None` writes NULL. */
  function NewsWithIndex(rows: seq<News>, id: int, k: Option<int>): (r: seq<News>)
    ensures |r| == |rows| && NewsIds(r) == NewsIds(rows)
    ensures forall i :: 0 <= i < |rows| ==>
      r[i] == if rows[i].id == id then rows[i].(orderIndex := k) else rows[i]
  {
    seq(|rows|, i requires 0 <= i < |rows| => if rows[i].id == id then rows[i].(orderIndex := k) else rows[i])
  }

  /** `updateOrderIndex`: sets one row's `order_index`; a missing id is no error. */
  method UpdateOrderIndex(t: NewsTable, id: int, k: Option<int>, fails: bool) returns (r: Result<(), Error>)
    requires t.Valid()
    modifies t
    ensures t.Valid() && t.nextId == old(t.nextId)
    ensures r.Success? <==> !fails
    ensures r.Failure? ==> r.error == DbError
    ensures t.rows == if fails then old(t.rows) else NewsWithIndex(old(t.rows), id, k)
  {
    if fails {
      return Failure(DbError);
    }
    t.rows := NewsWithIndex(t.rows, id, k);
    return Success(());
  }

  /**
   * The two writes of a move: `order_index = k` on `id`, then, unless that
   * failed, `order_index = k2` on `id2`; the first error is thrown.
   */
  method WriteTwoIndexes(t: NewsTable, id: int, k: Option<int>, id2: int, k2: Option<int>,
                         firstFails: bool, secondFails: bool)
    returns (r: Result<(), Error>)
    requires t.Valid()
    modifies t
    ensures t.Valid() && t.nextId == old(t.nextId)
    ensures r.Success? <==> !firstFails && !secondFails
    ensures r.Failure? ==> r.error == DbError
    ensures t.rows ==
      if firstFails then old(t.rows)
      else if secondFails then NewsWithIndex(old(t.rows), id, k)
      else NewsWithIndex(NewsWithIndex(old(t.rows), id, k), id2, k2)
  {
    r := UpdateOrderIndex(t, id, k, firstFails);
    if r.Failure? {
      return;
    }
    r := UpdateOrderIndex(t, id2, k2, secondFails);
  }

  /** What a news image URL is split on to find its object key. */
  const ImageKeyMarker: string := "/storage/v1/object/public/news-images/"

  /** The object key of an image upload: `news/<stem>.<extension>`, `stem` standing for the random part. */
  function ImagePath(stem: string, fileName: string): string
  {
    "news/" + stem + "." + LastSegment(fileName, '.')
  }

  /**
   * `uploadImage`: stores the file under a fresh key (an existing key is an
   * error) and returns its public URL (`publicUrl`, as the storage client
   * reports it); a storage error is thrown as it is.
   */
  method UploadImage(bucket: Bucket, fileName: string, stem: string, publicUrl: string, fails: bool)
    returns (r: Result<string, Error>)
    modifies bucket
    ensures var path := ImagePath(stem, fileName);
      && (r.Success? <==> !fails && path !in old(bucket.objects))
      && (r.Success? ==> r.value == publicUrl)
      && (bucket.objects == if r.Success? then old(bucket.objects) + {path} else old(bucket.objects))
    ensures r.Failure? ==> r.error == StorageError
  {
    var path := ImagePath(stem, fileName);
    var ok := bucket.Upload(path, fails);
    if !ok {
      return Failure(StorageError);
    }
    return Success(publicUrl);
  }

  /**
   * The key `deleteImage` removes for an image URL: the text between the first
   * and the second occurrence of the marker (or the end); `None` when the URL
   * does not contain the marker.
   */
  function ImageKeyOfUrl(url: string): (r: Option<string>)
    ensures r.None? <==> Free(url, ImageKeyMarker)
    ensures r.Some? ==> Free(r.value, ImageKeyMarker)
    ensures match IndexOf(url, ImageKeyMarker, 0)
      case None => r.None?
      case Some(i) =>
        i + |ImageKeyMarker| <= |url| && r == Some(BeforeFirst(url[i + |ImageKeyMarker|..], ImageKeyMarker))
  {
    SecondPiece(url, ImageKeyMarker);
    var parts := Split(url, ImageKeyMarker);
    if |parts| > 1 then Some(parts[1]) else None
  }

  /** The marker's '-' does not occur earlier in the marker. */
  lemma NoHyphenInImageMarker()
    ensures ImageKeyMarker[30] == '-' && '-' !in ImageKeyMarker[..30]
  {
  }

  /** `news/<file>` holds one '/' when `file` holds none. */
  lemma NewsPathOneSlash(file: string)
    requires '/' !in file
    ensures var path := "news/" + file;
      forall i, j :: 0 <= i < j < |path| ==> !(path[i] == '/' && path[j] == '/')
  {
    var path := "news/" + file;
    forall i, j | 0 <= i < j < |path| ensures !(path[i] == '/' && path[j] == '/') {
      if j < 5 {
        assert path[i] == "news/"[i];
      } else if i < 5 {
        assert path[j] == file[j - 5];
      } else {
        assert path[i] == file[i - 5];
      }
    }
  }

  /**
   * The key recovered from an image URL of the bucket is the key the image
   * was stored under, so replacing an image removes the old object. The
   * public URL is `<origin>/storage/v1/object/public/news-images/<key>`; this
   * needs an origin without '-' and an object name without '/'.
   */
  lemma ImageKeyOfStoredUrl(origin: string, file: string)
    requires '-' !in origin && '/' !in file
    ensures ImageKeyOfUrl(origin + ImageKeyMarker + "news/" + file) == Some("news/" + file)
  {
    var path := "news/" + file;
    assert origin + ImageKeyMarker + "news/" + file == origin + ImageKeyMarker + path;
    NoHyphenInImageMarker();
    MarkerFirstAfter(origin, ImageKeyMarker, path, 30);
    SplitAtFirst(origin, ImageKeyMarker, path);
    NewsPathOneSlash(file);
    OneSlashIsFree(path, ImageKeyMarker);
    SplitFree(path, ImageKeyMarker);
  }

  /**
   * `deleteImage`: removes the object the URL names, if it names one; errors
   * are swallowed, so the call always returns normally.
   */
  method DeleteImage(bucket: Bucket, imageUrl: string, fails: bool)
    modifies bucket
    ensures bucket.objects ==
      match ImageKeyOfUrl(imageUrl)
      case Some(key) => if fails then old(bucket.objects) else old(bucket.objects) - {key}
      case None => old(bucket.objects)
  {
    var key := ImageKeyOfUrl(imageUrl);
    if key.Some? {
      var removed := bucket.Remove(key.value, fails);
    }
  }

  /** `findIndex(item => item.id === id)`: the first position holding that id, or -1. */
  function FindIndex(s: seq<News>, id: int): (r: int)
    ensures -1 <= r < |s|
    ensures r >= 0 ==> s[r].id == id && forall j :: 0 <= j < r ==> s[j].id != id
    ensures r == -1 ==> forall j :: 0 <= j < |s| ==> s[j].id != id
    decreases |s|
  {
    if s == [] then -1
    else if s[0].id == id then 0
    else
      var r := FindIndex(s[1..], id);
      assert forall j :: 1 <= j < |s| ==> s[j] == s[1..][j - 1];
      if r == -1 then -1 else r + 1
  }

  /**
   * The table after both writes of `moveNewsUp(id, cur)`: unless the row is
   * first in the list or missing, it takes its predecessor's `order_index` and
   * the predecessor takes `cur`.
   */
  function MovedUp(rows: seq<News>, id: int, cur: int): seq<News>
  {
    var v := NewsView(rows);
    var ci := FindIndex(v, id);
    if ci <= 0 then rows
    else NewsWithIndex(NewsWithIndex(rows, id, v[ci - 1].orderIndex), v[ci - 1].id, Some(cur))
  }

  /**
   * The table after both writes of `moveNewsDown(id, cur)`: unless the row
   * is last in the list, it takes its successor's `order_index` and the
   * successor takes `cur`. A missing id (position -1) is not ruled out.
   */
  function MovedDown(rows: seq<News>, id: int, cur: int): seq<News>
  {
    var v := NewsView(rows);
    var ci := FindIndex(v, id);
    if ci >= |v| - 1 then rows
    else NewsWithIndex(NewsWithIndex(rows, id, v[ci + 1].orderIndex), v[ci + 1].id, Some(cur))
  }

  /**
   * `moveNewsUp`: reads the ordered list (a read error is thrown), returns
   * when the row is first or missing, and otherwise issues the two
   * `updateOrderIndex` writes in turn; an error in either is thrown, and a
   * failed second write leaves the first in place.
   */
  method MoveNewsUp(t: NewsTable, id: int, cur: int, fetchFails: bool, firstFails: bool, secondFails: bool)
    returns (r: Result<(), Error>)
    requires t.Valid()
    modifies t
    ensures t.Valid() && t.nextId == old(t.nextId)
    ensures var v := NewsView(old(t.rows)); var ci := FindIndex(v, id);
      && (r.Success? <==> !fetchFails && (ci <= 0 || (!firstFails && !secondFails)))
      && (fetchFails || ci <= 0 || firstFails ==> t.rows == old(t.rows))
      && (!fetchFails && ci > 0 && !firstFails && secondFails ==>
            t.rows == NewsWithIndex(old(t.rows), id, v[ci - 1].orderIndex))
    ensures r.Failure? ==> r.error == DbError
    ensures r.Success? ==> t.rows == MovedUp(old(t.rows), id, cur)
  {
    if fetchFails {
      return Failure(DbError);
    }
    var all := NewsView(t.rows);
    var ci := FindIndex(all, id);
    if ci <= 0 {
      return Success(());
    }
    var previous := all[ci - 1];
    r := WriteTwoIndexes(t, id, previous.orderIndex, previous.id, Some(cur), firstFails, secondFails);
  }

  /**
   * `moveNewsDown`: as `moveNewsUp` towards the end of the list; it returns
   * only when the position is at or past the last one, so a missing id
   * (position -1) goes on and rewrites the first row.
   */
  method MoveNewsDown(t: NewsTable, id: int, cur: int, fetchFails: bool, firstFails: bool, secondFails: bool)
    returns (r: Result<(), Error>)
    requires t.Valid()
    modifies t
    ensures t.Valid() && t.nextId == old(t.nextId)
    ensures var v := NewsView(old(t.rows)); var ci := FindIndex(v, id);
      && (r.Success? <==> !fetchFails && (ci >= |v| - 1 || (!firstFails && !secondFails)))
      && (fetchFails || ci >= |v| - 1 || firstFails ==> t.rows == old(t.rows))
      && (!fetchFails && ci < |v| - 1 && !firstFails && secondFails ==>
            t.rows == NewsWithIndex(old(t.rows), id, v[ci + 1].orderIndex))
    ensures r.Failure? ==> r.error == DbError
    ensures r.Success? ==> t.rows == MovedDown(old(t.rows), id, cur)
  {
    if fetchFails {
      return Failure(DbError);
    }
    var all := NewsView(t.rows);
    var ci := FindIndex(all, id);
    if ci >= |all| - 1 {
      return Success(());
    }
    var next := all[ci + 1];
    r := WriteTwoIndexes(t, id, next.orderIndex, next.id, Some(cur), firstFails, secondFails);
  }

  /** Every listed row has an index and the indexes strictly increase down the list. */
  ghost predicate StrictlyOrdered(v: seq<News>)
  {
    && (forall i :: 0 <= i < |v| ==> v[i].orderIndex.Some?)
    && (forall i, j :: 0 <= i < j < |v| && v[i].orderIndex.Some? && v[j].orderIndex.Some? ==>
          v[i].orderIndex.value < v[j].orderIndex.value)
  }

  /** With distinct ids, writing the index of the row at `i` is a point update at `i`. */
  lemma NewsWithIndexAt(rows: seq<News>, i: nat, k: Option<int>)
    requires DistinctNewsIds(rows) && i < |rows|
    ensures NewsWithIndex(rows, rows[i].id, k) == rows[i := rows[i].(orderIndex := k)]
  {
    var r := NewsWithIndex(rows, rows[i].id, k);
    forall j | 0 <= j < |rows| ensures r[j] == rows[i := rows[i].(orderIndex := k)][j] {
      if j != i {
        if j < i { assert rows[j].id != rows[i].id; } else { assert rows[i].id != rows[j].id; }
      }
    }
  }

  /** Two writes to rows with different ids commute. */
  lemma NewsWithIndexCommute(rows: seq<News>, a: int, ka: Option<int>, b: int, kb: Option<int>)
    requires a != b
    ensures NewsWithIndex(NewsWithIndex(rows, a, ka), b, kb) == NewsWithIndex(NewsWithIndex(rows, b, kb), a, ka)
  {
    var l := NewsWithIndex(NewsWithIndex(rows, a, ka), b, kb);
    var r := NewsWithIndex(NewsWithIndex(rows, b, kb), a, ka);
    forall i | 0 <= i < |rows| ensures l[i] == r[i] {
    }
  }

  /** Replacing two entries of two permutations of one multiset by the same two values. */
  lemma ReplaceTwoMultiset<T>(a: seq<T>, i: nat, j: nat, b: seq<T>, p: nat, q: nat, u: T, w: T)
    requires i < |a| && j < |a| && i != j && p < |b| && q < |b| && p != q
    requires multiset(a) == multiset(b) && b[p] == a[i] && b[q] == a[j]
    ensures multiset(a[i := u][j := w]) == multiset(b[p := w][q := u])
  {
    TwoUpdatesMultiset(a, i, j, u, w);
    TwoUpdatesMultiset(b, p, q, w, u);
    assert multiset{u, w} == multiset{w, u};
    CancelMultiset(multiset(a[i := u][j := w]), multiset(b[p := w][q := u]), multiset{a[i], a[j]});
  }

  /** A point update trades the old value for the new one. */
  lemma UpdateMultiset<T>(a: seq<T>, i: nat, u: T)
    requires i < |a|
    ensures multiset(a[i := u]) + multiset{a[i]} == multiset(a) + multiset{u}
  {
    assert a == a[..i] + [a[i]] + a[i + 1..];
    assert a[i := u] == a[..i] + [u] + a[i + 1..];
  }

  /** Two trades in a row, `x` for `u` and then `y` for `w`, trade both at once. */
  lemma ChainTrades<T>(m: multiset<T>, m1: multiset<T>, m2: multiset<T>, x: T, y: T, u: T, w: T)
    requires m1 + multiset{x} == m + multiset{u}
    requires m2 + multiset{y} == m1 + multiset{w}
    ensures m2 + multiset{x, y} == m + multiset{u, w}
  {
    calc {
      m2 + multiset{x, y};
      m2 + multiset{y} + multiset{x};
      m1 + multiset{w} + multiset{x};
      m1 + multiset{x} + multiset{w};
      m + multiset{u} + multiset{w};
    }
  }

  /** Two point updates at different positions trade the two old values for the new ones. */
  lemma TwoUpdatesMultiset<T>(a: seq<T>, i: nat, j: nat, u: T, w: T)
    requires i < |a| && j < |a| && i != j
    ensures multiset(a[i := u][j := w]) + multiset{a[i], a[j]} == multiset(a) + multiset{u, w}
  {
    var a1 := a[i := u];
    UpdateMultiset(a, i, u);
    UpdateMultiset(a1, j, w);
    ChainTrades(multiset(a), multiset(a1), multiset(a1[j := w]), a[i], a[j], u, w);
  }

  lemma CancelMultiset<T>(m1: multiset<T>, m2: multiset<T>, x: multiset<T>)
    requires m1 + x == m2 + x
    ensures m1 == m2
  {
    forall e ensures m1[e] == m2[e] {
      assert (m1 + x)[e] == m1[e] + x[e] && (m2 + x)[e] == m2[e] + x[e];
    }
  }

  /** The index writes to two different rows of the table are two point updates. */
  lemma TwoWritesAsUpdates(rows: seq<News>, x: News, y: News, kx: Option<int>, ky: Option<int>)
    returns (ix: nat, iy: nat)
    requires DistinctNewsIds(rows) && x in multiset(rows) && y in multiset(rows) && x != y
    ensures ix < |rows| && iy < |rows| && ix != iy && rows[ix] == x && rows[iy] == y
    ensures NewsWithIndex(NewsWithIndex(rows, x.id, kx), y.id, ky)
      == rows[ix := x.(orderIndex := kx)][iy := y.(orderIndex := ky)]
  {
    ix :| 0 <= ix < |rows| && rows[ix] == x;
    iy :| 0 <= iy < |rows| && rows[iy] == y;
    NewsWithIndexAt(rows, ix, kx);
    var rows1 := rows[ix := x.(orderIndex := kx)];
    assert DistinctNewsIds(rows1) by {
      forall i, j | 0 <= i < j < |rows1| ensures rows1[i].id != rows1[j].id {
        assert rows1[i].id == rows[i].id && rows1[j].id == rows[j].id;
      }
    }
    assert rows1[iy] == y;
    NewsWithIndexAt(rows1, iy, ky);
  }

  /**
   * A strictly ordered list with the indexes of neighbours `p` and `p+1`
   * exchanged and the two rows swapped is still sorted, and no two of its
   * rows are equivalent under the order.
   */
  lemma ExchangedListSorted(v: seq<News>, p: nat)
    requires StrictlyOrdered(v) && p + 1 < |v|
    ensures var w := v[p := v[p + 1].(orderIndex := v[p].orderIndex)][p + 1 := v[p].(orderIndex := v[p + 1].orderIndex)];
      && Sorted(w, NullsLastLeq)
      && forall i, j :: 0 <= i < |w| && 0 <= j < |w| && NullsLastLeq(w[i], w[j]) && NullsLastLeq(w[j], w[i]) ==> w[i] == w[j]
  {
    var w := v[p := v[p + 1].(orderIndex := v[p].orderIndex)][p + 1 := v[p].(orderIndex := v[p + 1].orderIndex)];
    assert forall k :: 0 <= k < |w| ==> w[k].orderIndex == v[k].orderIndex;
    forall i, j | 0 <= i < j < |w| ensures NullsLastLeq(w[i], w[j]) {
      assert v[i].orderIndex.value < v[j].orderIndex.value;
    }
    forall i, j | 0 <= i < |w| && 0 <= j < |w| && NullsLastLeq(w[i], w[j]) && NullsLastLeq(w[j], w[i])
      ensures w[i] == w[j]
    {
    }
  }

  /**
   * Exchanging the indexes of two neighbours `v[p]`, `v[p+1]` of a strictly
   * ordered list exchanges their places in the list and changes nothing else.
   */
  lemma ViewAfterExchange(rows: seq<News>, p: nat)
    requires DistinctNewsIds(rows) && StrictlyOrdered(NewsView(rows)) && p + 1 < |rows|
    ensures var v := NewsView(rows); var x, y := v[p], v[p + 1];
      NewsView(NewsWithIndex(NewsWithIndex(rows, x.id, y.orderIndex), y.id, x.orderIndex))
        == v[p := y.(orderIndex := x.orderIndex)][p + 1 := x.(orderIndex := y.orderIndex)]
  {
    var v := NewsView(rows);
    var x, y := v[p], v[p + 1];
    var x', y' := x.(orderIndex := y.orderIndex), y.(orderIndex := x.orderIndex);
    assert x != y by { assert x.orderIndex.value < y.orderIndex.value; }
    assert x in multiset(v) && y in multiset(v);
    var ix, iy := TwoWritesAsUpdates(rows, x, y, y.orderIndex, x.orderIndex);
    var rows2 := rows[ix := x'][iy := y'];
    var w := v[p := y'][p + 1 := x'];
    ReplaceTwoMultiset(rows, ix, iy, v, p, p + 1, x', y');
    ExchangedView(rows2, v, p);
  }

  /**
   * Rows that are a permutation of a strictly ordered list with neighbours
   * `p`, `p+1` exchanged are listed in exactly that order.
   */
  lemma ExchangedView(rows: seq<News>, v: seq<News>, p: nat)
    requires StrictlyOrdered(v) && p + 1 < |v|
    requires multiset(rows) ==
      multiset(v[p := v[p + 1].(orderIndex := v[p].orderIndex)][p + 1 := v[p].(orderIndex := v[p + 1].orderIndex)])
    ensures NewsView(rows) ==
      v[p := v[p + 1].(orderIndex := v[p].orderIndex)][p + 1 := v[p].(orderIndex := v[p + 1].orderIndex)]
  {
    var w := v[p := v[p + 1].(orderIndex := v[p].orderIndex)][p + 1 := v[p].(orderIndex := v[p + 1].orderIndex)];
    ExchangedListSorted(v, p);
    assert TotalPreorder(NullsLastLeq);
    SortedPermutationUnique(w, NewsView(rows), NullsLastLeq);
  }

  /**
   * In a table whose list is strictly ordered, moving a row up with its own
   * index as `cur` exchanges it with its predecessor: both keep their ids and
   * contents, trade indexes, and trade places in the list.
   */
  lemma MoveUpExchangesWithPrevious(rows: seq<News>, id: int)
    requires DistinctNewsIds(rows) && StrictlyOrdered(NewsView(rows))
    requires FindIndex(NewsView(rows), id) > 0
    ensures var v := NewsView(rows); var ci := FindIndex(v, id);
      NewsView(MovedUp(rows, id, v[ci].orderIndex.value))
        == v[ci - 1 := v[ci].(orderIndex := v[ci - 1].orderIndex)][ci := v[ci - 1].(orderIndex := v[ci].orderIndex)]
  {
    var v := NewsView(rows);
    var ci := FindIndex(v, id);
    var x, y := v[ci - 1], v[ci];
    assert x.id != y.id by {
      assert x != y by { assert x.orderIndex.value < y.orderIndex.value; }
      assert x.id != id;
    }
    NewsWithIndexCommute(rows, y.id, x.orderIndex, x.id, y.orderIndex);
    ViewAfterExchange(rows, ci - 1);
  }

  /**
   * In a table whose list is strictly ordered, moving a row that is not last
   * down with its own index as `cur` exchanges it with its successor.
   */
  lemma MoveDownExchangesWithNext(rows: seq<News>, id: int)
    requires DistinctNewsIds(rows) && StrictlyOrdered(NewsView(rows))
    requires 0 <= FindIndex(NewsView(rows), id) < |rows| - 1
    ensures var v := NewsView(rows); var ci := FindIndex(v, id);
      NewsView(MovedDown(rows, id, v[ci].orderIndex.value))
        == v[ci := v[ci + 1].(orderIndex := v[ci].orderIndex)][ci + 1 := v[ci].(orderIndex := v[ci + 1].orderIndex)]
  {
    var v := NewsView(rows);
    var ci := FindIndex(v, id);
    var x, y := v[ci], v[ci + 1];
    assert x.id == id && x.orderIndex == Some(x.orderIndex.value) && |v| == |rows|;
    assert MovedDown(rows, id, x.orderIndex.value)
        == NewsWithIndex(NewsWithIndex(rows, x.id, y.orderIndex), y.id, x.orderIndex);
    ViewAfterExchange(rows, ci);
  }

  /**
   * `moveNewsDown` of an id no row has, in a non-empty table, rewrites the
   * `order_index` of the first listed row to `cur`.
   */
  lemma MoveDownOfMissingId(rows: seq<News>, id: int, cur: int)
    requires id !in NewsIds(rows) && rows != []
    ensures MovedDown(rows, id, cur) == NewsWithIndex(rows, NewsView(rows)[0].id, Some(cur))
  {
    var v := NewsView(rows);
    forall j | 0 <= j < |v| ensures v[j].id != id {
      assert v[j] in multiset(rows);
    }
    assert NewsWithIndex(rows, id, v[0].orderIndex) == rows;
  }

  /** `moveNewsUp` of the first listed row or of a missing id changes nothing. */
  lemma MoveUpOfFirstOrMissing(rows: seq<News>, id: int, cur: int)
    requires id !in NewsIds(rows) || (rows != [] && NewsView(rows)[0].id == id)
    ensures MovedUp(rows, id, cur) == rows
  {
    var v := NewsView(rows);
    if id !in NewsIds(rows) {
      forall j | 0 <= j < |v| ensures v[j].id != id {
        assert v[j] in multiset(rows);
      }
    }
  }
}

=== FILE: service_service.dfy ===
/** The `services` table service: list, add, update, delete and whole-list reorder. */
module ServiceService {
  import opened Wrappers
  import opened Tables

  /** The columns of a service other than id, order_index and created_at. */
  datatype ServiceFields = ServiceFields(
    title: string,
    description: string,
    titleSi: string,
    descriptionSi: string)

  type Service = Row<ServiceFields>

  /**
   * `getAllServices`: every row, ascending by `order_index`; a query error is thrown.
   * The three services issue the same query, so all of them are `Table.Select`;
   * the contract is repeated here because callers rely on it for services rows.
   */
  function GetAllServices(t: Table<ServiceFields>, fails: bool): (r: Result<seq<Service>, Error>)
    reads t
    ensures r.Success? <==> !fails
    ensures r.Failure? ==> r.error == DbError
    ensures r.Success? ==> multiset(r.value) == multiset(t.rows)
    ensures r.Success? ==> forall i, j :: 0 <= i < j < |r.value| ==> r.value[i].orderIndex <= r.value[j].orderIndex
  {
    t.Select(fails)
  }

  /**
   * `addService`: reads the largest `order_index` (its error ignored), then
   * inserts one row with the given texts and the next index.
   */
  method AddService(t: Table<ServiceFields>, title: string, description: string, titleSi: string,
                   descriptionSi: string, createdAt: string,
                   maxQueryFails: bool, insertFails: bool)
    returns (r: Result<Service, Error>)
    requires t.Valid()
    modifies t
    ensures t.Valid()
    ensures r.Success? <==> !insertFails
    ensures r.Failure? ==> r.error == DbError && t.rows == old(t.rows)
    ensures r.Success? ==> t.rows == old(t.rows) + [r.value] && r.value.id !in Ids(old(t.rows))
    ensures r.Success? ==> r.value.orderIndex == NextOrderIndex(old(t.rows), maxQueryFails)
    ensures r.Success? ==> r.value.createdAt == createdAt
    ensures r.Success? ==>
      r.value.fields == ServiceFields(title, description, titleSi, descriptionSi)
  {
    var next := NextOrderIndex(t.rows, maxQueryFails);
    var fields := ServiceFields(title, description, titleSi, descriptionSi);
    r := t.Insert(next, createdAt, fields, insertFails);
  }

  /** The change `updateService` makes to the fields of the row it rewrites. */
  function ServiceEdit(title: string, description: string, titleSi: string, descriptionSi: string)
    : ServiceFields -> ServiceFields
  {
    (f: ServiceFields) => f.(title := title, description := description, titleSi := titleSi,
                             descriptionSi := descriptionSi)
  }

  /**
   * `updateService`: rewrites the two titles and the two descriptions of the
   * row with that id; `single()` makes a missing id an error.
   */
  method UpdateService(t: Table<ServiceFields>, id: int, title: string, description: string,
                       titleSi: string, descriptionSi: string, fails: bool)
    returns (r: Result<Service, Error>)
    requires t.Valid()
    modifies t
    ensures t.Valid()
    ensures r.Success? <==> !fails && id in Ids(old(t.rows))
    ensures r.Failure? ==> r.error == DbError && t.rows == old(t.rows)
    ensures r.Success? ==> t.rows == Patched(old(t.rows), id, ServiceEdit(title, description, titleSi, descriptionSi))
    ensures r.Success? ==> r.value in t.rows && r.value.id == id
  {
    r := t.UpdateSingle(id, ServiceEdit(title, description, titleSi, descriptionSi), fails);
  }

  /** `deleteService`: removes the row with that id; a missing id is no error. */
  method DeleteService(t: Table<ServiceFields>, id: int, fails: bool) returns (r: Result<(), Error>)
    requires t.Valid()
    modifies t
    ensures t.Valid()
    ensures r.Success? <==> !fails
    ensures t.rows == if fails then old(t.rows) else Without(old(t.rows), id)
  {
    var ok := t.Delete(id, fails);
    r := if ok then Success(()) else Failure(DbError);
  }

  /**
   * `reorderServices`: one `order_index = position` update per listed service,
   * in list order; the first failing update is thrown and the later ones are
   * never issued. `failAt` names the update that fails, if any.
   */
  method ReorderServices(t: Table<ServiceFields>, services: seq<Service>, failAt: Option<nat>)
    returns (r: Result<(), Error>)
    requires t.Valid()
    modifies t
    ensures t.Valid()
    ensures r.Failure? <==> failAt.Some? && failAt.value < |services|
    ensures r.Failure? ==> r.error == DbError
    ensures t.rows == Renumbered(old(t.rows), Ids(services), if r.Success? then |services| else failAt.value)
  {
    var ids := Ids(services);
    var k := 0;
    while k < |services|
      invariant 0 <= k <= |services|
      invariant t.Valid()
      invariant failAt.Some? ==> k <= failAt.value
      invariant t.rows == Renumbered(old(t.rows), ids, k)
    {
      var ok := t.SetOrderIndex(services[k].id, k, failAt == Some(k));
      if !ok {
        return Failure(DbError);
      }
      RenumberedStep(old(t.rows), ids, k, services[k].id);
      k := k + 1;
    }
    return Success(());
  }
}

=== FILE: services_page.dfy ===
/**
 * The services admin page: the list it shows, the add/edit form with its
 * title guard, and the move buttons that exchange two adjacent services and
 * persist the whole swapped list.
 */
module ServicesPage {
  import opened Wrappers
  import opened Text
  import opened Tables
  import opened ServiceService

  const TitleRequiredMessage: string := "Please enter a service title"
  const LoadFailedMessage: string := "Failed to load services"
  const OrderUpdatedMessage: string := "Order updated!"
  const OrderFailedMessage: string := "Failed to update order"

  /**
   * The page's state; `popup` is the last result or error message shown at
   * once (not through a timer). Loading messages are not modelled.
   */
  class ServicesPage {
    var services: seq<Service>
    var loading: bool
    var editing: Option<Service>
    var title: string
    var description: string
    var titleSi: string
    var descriptionSi: string
    var popup: Option<string>

    constructor ()
      ensures services == [] && loading && editing.None? && popup.None?
      ensures title == "" && description == "" && titleSi == "" && descriptionSi == ""
    {
      services := [];
      loading := true;
      editing := None;
      title, description, titleSi, descriptionSi := "", "", "", "";
      popup := None;
    }

    /** `loadServices`: shows the ordered list, or the load error and keeps the old list. */
    method LoadServices(t: Table<ServiceFields>, fails: bool)
      modifies this
      ensures services == if fails then old(services) else OrderedView(t.rows)
      ensures popup == if fails then Some(LoadFailedMessage) else old(popup)
      ensures !loading
      ensures editing == old(editing) && title == old(title) && description == old(description)
      ensures titleSi == old(titleSi) && descriptionSi == old(descriptionSi)
    {
      loading := true;
      var r := GetAllServices(t, fails);
      if r.Success? {
        services := r.value;
      } else {
        popup := Some(LoadFailedMessage);
      }
      loading := false;
    }

    /** `resetForm`: empties the four texts. */
    method ResetForm()
      modifies this
      ensures title == "" && description == "" && titleSi == "" && descriptionSi == ""
      ensures services == old(services) && editing == old(editing) && popup == old(popup) && loading == old(loading)
    {
      title, description, titleSi, descriptionSi := "", "", "", "";
    }

    /**
     * `handleAddService`: a title that trims to nothing (only whitespace) is
     * refused with a message and no service call; otherwise `addService` is
     * called with the form, and on success the list is reloaded and the form
     * reset. `outcome` is what `addService` returned, `None` when not called.
     */
    method HandleAddService(t: Table<ServiceFields>, createdAt: string, maxQueryFails: bool,
                           insertFails: bool, reloadFails: bool)
      returns (outcome: Option<Result<Service, Error>>)
      requires t.Valid()
      modifies this, t
      ensures t.Valid()
      ensures outcome.None? <==> AllWhitespace(old(title))
      ensures outcome.None? ==> t.rows == old(t.rows) && popup == Some(TitleRequiredMessage)
      ensures outcome.None? ==> services == old(services) && title == old(title)
      ensures outcome.None? ==>
        description == old(description) && titleSi == old(titleSi) && descriptionSi == old(descriptionSi)
      ensures outcome.Some? ==> (outcome.value.Success? <==> !insertFails)
      ensures outcome.Some? && outcome.value.Failure? ==>
        outcome.value.error == DbError && t.rows == old(t.rows) && services == old(services)
      ensures outcome.Some? && outcome.value.Failure? ==>
        title == old(title) && description == old(description) && titleSi == old(titleSi) && descriptionSi == old(descriptionSi)
      ensures outcome.Some? && outcome.value.Success? ==>
        && t.rows == old(t.rows) + [outcome.value.value]
        && outcome.value.value.id !in Ids(old(t.rows)) && outcome.value.value.createdAt == createdAt
      ensures outcome.Some? && outcome.value.Success? ==>
        && outcome.value.value.fields == ServiceFields(old(title), old(description), old(titleSi), old(descriptionSi))
        && outcome.value.value.orderIndex == NextOrderIndex(old(t.rows), maxQueryFails)
      ensures outcome.Some? && outcome.value.Success? ==>
        && services == (if reloadFails then old(services) else OrderedView(t.rows))
        && title == "" && description == "" && titleSi == "" && descriptionSi == ""
      ensures editing == old(editing)
    {
      if IsBlank(title) {
        popup := Some(TitleRequiredMessage);
        return None;
      }
      var r := AddService(t, title, description, titleSi, descriptionSi, createdAt,
                         maxQueryFails, insertFails);
      if r.Failure? {
        return Some(r);
      }
      ghost var rows := t.rows;
      LoadServices(t, reloadFails);
      ResetForm();
      assert t.rows == rows;
      return Some(r);
    }

    /**
     * The `try` part of `handleEditService`: `updateService` rewrites the
     * edited service from the form; on success the list is reloaded, the edit
     * ended and the form reset.
     */
    method SaveEditedService(t: Table<ServiceFields>, fails: bool, reloadFails: bool)
      returns (r: Result<Service, Error>)
      requires t.Valid() && editing.Some?
      modifies this, t
      ensures t.Valid()
      ensures r.Success? <==> !fails && old(editing).value.id in Ids(old(t.rows))
      ensures r.Failure? ==>
        r.error == DbError && t.rows == old(t.rows) && services == old(services) && editing == old(editing)
      ensures r.Failure? ==>
        title == old(title) && description == old(description) && titleSi == old(titleSi) && descriptionSi == old(descriptionSi)
      ensures r.Success? ==>
        var id := old(editing).value.id;
        && r.value.id == id
        && t.rows == Patched(old(t.rows), id, ServiceEdit(old(title), old(description), old(titleSi), old(descriptionSi)))
      ensures r.Success? ==>
        && services == (if reloadFails then old(services) else OrderedView(t.rows))
        && editing.None? && title == "" && description == "" && titleSi == "" && descriptionSi == ""
      ensures popup == if r.Success? && reloadFails then Some(LoadFailedMessage) else old(popup)
    {
      r := UpdateService(t, editing.value.id, title, description, titleSi, descriptionSi, fails);
      if r.Failure? {
        return;
      }
      ghost var rows := t.rows;
      LoadServices(t, reloadFails);
      editing := None;
      ResetForm();
      assert t.rows == rows;
    }

    /**
     * `handleEditService`: refused with the same message when no service is
     * being edited or the title is blank; otherwise `SaveEditedService`.
     */
    method HandleEditService(t: Table<ServiceFields>, fails: bool, reloadFails: bool)
      returns (outcome: Option<Result<Service, Error>>)
      requires t.Valid()
      modifies this, t
      ensures t.Valid()
      ensures outcome.None? <==> old(editing).None? || AllWhitespace(old(title))
      ensures outcome.None? ==> t.rows == old(t.rows) && popup == Some(TitleRequiredMessage)
      ensures outcome.None? ==> services == old(services) && editing == old(editing)
      ensures outcome.None? ==>
        && title == old(title) && description == old(description)
        && titleSi == old(titleSi) && descriptionSi == old(descriptionSi)
      ensures outcome.Some? ==> (outcome.value.Success? <==> !fails && old(editing).value.id in Ids(old(t.rows)))
      ensures outcome.Some? && outcome.value.Failure? ==>
        outcome.value.error == DbError && t.rows == old(t.rows) && services == old(services) && editing == old(editing)
      ensures outcome.Some? && outcome.value.Failure? ==>
        title == old(title) && description == old(description) && titleSi == old(titleSi) && descriptionSi == old(descriptionSi)
      ensures outcome.Some? && outcome.value.Success? ==>
        var id := old(editing).value.id;
        && outcome.value.value.id == id
        && t.rows == Patched(old(t.rows), id, ServiceEdit(old(title), old(description), old(titleSi), old(descriptionSi)))
      ensures outcome.Some? && outcome.value.Success? ==>
        && services == (if reloadFails then old(services) else OrderedView(t.rows))
        && editing.None? && title == "" && description == "" && titleSi == "" && descriptionSi == ""
    {
      if editing.None? || IsBlank(title) {
        popup := Some(TitleRequiredMessage);
        return None;
      }
      var r := SaveEditedService(t, fails, reloadFails);
      return Some(r);
    }

    /**
     * `moveService(index, up)`: nothing happens when the neighbour's position is
     * outside the list. Otherwise the list is copied, the two cells swapped,
     * the swapped list shown at once and handed to `reorderServices`; on
     * failure the list is reloaded from the table. `failAt` names the failing
     * update of the reorder, if any.
     */
    method MoveService(t: Table<ServiceFields>, index: nat, up: bool, failAt: Option<nat>, reloadFails: bool)
      returns (r: Option<Result<(), Error>>)
      requires index < |services| && t.Valid()
      modifies this, t
      ensures t.Valid()
      ensures var target: int := if up then index - 1 else index + 1;
        !(0 <= target < |old(services)|) ==>
          r.None? && t.rows == old(t.rows) && services == old(services) && popup == old(popup)
      ensures var target: int := if up then index - 1 else index + 1;
        0 <= target < |old(services)| ==>
          var s := Swap(old(services), index, target);
          && r.Some?
          && (r.value.Failure? <==> failAt.Some? && failAt.value < |s|)
          && t.rows == Renumbered(old(t.rows), Ids(s), if r.value.Success? then |s| else failAt.value)
          && (r.value.Success? ==> services == s && popup == Some(OrderUpdatedMessage))
          && (r.value.Failure? ==> services == (if reloadFails then s else OrderedView(t.rows)))
          && (r.value.Failure? ==> popup == Some(if reloadFails then LoadFailedMessage else OrderFailedMessage))
      ensures editing == old(editing) && title == old(title) && description == old(description)
      ensures titleSi == old(titleSi) && descriptionSi == old(descriptionSi)
    {
      var target: int := if up then index - 1 else index + 1;
      if target < 0 || target >= |services| {
        return None;
      }
      var newServices := SwappedCopy(services, index, target);
      services := newServices;
      var result := ReorderServices(t, newServices, failAt);
      if result.Success? {
        popup := Some(OrderUpdatedMessage);
      } else {
        popup := Some(OrderFailedMessage);
        LoadServices(t, reloadFails);
      }
      return Some(result);
    }
  }
}

=== FILE: slider_page.dfy ===
/**
 * The slider admin page: its list of sliders, the file chosen for upload,
 * the upload checks, and the move buttons that exchange two adjacent sliders
 * and write both positions back.
 */
module SliderPage {
  import opened Wrappers
  import opened Sorting
  import opened Tables
  import opened Storage
  import opened SliderService

  /** What the page sees of a chosen file. */
  datatype FileInfo = FileInfo(name: string, mimeType: string, size: nat)

  /** `MAX_SLIDERS`: how many slider images the page lets exist. */
  const MaxSliders: nat := 5

  /** The largest accepted image, 5 MiB. */
  const MaxImageBytes: nat := 5 * 1024 * 1024

  const NoFileMessage: string := "Please select an image first"
  const TooManyMessage: string := "Maximum 5 slider images allowed. Please delete an image first."
  const NotImageMessage: string := "Please select a valid image file (JPG, PNG, GIF, WEBP)"
  const TooLargeMessage: string := "File size must be less than 5MB. Please choose a smaller image."
  const MoveFailedMessage: string := "Failed to update slider order. Please try again."
  const MovedMessage: string := "Slider order updated successfully!"

  predicate StartsWith(s: string, prefix: string)
  {
    |prefix| <= |s| && s[..|prefix|] == prefix
  }

  /** An image type of at most 5 MiB: what `handleFileSelect` keeps. */
  predicate AcceptableImage(f: FileInfo)
  {
    StartsWith(f.mimeType, "image/") && f.size <= MaxImageBytes
  }

  /**
   * The checks of `handleUpload`, in the order it makes them: a file must be
   * chosen, fewer than `MAX_SLIDERS` sliders may exist, the file must be an
   * image, and it must be at most 5 MiB. The message of the first failing
   * check, or `None` when the upload may go ahead.
   */
  function UploadCheck(selected: Option<FileInfo>, count: nat): (r: Option<string>)
    ensures r.None? <==> selected.Some? && count < MaxSliders && AcceptableImage(selected.value)
    ensures r == Some(NoFileMessage) <==> selected.None?
    ensures r == Some(TooManyMessage) <==> selected.Some? && count >= MaxSliders
    ensures r == Some(NotImageMessage) <==>
      selected.Some? && count < MaxSliders && !StartsWith(selected.value.mimeType, "image/")
    ensures r == Some(TooLargeMessage) <==>
      selected.Some? && count < MaxSliders && StartsWith(selected.value.mimeType, "image/") && selected.value.size > MaxImageBytes
  {
    if selected.None? then Some(NoFileMessage)
    else if count >= MaxSliders then Some(TooManyMessage)
    else if !StartsWith(selected.value.mimeType, "image/") then Some(NotImageMessage)
    else if selected.value.size > MaxImageBytes then Some(TooLargeMessage)
    else None
  }

  /**
   * A file that `handleFileSelect` kept can only be refused by `handleUpload`
   * for the slider count: its type and size checks always pass.
   */
  lemma SelectedFileOnlyFailsOnCount(f: FileInfo, count: nat)
    requires AcceptableImage(f)
    ensures UploadCheck(Some(f), count) == if count < MaxSliders then None else Some(TooManyMessage)
  {
  }

  /**
   * The table after the two writes of `moveSlider`: with `list` the page's
   * list and `s` that list with cells `index` and `newIndex` exchanged, the
   * slider now at `index` is given `order_index = index` and then the one now
   * at `newIndex` is given `newIndex`.
   */
  function SwapWrites(rows: seq<Slider>, list: seq<Slider>, index: nat, newIndex: nat): seq<Slider>
    requires index < |list| && newIndex < |list|
  {
    var s := Swap(list, index, newIndex);
    WithOrderIndex(WithOrderIndex(rows, s[index].id, index), s[newIndex].id, newIndex)
  }

  /**
   * `moveSlider` keeps the stored order in step with the page's list: when
   * every slider's `order_index` was its position in the list before the move,
   * every slider's `order_index` is its position in the swapped list after
   * both writes.
   */
  lemma MovePreservesListOrder(rows: seq<Slider>, list: seq<Slider>, index: nat, newIndex: nat)
    requires index < |list| && newIndex < |list|
    requires StoredInListOrder(rows, Ids(list))
    ensures StoredInListOrder(SwapWrites(rows, list, index, newIndex), Ids(Swap(list, index, newIndex)))
  {
    var l := Ids(list);
    var l2 := Ids(Swap(list, index, newIndex));
    IdsOfSwap(list, index, newIndex);
    SwapListsAllRows(rows, l, index, newIndex);
    var s := Swap(list, index, newIndex);
    var mid := WithOrderIndex(rows, s[index].id, index);
    var r := SwapWrites(rows, list, index, newIndex);
    assert |r| == |rows|;
    forall p | 0 <= p < |rows| ensures r[p].id == rows[p].id {
      assert Ids(r)[p] == Ids(rows)[p];
    }
    forall p, k | 0 <= p < |rows| && 0 <= k < |l2| && l2[k] == r[p].id
      ensures r[p].orderIndex == k
    {
      if k == index {
        assert mid[p].orderIndex == index;
        if index != newIndex {
          assert l2[newIndex] != l2[index];
        }
      } else if k == newIndex {
      } else {
        assert l2[k] == l[k];
        assert l2[index] == l[newIndex] && l2[newIndex] == l[index];
        assert l[k] != l[newIndex] && l[k] != l[index];
        assert r[p] == rows[p];
      }
    }
  }

  /**
   * Hence, with distinct ids, after a move from a state whose stored order
   * follows the page's list, the ordered view lists the sliders exactly as
   * the page now shows them.
   */
  lemma MoveKeepsViewInStep(rows: seq<Slider>, list: seq<Slider>, index: nat, newIndex: nat)
    requires index < |list| && newIndex < |list|
    requires DistinctIds(rows) && StoredInListOrder(rows, Ids(list))
    ensures Ids(OrderedView(SwapWrites(rows, list, index, newIndex))) == Ids(Swap(list, index, newIndex))
  {
    var r := SwapWrites(rows, list, index, newIndex);
    MovePreservesListOrder(rows, list, index, newIndex);
    assert DistinctIds(r) by {
      forall a, b | 0 <= a < b < |r| ensures r[a].id != r[b].id {
        assert Ids(r)[a] == Ids(rows)[a] && Ids(r)[b] == Ids(rows)[b];
      }
    }
    ViewFollowsStoredOrder(r, Ids(Swap(list, index, newIndex)));
  }

  /**
   * Without indices counted from 0 the two writes are not enough. Three
   * sliders listed in stored order with the first one stored above 2 (say at
   * 3, 4 and 5): moving the last one up shows the list a, c, b on the page,
   * but writes 2 into b and 1 into c while a keeps its index, so the table's
   * own order becomes c, b, a.
   */
  lemma MoveWithGapsLeavesViewOutOfStep(a: Slider, b: Slider, c: Slider)
    requires a.id != b.id && b.id != c.id && a.id != c.id
    requires 2 < a.orderIndex < b.orderIndex < c.orderIndex
    ensures OrderedView([a, b, c]) == [a, b, c]
    ensures Ids(Swap([a, b, c], 2, 1)) == [a.id, c.id, b.id]
    ensures Ids(OrderedView(SwapWrites([a, b, c], [a, b, c], 2, 1))) == [c.id, b.id, a.id]
    ensures Ids(OrderedView(SwapWrites([a, b, c], [a, b, c], 2, 1))) != Ids(Swap([a, b, c], 2, 1))
  {
    ViewOfStrictlyIncreasing([a, b, c], [a, b, c]);
    SwapLastTwo(a, b, c);
    GappedMoveView(a, b, c);
    IdsOfThree(c.(orderIndex := 1), b.(orderIndex := 2), a);
  }

  lemma SwapLastTwo(a: Slider, b: Slider, c: Slider)
    ensures Ids(Swap([a, b, c], 2, 1)) == [a.id, c.id, b.id]
  {
    var s := Swap([a, b, c], 2, 1);
    assert s[0] == a && s[1] == c && s[2] == b;
    assert s == [a, c, b];
    IdsOfThree(a, c, b);
  }

  /** The rows after the two writes of the move in `MoveWithGapsLeavesViewOutOfStep`. */
  lemma GappedMoveWrites(a: Slider, b: Slider, c: Slider)
    requires a.id != b.id && b.id != c.id && a.id != c.id
    ensures SwapWrites([a, b, c], [a, b, c], 2, 1) == [a, b.(orderIndex := 2), c.(orderIndex := 1)]
  {
    var rows := [a, b, c];
    var s := Swap(rows, 2, 1);
    assert s[2] == b && s[1] == c;
    var mid := WithOrderIndex(rows, b.id, 2);
    assert mid[0] == a && mid[1] == b.(orderIndex := 2) && mid[2] == c;
    var after := WithOrderIndex(mid, c.id, 1);
    assert after[0] == a && after[1] == b.(orderIndex := 2) && after[2] == c.(orderIndex := 1);
    assert after == [a, b.(orderIndex := 2), c.(orderIndex := 1)];
  }

  /** The ordered view after the move in `MoveWithGapsLeavesViewOutOfStep`. */
  lemma GappedMoveView(a: Slider, b: Slider, c: Slider)
    requires a.id != b.id && b.id != c.id && a.id != c.id
    requires 2 < a.orderIndex
    ensures OrderedView(SwapWrites([a, b, c], [a, b, c], 2, 1)) == [c.(orderIndex := 1), b.(orderIndex := 2), a]
  {
    GappedMoveWrites(a, b, c);
    ViewOfDescendingThree(a, b.(orderIndex := 2), c.(orderIndex := 1));
  }

  /** Three rows stored with descending indices are listed in reverse. */
  lemma ViewOfDescendingThree(x: Slider, y: Slider, z: Slider)
    requires x.orderIndex > y.orderIndex > z.orderIndex
    ensures OrderedView([x, y, z]) == [z, y, x]
  {
    ReversedThree(x, y, z);
    var w := [z, y, x];
    assert w[0].orderIndex < w[1].orderIndex < w[2].orderIndex;
    ViewOfStrictlyIncreasing([x, y, z], w);
  }

  lemma IdsOfThree(x: Slider, y: Slider, z: Slider)
    ensures Ids([x, y, z]) == [x.id, y.id, z.id]
  {
  }

  lemma ReversedThree(x: Slider, y: Slider, z: Slider)
    ensures multiset([x, y, z]) == multiset([z, y, x])
  {
    assert [x, y, z] == [x] + [y] + [z] && [z, y, x] == [z] + [y] + [x];
  }

  /** A rearrangement of the rows with strictly increasing indices is their ordered view. */
  lemma ViewOfStrictlyIncreasing(rows: seq<Slider>, w: seq<Slider>)
    requires multiset(w) == multiset(rows)
    requires forall i, j :: 0 <= i < j < |w| ==> w[i].orderIndex < w[j].orderIndex
    ensures OrderedView(rows) == w
  {
    assert TotalPreorder(IndexLeq<SliderFields>);
    SortedPermutationUnique(w, OrderedView(rows), IndexLeq);
  }

  /** The page's state. */
  class SliderPage {
    var sliders: seq<Slider>
    var selectedFile: Option<FileInfo>
    var error: Option<string>
    var success: Option<string>
    var loading: bool
    var uploading: bool

    constructor ()
      ensures sliders == [] && selectedFile.None? && error.None? && success.None?
      ensures loading && !uploading
    {
      sliders := [];
      selectedFile := None;
      error := None;
      success := None;
      loading := true;
      uploading := false;
    }

    /** `loadSliders`: shows the ordered list; a failed query is only logged. */
    method LoadSliders(t: Table<SliderFields>, fails: bool)
      modifies this
      ensures sliders == if fails then old(sliders) else OrderedView(t.rows)
      ensures !loading
      ensures selectedFile == old(selectedFile) && error == old(error) && success == old(success)
      ensures uploading == old(uploading)
    {
      loading := true;
      var r := GetAllSliders(t, fails);
      if r.Success? {
        sliders := r.value;
      }
      loading := false;
    }

    /**
     * `handleFileSelect`: choosing nothing changes nothing; otherwise the error
     * is cleared and the file is kept if it is an image of at most 5 MiB, the
     * selection cleared if not.
     */
    method HandleFileSelect(file: Option<FileInfo>)
      modifies this
      ensures file.None? ==> error == old(error) && selectedFile == old(selectedFile)
      ensures file.Some? ==> error.None?
      ensures file.Some? ==> selectedFile == if AcceptableImage(file.value) then file else None
      ensures sliders == old(sliders) && success == old(success)
      ensures loading == old(loading) && uploading == old(uploading)
    {
      if file.None? {
        return;
      }
      error := None;
      if AcceptableImage(file.value) {
        selectedFile := file;
      } else {
        selectedFile := None;
      }
    }

    /**
     * `handleUpload`: clears both messages, makes the checks of `UploadCheck`
     * and stops with the first failing one's message; otherwise calls
     * `addSlider` once, and on success reloads the list and clears the
     * selection. A failed `addSlider` only raises a popup. `outcome` is what
     * `addSlider` returned, `None` when it was not called.
     */
    method HandleUpload(t: Table<SliderFields>, bucket: Bucket, stem: string, publicUrl: string,
                        createdAt: string, uploadFails: bool, maxQueryFails: bool, insertFails: bool,
                        reloadFails: bool)
      returns (outcome: Option<Result<Slider, Error>>)
      requires t.Valid()
      modifies this, t, bucket
      ensures t.Valid() && !uploading && success.None?
      ensures var check := UploadCheck(old(selectedFile), |old(sliders)|);
        && (outcome.None? <==> check.Some?)
        && (check.Some? ==> error == check && t.rows == old(t.rows) && bucket.objects == old(bucket.objects))
        && (check.Some? ==> sliders == old(sliders) && selectedFile == old(selectedFile))
      ensures outcome.Some? ==> error.None?
      ensures outcome.Some? ==>
        var path := ObjectPath(stem, old(selectedFile).value.name);
        var stored := !uploadFails && path !in old(bucket.objects);
        && (outcome.value.Success? <==> stored && !insertFails)
        && bucket.objects == (if stored then old(bucket.objects) + {path} else old(bucket.objects))
        && (outcome.value.Failure? ==> outcome.value.error == if stored then InsertFailed else UploadFailed)
      ensures outcome.Some? && outcome.value.Failure? ==>
        t.rows == old(t.rows) && sliders == old(sliders) && selectedFile == old(selectedFile)
      ensures outcome.Some? && outcome.value.Success? ==>
        && t.rows == old(t.rows) + [outcome.value.value]
        && outcome.value.value.orderIndex == NextOrderIndex(old(t.rows), maxQueryFails)
        && outcome.value.value.fields == SliderFields(publicUrl)
        && old(bucket.objects) < bucket.objects
        && sliders == (if reloadFails then old(sliders) else OrderedView(t.rows))
        && selectedFile.None?
    {
      error := None;
      success := None;
      var check := UploadCheck(selectedFile, |sliders|);
      if check.Some? {
        error := check;
        uploading := false;
        return None;
      }
      uploading := true;
      var r := AddSlider(t, bucket, selectedFile.value.name, stem, publicUrl, createdAt,
                         uploadFails, maxQueryFails, insertFails);
      if r.Success? {
        LoadSliders(t, reloadFails);
        selectedFile := None;
      }
      uploading := false;
      return Some(r);
    }

    /**
     * `moveSlider(index, up)`: the neighbour's position must lie in the list,
     * otherwise nothing happens. The list is copied and the two cells swapped,
     * both positions are written back (stopping at the first failure), and only
     * then the page shows the swapped list and the success message; a failed
     * write shows the error and keeps the old list.
     */
    method MoveSlider(t: Table<SliderFields>, index: nat, up: bool, firstFails: bool, secondFails: bool)
      requires index < |sliders| && t.Valid()
      modifies this, t
      ensures t.Valid()
      ensures var newIndex: int := if up then index - 1 else index + 1;
        !(0 <= newIndex < |old(sliders)|) ==>
          t.rows == old(t.rows) && sliders == old(sliders) && error == old(error) && success == old(success)
      ensures var newIndex: int := if up then index - 1 else index + 1;
        0 <= newIndex < |old(sliders)| ==>
          var s := Swap(old(sliders), index, newIndex);
          && t.rows == (if firstFails then old(t.rows)
                        else if secondFails then WithOrderIndex(old(t.rows), s[index].id, index)
                        else SwapWrites(old(t.rows), old(sliders), index, newIndex))
          && sliders == (if firstFails || secondFails then old(sliders) else s)
          && error == (if firstFails || secondFails then Some(MoveFailedMessage) else None)
          && success == (if firstFails || secondFails then None else Some(MovedMessage))
      ensures selectedFile == old(selectedFile)
    {
      var newIndex: int := if up then index - 1 else index + 1;
      if newIndex < 0 || newIndex >= |sliders| {
        return;
      }
      error := None;
      success := None;
      var newSliders := SwappedCopy(sliders, index, newIndex);
      var first := UpdateSliderOrder(t, newSliders[index].id, index, firstFails);
      if first.Failure? {
        error := Some(MoveFailedMessage);
        return;
      }
      var second := UpdateSliderOrder(t, newSliders[newIndex].id, newIndex, secondFails);
      if second.Failure? {
        error := Some(MoveFailedMessage);
        return;
      }
      sliders := newSliders;
      success := Some(MovedMessage);
    }
  }
}

=== FILE: slider_service.dfy ===
/**
 * The `sliders` table and its `slider-images` bucket: list, upload-then-insert,
 * delete (object then row), and the two ways of rewriting `order_index`.
 */
module SliderService {
  import opened Wrappers
  import opened Text
  import opened Tables
  import opened Storage

  /** The one column of a slider besides id, order_index and created_at. */
  datatype SliderFields = SliderFields(imageUrl: string)

  type Slider = Row<SliderFields>

  /** What a slider's public URL is split on to find its object key. */
  const KeyMarker: string := "/slider-images/"

  /**
   * `getAllSliders`: every row, ascending by `order_index`; a query error is thrown.
   * The three services issue the same query, so all of them are `Table.Select`;
   * the contract is repeated here because callers rely on it for sliders rows.
   */
  function GetAllSliders(t: Table<SliderFields>, fails: bool): (r: Result<seq<Slider>, Error>)
    reads t
    ensures r.Success? <==> !fails
    ensures r.Failure? ==> r.error == DbError
    ensures r.Success? ==> multiset(r.value) == multiset(t.rows)
    ensures r.Success? ==> forall i, j :: 0 <= i < j < |r.value| ==> r.value[i].orderIndex <= r.value[j].orderIndex
  {
    t.Select(fails)
  }

  /** The object key of an upload: `sliders/<stem>.<extension>`, `stem` standing for the random part. */
  function ObjectPath(stem: string, name: string): string
  {
    "sliders/" + stem + "." + LastSegment(name, '.')
  }

  /**
   * The key `deleteSlider` removes for an image URL: the last '/'-separated
   * segment of the text after the first `/slider-images/`, under `sliders/`;
   * `None` when the URL does not contain the marker.
   */
  function StorageKeyOfUrl(url: string): (r: Option<string>)
    ensures r.None? <==> Free(url, KeyMarker)
    ensures r.Some? ==> |r.value| >= 8 && r.value[..8] == "sliders/"
    ensures match IndexOf(url, KeyMarker, 0)
      case None => true
      case Some(i) =>
        r.Some? && IsLastSegment(r.value[8..], BeforeFirst(url[i + |KeyMarker|..], KeyMarker), '/')
  {
    SecondPiece(url, KeyMarker);
    var parts := Split(url, KeyMarker);
    if |parts| > 1 then
      var key := "sliders/" + LastSegment(parts[1], '/');
      assert key[8..] == LastSegment(parts[1], '/');
      Some(key)
    else None
  }

  /** The object key under `sliders/` holds a single '/'. */
  lemma SlidersPathSplit(file: string)
    requires '/' !in file
    ensures Split("sliders/" + file, "/") == ["sliders", file]
  {
    assert "sliders/" + file == "sliders" + "/" + file;
    MarkerFirstAfter("sliders", "/", file, 0);
    SplitAtFirst("sliders", "/", file);
    FreeOfChar(file, '/');
    SplitFree(file, "/");
  }

  /** A URL holding the marker once, before a one-'/' key, splits into the part before it and the key. */
  lemma ImageUrlSplit(prefix: string, file: string)
    requires '-' !in prefix && '/' !in file
    ensures Split(prefix + KeyMarker + "sliders/" + file, KeyMarker) == [prefix, "sliders/" + file]
  {
    var path := "sliders/" + file;
    assert prefix + KeyMarker + "sliders/" + file == prefix + KeyMarker + path;
    NoHyphenBeforeMarker();
    MarkerFirstAfter(prefix, KeyMarker, path, 7);
    SplitAtFirst(prefix, KeyMarker, path);
    SlidersPathOneSlash(file);
    OneSlashIsFree(path, KeyMarker);
    SplitFree(path, KeyMarker);
  }

  /** The marker's '-' does not occur earlier in the marker. */
  lemma NoHyphenBeforeMarker()
    ensures KeyMarker[7] == '-' && '-' !in KeyMarker[..7]
  {
  }

  /** `sliders/<file>` holds one '/' when `file` holds none. */
  lemma SlidersPathOneSlash(file: string)
    requires '/' !in file
    ensures var path := "sliders/" + file;
      forall i, j :: 0 <= i < j < |path| ==> !(path[i] == '/' && path[j] == '/')
  {
    var path := "sliders/" + file;
    forall i, j | 0 <= i < j < |path| ensures !(path[i] == '/' && path[j] == '/') {
      if j < 8 {
        assert path[i] == "sliders/"[i];
      } else if i < 8 {
        assert path[j] == file[j - 8];
      } else {
        assert path[i] == file[i - 8];
      }
    }
  }

  /**
   * The key recovered from an image URL of the bucket is the key the object
   * was stored under, so deleting a slider removes its own image. The public
   * URL is `<prefix>/slider-images/<key>`; this needs a prefix without '-'
   * (the bucket's own path `/storage/v1/object/public` has none) and an object
   * name without '/'.
   */
  lemma StorageKeyOfImageUrl(prefix: string, file: string)
    requires '-' !in prefix && '/' !in file
    ensures StorageKeyOfUrl(prefix + KeyMarker + "sliders/" + file) == Some("sliders/" + file)
  {
    ImageUrlSplit(prefix, file);
    SlidersPathSplit(file);
  }

  /**
   * `addSlider`: uploads the file under a fresh key (an existing key is an
   * upload error), then inserts a row holding the object's public URL
   * (`publicUrl`, as the storage client reports it) and the next
   * `order_index`. A failed insert leaves the uploaded object behind.
   */
  method AddSlider(t: Table<SliderFields>, bucket: Bucket, fileName: string, stem: string,
                   publicUrl: string, createdAt: string,
                   uploadFails: bool, maxQueryFails: bool, insertFails: bool)
    returns (r: Result<Slider, Error>)
    requires t.Valid()
    modifies t, bucket
    ensures t.Valid()
    ensures var path := ObjectPath(stem, fileName);
      && (r == Failure(UploadFailed) <==> uploadFails || path in old(bucket.objects))
      && (r == Failure(UploadFailed) ==> bucket.objects == old(bucket.objects))
      && (r != Failure(UploadFailed) ==> bucket.objects == old(bucket.objects) + {path})
    ensures r.Success? <==> !uploadFails && ObjectPath(stem, fileName) !in old(bucket.objects) && !insertFails
    ensures r.Failure? ==> t.rows == old(t.rows)
    ensures r.Failure? ==> r.error == UploadFailed || (r.error == InsertFailed && insertFails)
    ensures r.Success? ==> !insertFails && t.rows == old(t.rows) + [r.value] && r.value.id !in Ids(old(t.rows))
    ensures r.Success? ==> r.value.fields.imageUrl == publicUrl
    ensures r.Success? ==> r.value.orderIndex == NextOrderIndex(old(t.rows), maxQueryFails)
    ensures r.Success? ==> r.value.createdAt == createdAt
  {
    var path := ObjectPath(stem, fileName);
    var uploaded := bucket.Upload(path, uploadFails);
    if !uploaded {
      return Failure(UploadFailed);
    }
    var next := NextOrderIndex(t.rows, maxQueryFails);
    var inserted := t.Insert(next, createdAt, SliderFields(publicUrl), insertFails);
    if inserted.Failure? {
      return Failure(InsertFailed);
    }
    return inserted;
  }

  /**
   * `deleteSlider`: removes the object named by the URL (a storage error is
   * only logged), then deletes the row; a database error is thrown.
   */
  method DeleteSlider(t: Table<SliderFields>, bucket: Bucket, id: int, imageUrl: string,
                      storageFails: bool, dbFails: bool)
    returns (r: Result<(), Error>)
    requires t.Valid()
    modifies t, bucket
    ensures t.Valid()
    ensures r.Success? <==> !dbFails
    ensures r.Failure? ==> r.error == DbError
    ensures t.rows == if dbFails then old(t.rows) else Without(old(t.rows), id)
    ensures bucket.objects ==
      match StorageKeyOfUrl(imageUrl)
      case Some(key) => if storageFails then old(bucket.objects) else old(bucket.objects) - {key}
      case None => old(bucket.objects)
  {
    var key := StorageKeyOfUrl(imageUrl);
    if key.Some? {
      var removed := bucket.Remove(key.value, storageFails);
    }
    var ok := t.Delete(id, dbFails);
    r := if ok then Success(()) else Failure(DbError);
  }

  /** `updateSliderOrder`: sets one row's `order_index`; a missing id is no error. */
  method UpdateSliderOrder(t: Table<SliderFields>, id: int, k: int, fails: bool) returns (r: Result<(), Error>)
    requires t.Valid()
    modifies t
    ensures t.Valid()
    ensures r.Success? <==> !fails
    ensures t.rows == if fails then old(t.rows) else WithOrderIndex(old(t.rows), id, k)
  {
    var ok := t.SetOrderIndex(id, k, fails);
    r := if ok then Success(()) else Failure(DbError);
  }

  /**
   * The table after the first `n` updates of `reorderSliders`, where the
   * updates at the positions in `failed` change nothing.
   */
  function RenumberedSkipping(rows: seq<Slider>, ids: seq<int>, n: nat, failed: set<nat>): seq<Slider>
    requires n <= |ids|
  {
    if n == 0 then rows
    else
      var prev := RenumberedSkipping(rows, ids, n - 1, failed);
      if n - 1 in failed then prev else WithOrderIndex(prev, ids[n - 1], n - 1)
  }

  /** With no failed update, `reorderSliders` has the effect of a whole-list reorder. */
  lemma {:induction false} RenumberedSkippingNothing(rows: seq<Slider>, ids: seq<int>, n: nat, failed: set<nat>)
    requires n <= |ids|
    requires forall k :: 0 <= k < n ==> k !in failed
    ensures RenumberedSkipping(rows, ids, n, failed) == Renumbered(rows, ids, n)
  {
    if n > 0 {
      RenumberedSkippingNothing(rows, ids, n - 1, failed);
    }
  }

  /**
   * A row that no successful update names keeps its `order_index`, and a row
   * named at a successful position `k` (its id listed once) ends up with `k`.
   */
  lemma {:induction false} RenumberedSkippingSpec(rows: seq<Slider>, ids: seq<int>, n: nat, failed: set<nat>)
    requires n <= |ids|
    requires forall a, b :: 0 <= a < b < |ids| ==> ids[a] != ids[b]
    ensures var r := RenumberedSkipping(rows, ids, n, failed);
      && |r| == |rows|
      && (forall i :: 0 <= i < |rows| ==> r[i].id == rows[i].id && r[i].fields == rows[i].fields)
      && (forall i, k :: 0 <= i < |rows| && 0 <= k < n && ids[k] == rows[i].id && k !in failed ==> r[i].orderIndex == k)
      && (forall i, k :: 0 <= i < |rows| && 0 <= k < n && ids[k] == rows[i].id && k in failed ==> r[i] == rows[i])
      && (forall i :: 0 <= i < |rows| && rows[i].id !in ids[..n] ==> r[i] == rows[i])
  {
    if n > 0 {
      RenumberedSkippingSpec(rows, ids, n - 1, failed);
      forall i | 0 <= i < |rows| && rows[i].id !in ids[..n]
        ensures RenumberedSkipping(rows, ids, n, failed)[i] == rows[i]
      {
        assert ids[..n] == ids[..n - 1] + [ids[n - 1]];
      }
      forall i, k | 0 <= i < |rows| && 0 <= k < n && ids[k] == rows[i].id
        ensures var r := RenumberedSkipping(rows, ids, n, failed);
          (k !in failed ==> r[i].orderIndex == k) && (k in failed ==> r[i] == rows[i])
      {
        if k < n - 1 {
          assert ids[k] != ids[n - 1];
        } else {
          assert rows[i].id !in ids[..n - 1];
        }
      }
    }
  }

  /**
   * `reorderSliders`: one `order_index = position` update per listed slider;
   * the replies are awaited together and their errors never looked at, so the
   * call always returns normally. `failed` names the updates that fail.
   */
  method ReorderSliders(t: Table<SliderFields>, sliders: seq<Slider>, failed: set<nat>)
    requires t.Valid()
    modifies t
    ensures t.Valid()
    ensures t.rows == RenumberedSkipping(old(t.rows), Ids(sliders), |sliders|, failed)
  {
    var ids := Ids(sliders);
    var k := 0;
    while k < |sliders|
      invariant 0 <= k <= |sliders|
      invariant t.Valid()
      invariant t.rows == RenumberedSkipping(old(t.rows), ids, k, failed)
    {
      var ok := t.SetOrderIndex(ids[k], k, k in failed);
      k := k + 1;
    }
  }
}

=== FILE: sorting.dfy ===
/**
 * Ordered views. The hosted database returns `select ... order(...)` rows as a
 * permutation of the table sorted by a key; rows with equal keys come back in an
 * order the database does not promise. The model fixes one such order: a stable
 * insertion sort under a total preorder `leq`.
 */
module Sorting {

  /** `leq` is total and transitive, as every key comparison the views use is. */
  ghost predicate TotalPreorder<T(!new)>(leq: (T, T) -> bool)
  {
    && (forall a, b :: leq(a, b) || leq(b, a))
    && (forall a, b, c :: leq(a, b) && leq(b, c) ==> leq(a, c))
  }

  /** Every element is `leq` every later element. */
  ghost predicate Sorted<T(!new)>(s: seq<T>, leq: (T, T) -> bool)
  {
    forall i, j :: 0 <= i < j < |s| ==> leq(s[i], s[j])
  }

  /** Every element of a permutation of `s[1..]` plus `x` is above `s[0]`, when `x` is. */
  lemma HeadBelowRest<T(!new)>(x: T, s: seq<T>, rest: seq<T>, leq: (T, T) -> bool)
    requires s != [] && Sorted(s, leq) && leq(s[0], x)
    requires multiset(rest) == multiset(s[1..]) + multiset{x}
    ensures forall k :: 0 <= k < |rest| ==> leq(s[0], rest[k])
  {
    forall k | 0 <= k < |rest| ensures leq(s[0], rest[k]) {
      assert rest[k] in multiset(rest);
      if rest[k] != x {
        assert rest[k] in multiset(s[1..]);
        var j :| 0 <= j < |s[1..]| && s[1..][j] == rest[k];
        assert s[j + 1] == rest[k];
      }
    }
  }

  /** Inserts `x` before the first element it is `leq` to. */
  function Insert<T(!new)>(x: T, s: seq<T>, leq: (T, T) -> bool): (r: seq<T>)
    requires TotalPreorder(leq) && Sorted(s, leq)
    ensures Sorted(r, leq)
    ensures multiset(r) == multiset(s) + multiset{x}
    decreases |s|
  {
    if s == [] || leq(x, s[0]) then
      ConsSorted(x, s, leq);
      [x] + s
    else
      var rest := Insert(x, s[1..], leq);
      assert s == [s[0]] + s[1..];
      HeadBelowRest(x, s, rest, leq);
      ConsSorted(s[0], rest, leq);
      [s[0]] + rest
  }

  /** An element `leq` the head of a sorted sequence can go in front of it. */
  lemma ConsSorted<T(!new)>(h: T, r: seq<T>, leq: (T, T) -> bool)
    requires TotalPreorder(leq) && Sorted(r, leq) && (r == [] || leq(h, r[0]))
    ensures Sorted([h] + r, leq)
  {
    var c := [h] + r;
    forall i, j | 0 <= i < j < |c| ensures leq(c[i], c[j]) {
      assert c[j] == r[j - 1];
      if i == 0 {
        if j > 1 {
          assert leq(r[0], r[j - 1]);
        }
      } else {
        assert c[i] == r[i - 1];
      }
    }
  }

  /** The rows in display order: a sorted permutation of `s`. */
  function SortBy<T(!new)>(s: seq<T>, leq: (T, T) -> bool): (r: seq<T>)
    requires TotalPreorder(leq)
    ensures Sorted(r, leq)
    ensures multiset(r) == multiset(s)
    ensures |r| == |s|
    decreases |s|
  {
    if s == [] then []
    else
      assert s == [s[0]] + s[1..];
      Insert(s[0], SortBy(s[1..], leq), leq)
  }

  /** Two sequences with equal heads and equal multisets have equal tail multisets. */
  lemma TailMultiset<T>(a: seq<T>, b: seq<T>)
    requires a != [] && b != [] && a[0] == b[0]
    requires multiset(a) == multiset(b)
    ensures multiset(a[1..]) == multiset(b[1..])
  {
    assert a == [a[0]] + a[1..] && b == [b[0]] + b[1..];
    assert multiset(a) == multiset{a[0]} + multiset(a[1..]);
    assert multiset(b) == multiset{a[0]} + multiset(b[1..]);
    forall x ensures multiset(a[1..])[x] == multiset(b[1..])[x] {
      assert multiset(a)[x] == multiset{a[0]}[x] + multiset(a[1..])[x];
      assert multiset(b)[x] == multiset{a[0]}[x] + multiset(b[1..])[x];
    }
  }

  /** Two sorted permutations of one multiset start with equivalent elements. */
  lemma HeadsEquivalent<T(!new)>(a: seq<T>, b: seq<T>, leq: (T, T) -> bool) returns (i: nat)
    requires TotalPreorder(leq)
    requires Sorted(a, leq) && Sorted(b, leq)
    requires multiset(a) == multiset(b) && a != []
    ensures b != [] && i < |a| && a[i] == b[0]
    ensures leq(a[0], a[i]) && leq(a[i], a[0])
  {
    assert |a| == |multiset(a)| == |multiset(b)| == |b|;
    assert a[0] in multiset(b);
    var j :| 0 <= j < |b| && b[j] == a[0];
    assert b[0] in multiset(a);
    i :| 0 <= i < |a| && a[i] == b[0];
    var x, y := a[0], b[0];
    assert leq(x, x) || leq(x, x);
    assert leq(y, y) || leq(y, y);
    assert leq(a[0], a[i]) && leq(b[0], b[j]);
  }

  /**
   * When no two distinct elements are equivalent under `leq`, the sorted
   * permutation of a multiset is unique.
   */
  lemma {:induction false} SortedPermutationUnique<T(!new)>(a: seq<T>, b: seq<T>, leq: (T, T) -> bool)
    requires TotalPreorder(leq)
    requires Sorted(a, leq) && Sorted(b, leq)
    requires multiset(a) == multiset(b)
    requires forall i, j :: 0 <= i < |a| && 0 <= j < |a| && leq(a[i], a[j]) && leq(a[j], a[i]) ==> a[i] == a[j]
    ensures a == b
    decreases |a|
  {
    if a == [] {
      assert |b| == |multiset(b)| == 0;
    } else {
      var i := HeadsEquivalent(a, b, leq);
      assert a[0] == a[i] == b[0];
      TailMultiset(a, b);
      forall p, q | 0 <= p < |a[1..]| && 0 <= q < |a[1..]| && leq(a[1..][p], a[1..][q]) && leq(a[1..][q], a[1..][p])
        ensures a[1..][p] == a[1..][q]
      {
        assert a[1..][p] == a[p + 1] && a[1..][q] == a[q + 1];
      }
      SortedPermutationUnique(a[1..], b[1..], leq);
      assert a == [a[0]] + a[1..] && b == [b[0]] + b[1..];
    }
  }
}

=== FILE: storage.dfy ===
/**
 * An object-storage bucket (`slider-images`, `news-images`) as the set of keys
 * it holds. Every operation takes an explicit failure input.
 */
module Storage {

  class Bucket {
    var objects: set<string>

    constructor (objects: set<string>)
      ensures this.objects == objects
    {
      this.objects := objects;
    }

    /**
     * `upload(path, file, { upsert: false })`: stores a new object; an error is
     * returned when the client fails or the key is already taken.
     */
    method Upload(path: string, fails: bool) returns (ok: bool)
      modifies this
      ensures ok <==> !fails && path !in old(objects)
      ensures objects == if ok then old(objects) + {path} else old(objects)
    {
      if fails || path in objects {
        return false;
      }
      objects := objects + {path};
      return true;
    }

    /** `remove([path])`: a missing key removes nothing and is no error. */
    method Remove(path: string, fails: bool) returns (ok: bool)
      modifies this
      ensures ok == !fails
      ensures objects == if fails then old(objects) else old(objects) - {path}
    {
      if fails {
        return false;
      }
      objects := objects - {path};
      return true;
    }
  }
}

=== FILE: tables.dfy ===
/**
 * The hosted database seen as in-memory tables. A row of the `sliders`,
 * `branches` or `services` table is an id, its `order_index`, its
 * `created_at` stamp and the entity's own fields `P`. Every operation takes an
 * explicit failure input standing for the error the database client may
 * return; with it set, the operation reports the error and changes nothing.
 */
module Tables {
  import opened Wrappers
  import opened Sorting

  /** The errors the services throw. */
  datatype Error =
    | DbError       // an error object returned by a query, rethrown as it is
    | UploadFailed  // `Upload failed: ...` (addSlider)
    | InsertFailed  // `Database insert failed: ...` (addSlider)
    | StorageError  // an error object returned by the storage client, rethrown as it is (uploadImage)

  datatype Row<P> = Row(id: int, orderIndex: int, createdAt: string, fields: P)

  /** The ids of `rows`, in order. */
  function Ids<P(!new)>(rows: seq<Row<P>>): (r: seq<int>)
    ensures |r| == |rows| && forall i :: 0 <= i < |rows| ==> r[i] == rows[i].id
  {
    seq(|rows|, i requires 0 <= i < |rows| => rows[i].id)
  }

  ghost predicate DistinctIds<P(!new)>(rows: seq<Row<P>>)
  {
    forall i, j :: 0 <= i < j < |rows| ==> rows[i].id != rows[j].id
  }

  /** The ordering `order('order_index', { ascending: true })` sorts by. */
  predicate IndexLeq<P(!new)>(a: Row<P>, b: Row<P>)
  {
    a.orderIndex <= b.orderIndex
  }

  /** The rows as `select('*').order('order_index', { ascending: true })` lists them. */
  function OrderedView<P(!new)>(rows: seq<Row<P>>): (r: seq<Row<P>>)
    ensures multiset(r) == multiset(rows) && |r| == |rows|
    ensures forall i, j :: 0 <= i < j < |r| ==> r[i].orderIndex <= r[j].orderIndex
  {
    assert TotalPreorder(IndexLeq<P>);
    SortBy(rows, IndexLeq)
  }

  /** The largest `order_index`: the row `order(..., { ascending: false }).limit(1)` returns. */
  function MaxOrderIndex<P(!new)>(rows: seq<Row<P>>): (m: int)
    requires rows != []
    ensures forall i :: 0 <= i < |rows| ==> rows[i].orderIndex <= m
    ensures exists i :: 0 <= i < |rows| && rows[i].orderIndex == m
    decreases |rows|
  {
    if |rows| == 1 then rows[0].orderIndex
    else
      var m := MaxOrderIndex(rows[1..]);
      assert forall i :: 1 <= i < |rows| ==> rows[i] == rows[1..][i - 1];
      if rows[0].orderIndex > m then rows[0].orderIndex else m
  }

  /**
   * The index a new row gets: the maximum plus one, or 0 when the table is
   * empty. The services ignore the error of the maximum query, so a failed
   * query (no data) also yields 0.
   */
  function NextOrderIndex<P(!new)>(rows: seq<Row<P>>, queryFails: bool): (r: int)
    ensures queryFails || rows == [] ==> r == 0
    ensures !queryFails && rows != [] ==>
      (forall i :: 0 <= i < |rows| ==> rows[i].orderIndex < r) &&
      (exists i :: 0 <= i < |rows| && rows[i].orderIndex == r - 1)
  {
    if queryFails || rows == [] then 0 else MaxOrderIndex(rows) + 1
  }

  /** The table after `update({ order_index: k }).eq('id', id)`. */
  function WithOrderIndex<P(!new)>(rows: seq<Row<P>>, id: int, k: int): (r: seq<Row<P>>)
    ensures |r| == |rows| && Ids(r) == Ids(rows)
    ensures forall i :: 0 <= i < |rows| ==>
      r[i] == if rows[i].id == id then rows[i].(orderIndex := k) else rows[i]
  {
    seq(|rows|, i requires 0 <= i < |rows| => if rows[i].id == id then rows[i].(orderIndex := k) else rows[i])
  }

  /** The table after `update({...}).eq('id', id)` of entity fields, `patch` giving the new fields. */
  function Patched<P(!new)>(rows: seq<Row<P>>, id: int, patch: P -> P): (r: seq<Row<P>>)
    ensures |r| == |rows| && Ids(r) == Ids(rows)
    ensures forall i :: 0 <= i < |rows| ==>
      r[i] == if rows[i].id == id then rows[i].(fields := patch(rows[i].fields)) else rows[i]
  {
    seq(|rows|, i requires 0 <= i < |rows| => if rows[i].id == id then rows[i].(fields := patch(rows[i].fields)) else rows[i])
  }

  /**
   * The table after the first `n` updates of a whole-list reorder: the row
   * whose id is `ids[k]` is given `order_index = k`, for k < n, in order.
   */
  function Renumbered<P(!new)>(rows: seq<Row<P>>, ids: seq<int>, n: nat): seq<Row<P>>
    requires n <= |ids|
  {
    if n == 0 then rows else WithOrderIndex(Renumbered(rows, ids, n - 1), ids[n - 1], n - 1)
  }

  /** One more update of a whole-list reorder. */
  lemma RenumberedStep<P(!new)>(rows: seq<Row<P>>, ids: seq<int>, n: nat, id: int)
    requires n < |ids| && id == ids[n]
    ensures Renumbered(rows, ids, n + 1) == WithOrderIndex(Renumbered(rows, ids, n), id, n)
  {
  }

  /**
   * What a partial or complete whole-list reorder leaves behind: rows listed in
   * the first `n` ids carry their position, every other row is untouched, and
   * no row moves, appears or changes any other column.
   */
  lemma {:induction false} RenumberedSpec<P(!new)>(rows: seq<Row<P>>, ids: seq<int>, n: nat)
    requires n <= |ids|
    requires forall a, b :: 0 <= a < b < |ids| ==> ids[a] != ids[b]
    ensures var r := Renumbered(rows, ids, n);
      && |r| == |rows|
      && (forall i :: 0 <= i < |rows| ==> r[i].id == rows[i].id && r[i].fields == rows[i].fields && r[i].createdAt == rows[i].createdAt)
      && (forall i, k :: 0 <= i < |rows| && 0 <= k < n && ids[k] == rows[i].id ==> r[i].orderIndex == k)
      && (forall i :: 0 <= i < |rows| && rows[i].id !in ids[..n] ==> r[i] == rows[i])
  {
    if n > 0 {
      RenumberedSpec(rows, ids, n - 1);
      var prev := Renumbered(rows, ids, n - 1);
      forall i | 0 <= i < |rows| && rows[i].id !in ids[..n]
        ensures Renumbered(rows, ids, n)[i] == rows[i]
      {
        assert ids[..n] == ids[..n - 1] + [ids[n - 1]];
      }
      forall i, k | 0 <= i < |rows| && 0 <= k < n && ids[k] == rows[i].id
        ensures Renumbered(rows, ids, n)[i].orderIndex == k
      {
        if k < n - 1 {
          assert ids[k] != ids[n - 1];
        }
      }
    }
  }

  /** A renumbering keeps the ids, so it keeps them distinct. */
  lemma {:induction false} RenumberedIds<P(!new)>(rows: seq<Row<P>>, ids: seq<int>, n: nat)
    requires n <= |ids|
    ensures Ids(Renumbered(rows, ids, n)) == Ids(rows)
  {
    if n > 0 {
      RenumberedIds(rows, ids, n - 1);
    }
  }

  /** The rows after the first keep distinct ids, none of them the first row's. */
  lemma TailDistinct<P(!new)>(rows: seq<Row<P>>)
    requires rows != []
    ensures DistinctIds(rows) ==> DistinctIds(rows[1..])
    ensures DistinctIds(rows) ==> forall y :: y in rows[1..] ==> y.id != rows[0].id
  {
    if DistinctIds(rows) {
      forall i, j | 0 <= i < j < |rows[1..]| ensures rows[1..][i].id != rows[1..][j].id {
        assert rows[1..][i] == rows[i + 1] && rows[1..][j] == rows[j + 1];
      }
      forall y | y in rows[1..] ensures y.id != rows[0].id {
        var k :| 0 <= k < |rows[1..]| && rows[1..][k] == y;
        assert rows[k + 1] == y;
      }
    }
  }

  /** A row put in front of rows with distinct ids, none of them its own, keeps the ids distinct. */
  lemma ConsDistinct<P(!new)>(x: Row<P>, rest: seq<Row<P>>)
    requires DistinctIds(rest) && forall y :: y in rest ==> y.id != x.id
    ensures DistinctIds([x] + rest)
  {
    var r := [x] + rest;
    forall i, j | 0 <= i < j < |r| ensures r[i].id != r[j].id {
      assert r[j] == rest[j - 1];
      if i > 0 {
        assert r[i] == rest[i - 1];
      } else {
        assert rest[j - 1] in rest;
      }
    }
  }

  /** The table after `delete().eq('id', id)`: every row with that id removed, the others kept in order. */
  function Without<P(!new)>(rows: seq<Row<P>>, id: int): (r: seq<Row<P>>)
    ensures forall x :: x in r <==> x in rows && x.id != id
    ensures |r| <= |rows|
    decreases |rows|
  {
    if rows == [] then []
    else
      assert rows == [rows[0]] + rows[1..];
      if rows[0].id == id then Without(rows[1..], id) else [rows[0]] + Without(rows[1..], id)
  }

  /** No row with the deleted id is left. */
  lemma WithoutRemovesId<P(!new)>(rows: seq<Row<P>>, id: int)
    ensures id !in Ids(Without(rows, id))
  {
    var r := Without(rows, id);
    forall k | 0 <= k < |r| ensures Ids(r)[k] != id {
      assert r[k] in r;
    }
  }

  /** Deleting an id that is not in the table changes nothing. */
  lemma {:induction false} WithoutMissing<P(!new)>(rows: seq<Row<P>>, id: int)
    requires id !in Ids(rows)
    ensures Without(rows, id) == rows
    decreases |rows|
  {
    if rows != [] {
      assert Ids(rows)[0] == rows[0].id;
      forall k | 0 <= k < |rows[1..]| ensures Ids(rows[1..])[k] != id {
        assert rows[1..][k] == rows[k + 1] && Ids(rows)[k + 1] == rows[k + 1].id;
      }
      WithoutMissing(rows[1..], id);
    }
  }

  /** A delete keeps the ids distinct. */
  lemma {:induction false} WithoutDistinct<P(!new)>(rows: seq<Row<P>>, id: int)
    requires DistinctIds(rows)
    ensures DistinctIds(Without(rows, id))
    decreases |rows|
  {
    if rows != [] {
      TailDistinct(rows);
      WithoutDistinct(rows[1..], id);
      if rows[0].id != id {
        var rest := Without(rows[1..], id);
        assert Without(rows, id) == [rows[0]] + rest;
        ConsDistinct(rows[0], rest);
      }
    }
  }

  /** `s` with the entries at `i` and `j` exchanged, as the pages swap two cells. */
  function Swap<T>(s: seq<T>, i: nat, j: nat): (r: seq<T>)
    requires i < |s| && j < |s|
    ensures |r| == |s| && r[i] == s[j] && r[j] == s[i]
    ensures forall k :: 0 <= k < |s| && k != i && k != j ==> r[k] == s[k]
    ensures multiset(r) == multiset(s)
  {
    s[i := s[j]][j := s[i]]
  }

  /**
   * `s` copied into a fresh array whose cells `i` and `j` are then exchanged
   * through a temporary, as the admin pages do before persisting a move.
   */
  method SwappedCopy<T>(s: seq<T>, i: nat, j: nat) returns (r: seq<T>)
    requires i < |s| && j < |s|
    ensures r == Swap(s, i, j)
  {
    var a := new T[|s|](k requires 0 <= k < |s| => s[k]);
    var temp := a[i];
    a[i] := a[j];
    a[j] := temp;
    r := a[..];
  }

  /** The list of ids names every row of the table exactly once. */
  ghost predicate ListsAllRows<P(!new)>(rows: seq<Row<P>>, list: seq<int>)
  {
    && |list| == |rows|
    && (forall a, b :: 0 <= a < b < |list| ==> list[a] != list[b])
    && (forall i :: 0 <= i < |rows| ==> rows[i].id in list)
  }

  /**
   * The stored order agrees with a list of ids: the list names every row once,
   * and each row's `order_index` is the position of its id in the list.
   */
  ghost predicate StoredInListOrder<P(!new)>(rows: seq<Row<P>>, list: seq<int>)
  {
    && ListsAllRows(rows, list)
    && (forall i, k :: 0 <= i < |rows| && 0 <= k < |list| && list[k] == rows[i].id ==> rows[i].orderIndex == k)
  }

  /** Exchanging two entries of a list that names every row once keeps it so. */
  lemma SwapListsAllRows<P(!new)>(rows: seq<Row<P>>, list: seq<int>, i: nat, j: nat)
    requires ListsAllRows(rows, list) && i < |list| && j < |list|
    ensures ListsAllRows(rows, Swap(list, i, j))
  {
    var l := Swap(list, i, j);
    assert forall x :: x in list <==> x in l by {
      assert multiset(l) == multiset(list);
      forall x ensures x in list <==> x in l {
        assert x in list <==> x in multiset(list);
        assert x in l <==> x in multiset(l);
      }
    }
    forall a, b | 0 <= a < b < |l| ensures l[a] != l[b] {
      var a' := if a == i then j else if a == j then i else a;
      var b' := if b == i then j else if b == j then i else b;
      assert l[a] == list[a'] && l[b] == list[b'] && a' != b';
      if a' > b' {
        assert list[b'] != list[a'];
      }
    }
  }

  /** In a table with distinct ids no row occurs twice. */
  lemma {:induction false} AtMostOnce<P(!new)>(rows: seq<Row<P>>, x: Row<P>)
    requires DistinctIds(rows)
    ensures multiset(rows)[x] <= 1
    decreases |rows|
  {
    if rows != [] {
      assert rows == [rows[0]] + rows[1..];
      assert DistinctIds(rows[1..]) by {
        forall i, j | 0 <= i < j < |rows[1..]| ensures rows[1..][i].id != rows[1..][j].id {
          assert rows[1..][i] == rows[i + 1] && rows[1..][j] == rows[j + 1];
        }
      }
      AtMostOnce(rows[1..], x);
    }
  }

  /** In a table with distinct ids an id names one row. */
  lemma IdNamesOneRow<P(!new)>(rows: seq<Row<P>>, x: Row<P>, y: Row<P>)
    requires DistinctIds(rows) && x in multiset(rows) && y in multiset(rows)
    ensures x.id == y.id ==> x == y
  {
    var i :| 0 <= i < |rows| && rows[i] == x;
    var j :| 0 <= j < |rows| && rows[j] == y;
  }

  /** A row at two positions occurs at least twice. */
  lemma TwiceCounted<T>(s: seq<T>, p: nat, q: nat)
    requires p < q < |s|
    ensures s[p] == s[q] ==> multiset(s)[s[p]] >= 2
  {
    assert s == s[..q] + s[q..];
    assert s[p] in s[..q] && s[q] in s[q..];
    assert multiset(s)[s[p]] == multiset(s[..q])[s[p]] + multiset(s[q..])[s[p]];
  }

  /** Reordering rows keeps their ids distinct. */
  lemma DistinctIdsPermutation<P(!new)>(a: seq<Row<P>>, b: seq<Row<P>>)
    requires multiset(a) == multiset(b) && DistinctIds(a)
    ensures DistinctIds(b)
  {
    forall p, q | 0 <= p < q < |b| ensures b[p].id != b[q].id {
      assert b[p] in multiset(b) && b[q] in multiset(b);
      IdNamesOneRow(a, b[p], b[q]);
      TwiceCounted(b, p, q);
      AtMostOnce(a, b[p]);
    }
  }

  lemma {:induction false} Climb(keys: seq<int>, p: nat)
    requires forall a, b :: 0 <= a < b < |keys| ==> keys[a] < keys[b]
    requires p < |keys|
    ensures keys[p] >= keys[0] + p
  {
    if p > 0 { Climb(keys, p - 1); }
  }

  lemma {:induction false} Descend(keys: seq<int>, p: nat)
    requires forall a, b :: 0 <= a < b < |keys| ==> keys[a] < keys[b]
    requires p < |keys|
    ensures keys[|keys| - 1] >= keys[p] + (|keys| - 1 - p)
    decreases |keys| - p
  {
    if p < |keys| - 1 { Descend(keys, p + 1); }
  }

  /** n strictly increasing indices drawn from [0, n) are exactly 0, 1, ..., n-1. */
  lemma StrictlyIncreasingIsIdentity(keys: seq<int>)
    requires forall a, b :: 0 <= a < b < |keys| ==> keys[a] < keys[b]
    requires forall p :: 0 <= p < |keys| ==> 0 <= keys[p] < |keys|
    ensures forall p :: 0 <= p < |keys| ==> keys[p] == p
  {
    forall p | 0 <= p < |keys| ensures keys[p] == p {
      Climb(keys, p);
      Descend(keys, p);
    }
  }

  /** Each row of a reordering of such a table sits at its own position in the list. */
  lemma StoredPositions<P(!new)>(rows: seq<Row<P>>, list: seq<int>, v: seq<Row<P>>)
    requires StoredInListOrder(rows, list) && multiset(v) == multiset(rows)
    ensures forall p :: 0 <= p < |v| ==> 0 <= v[p].orderIndex < |list| && list[v[p].orderIndex] == v[p].id
  {
    forall p | 0 <= p < |v|
      ensures 0 <= v[p].orderIndex < |list| && list[v[p].orderIndex] == v[p].id
    {
      assert v[p] in multiset(rows);
      var i :| 0 <= i < |rows| && rows[i] == v[p];
      var k :| 0 <= k < |list| && list[k] == rows[i].id;
    }
  }

  /**
   * When the stored indices follow a list of the table's ids, the ordered view
   * lists the rows in exactly that order.
   */
  lemma ViewFollowsStoredOrder<P(!new)>(rows: seq<Row<P>>, list: seq<int>)
    requires DistinctIds(rows) && StoredInListOrder(rows, list)
    ensures Ids(OrderedView(rows)) == list
  {
    var v := OrderedView(rows);
    DistinctIdsPermutation(rows, v);
    StoredPositions(rows, list, v);
    var keys := seq(|v|, p requires 0 <= p < |v| => v[p].orderIndex);
    assert forall a, b :: 0 <= a < b < |keys| ==> keys[a] < keys[b] by {
      forall a, b | 0 <= a < b < |keys| ensures keys[a] < keys[b] {
        assert v[a].id != v[b].id && v[a].orderIndex <= v[b].orderIndex;
      }
    }
    StrictlyIncreasingIsIdentity(keys);
    assert |Ids(v)| == |list| by { assert |v| == |rows| == |list|; }
    forall p | 0 <= p < |v| ensures Ids(v)[p] == list[p] {
      assert keys[p] == p;
    }
  }

  /**
   * A complete whole-list reorder over a list naming every row once stores the
   * list's order.
   */
  lemma ReorderStoresListOrder<P(!new)>(rows: seq<Row<P>>, ids: seq<int>)
    requires ListsAllRows(rows, ids)
    ensures StoredInListOrder(Renumbered(rows, ids, |ids|), ids)
  {
    RenumberedSpec(rows, ids, |ids|);
    var r := Renumbered(rows, ids, |ids|);
    forall i | 0 <= i < |r| ensures r[i].id in ids {
      assert r[i].id == rows[i].id;
    }
  }

  /**
   * After a complete whole-list reorder over a list naming every row once,
   * the ordered view lists the rows in the list's order.
   */
  lemma ReorderedViewFollowsList<P(!new)>(rows: seq<Row<P>>, ids: seq<int>)
    requires DistinctIds(rows) && ListsAllRows(rows, ids)
    ensures Ids(OrderedView(Renumbered(rows, ids, |ids|))) == ids
  {
    var r := Renumbered(rows, ids, |ids|);
    ReorderStoresListOrder(rows, ids);
    RenumberedIds(rows, ids, |ids|);
    assert DistinctIds(r) by {
      forall a, b | 0 <= a < b < |r| ensures r[a].id != r[b].id {
        assert Ids(r)[a] == Ids(rows)[a] && Ids(r)[b] == Ids(rows)[b];
      }
    }
    ViewFollowsStoredOrder(r, ids);
  }

  /** The ids of a swapped list are the swapped ids. */
  lemma IdsOfSwap<P(!new)>(list: seq<Row<P>>, i: nat, j: nat)
    requires i < |list| && j < |list|
    ensures Ids(Swap(list, i, j)) == Swap(Ids(list), i, j)
  {
    var a := Ids(Swap(list, i, j));
    var b := Swap(Ids(list), i, j);
    assert |a| == |b|;
    forall k | 0 <= k < |a| ensures a[k] == b[k] {
      if k != i && k != j {
        assert a[k] == list[k].id;
      }
    }
  }

  /** The ids of the ordered view name every row of a table with distinct ids once. */
  lemma ViewListsAllRows<P(!new)>(rows: seq<Row<P>>)
    requires DistinctIds(rows)
    ensures ListsAllRows(rows, Ids(OrderedView(rows)))
  {
    var v := OrderedView(rows);
    DistinctIdsPermutation(rows, v);
    forall i | 0 <= i < |rows| ensures rows[i].id in Ids(v) {
      assert rows[i] in multiset(v);
      var p :| 0 <= p < |v| && v[p] == rows[i];
      assert Ids(v)[p] == rows[i].id;
    }
  }

  /**
   * Exchanging two entries of a list that names every row once and then
   * reordering the whole swapped list leaves the ordered view in the order of
   * the swapped list.
   */
  lemma SwappedReorderFollowsList<P(!new)>(rows: seq<Row<P>>, list: seq<Row<P>>, i: nat, j: nat)
    requires i < |list| && j < |list|
    requires DistinctIds(rows) && ListsAllRows(rows, Ids(list))
    ensures Ids(OrderedView(Renumbered(rows, Ids(Swap(list, i, j)), |list|))) == Ids(Swap(list, i, j))
  {
    IdsOfSwap(list, i, j);
    SwapListsAllRows(rows, Ids(list), i, j);
    ReorderedViewFollowsList(rows, Ids(Swap(list, i, j)));
  }

  /**
   * A successful move from a list loaded from the table (every row named
   * once) leaves the table's own order equal to the list the page shows.
   */
  lemma MoveAfterLoadFollowsList<P(!new)>(rows: seq<Row<P>>, index: nat, target: nat)
    requires DistinctIds(rows) && index < |rows| && target < |rows|
    ensures var shown := Swap(OrderedView(rows), index, target);
      Ids(OrderedView(Renumbered(rows, Ids(shown), |shown|))) == Ids(shown)
  {
    ViewListsAllRows(rows);
    SwappedReorderFollowsList(rows, OrderedView(rows), index, target);
  }

  /** A table with distinct ids, and an id sequence that stays ahead of every id. */
  class Table<P(!new)> {
    var rows: seq<Row<P>>
    var nextId: int

    ghost predicate Valid()
      reads this
    {
      DistinctIds(rows) && forall i :: 0 <= i < |rows| ==> rows[i].id < nextId
    }

    constructor ()
      ensures Valid() && rows == []
    {
      rows := [];
      nextId := 1;
    }

    /** `select('*').order('order_index', { ascending: true })`, thrown error included. */
    function Select(fails: bool): (r: Result<seq<Row<P>>, Error>)
      reads this
      ensures r.Success? <==> !fails
      ensures r.Failure? ==> r.error == DbError
      ensures r.Success? ==> multiset(r.value) == multiset(rows)
      ensures r.Success? ==> forall i, j :: 0 <= i < j < |r.value| ==> r.value[i].orderIndex <= r.value[j].orderIndex
    {
      if fails then Failure(DbError) else Success(OrderedView(rows))
    }

    /** `insert({...}).select().single()`: the new row gets the next id of the sequence. */
    method Insert(orderIndex: int, createdAt: string, fields: P, fails: bool) returns (r: Result<Row<P>, Error>)
      requires Valid()
      modifies this
      ensures Valid()
      ensures fails ==> r == Failure(DbError) && rows == old(rows) && nextId == old(nextId)
      ensures !fails ==> r == Success(Row(old(nextId), orderIndex, createdAt, fields))
      ensures !fails ==> rows == old(rows) + [r.value] && r.value.id !in Ids(old(rows))
    {
      if fails {
        return Failure(DbError);
      }
      var row := Row(nextId, orderIndex, createdAt, fields);
      rows := rows + [row];
      nextId := nextId + 1;
      return Success(row);
    }

    /** `update({ order_index: k }).eq('id', id)`: a missing id matches no row and is no error. */
    method SetOrderIndex(id: int, k: int, fails: bool) returns (ok: bool)
      requires Valid()
      modifies this
      ensures Valid() && nextId == old(nextId)
      ensures ok == !fails
      ensures rows == if fails then old(rows) else WithOrderIndex(old(rows), id, k)
    {
      if fails {
        return false;
      }
      rows := WithOrderIndex(rows, id, k);
      return true;
    }

    /**
     * `update({...}).eq('id', id).select().single()`: the fields of the row with
     * that id are rewritten by `patch`; `single()` turns "no row" into an error.
     */
    method UpdateSingle(id: int, patch: P -> P, fails: bool) returns (r: Result<Row<P>, Error>)
      requires Valid()
      modifies this
      ensures Valid() && nextId == old(nextId)
      ensures r.Success? <==> !fails && id in Ids(old(rows))
      ensures r.Failure? ==> r.error == DbError && rows == old(rows)
      ensures r.Success? ==> rows == Patched(old(rows), id, patch)
      ensures r.Success? ==> r.value.id == id && r.value in rows
    {
      if fails || id !in Ids(rows) {
        return Failure(DbError);
      }
      var i :| 0 <= i < |rows| && rows[i].id == id;
      rows := Patched(rows, id, patch);
      return Success(rows[i]);
    }

    /** `delete().eq('id', id)`: a missing id deletes nothing and is no error. */
    method Delete(id: int, fails: bool) returns (ok: bool)
      requires Valid()
      modifies this
      ensures Valid() && nextId == old(nextId)
      ensures ok == !fails
      ensures rows == if fails then old(rows) else Without(old(rows), id)
    {
      if fails {
        return false;
      }
      WithoutDistinct(rows, id);
      rows := Without(rows, id);
      return true;
    }
  }
}

=== FILE: text.dfy ===
/**
 * The few JavaScript string operations the admin panel relies on:
 * `trim`, `split`, `Array.prototype.pop` on a split, `parseInt` and
 * `Number.prototype.toString`.
 */
module Text {
  import opened Wrappers

  /** ECMAScript WhiteSpace and LineTerminator code points: what `trim` strips. */
  predicate IsJsWhitespace(c: char)
  {
    || c == ' ' || c == '\t' || c == '\n' || c == '\r' || c == '\U{000B}' || c == '\U{000C}'
    || c == '\U{00A0}' || c == '\U{1680}' || ('\U{2000}' <= c <= '\U{200A}')
    || c == '\U{2028}' || c == '\U{2029}' || c == '\U{202F}' || c == '\U{205F}'
    || c == '\U{3000}' || c == '\U{FEFF}'
  }

  /** Every character is whitespace (vacuously true of ""). */
  predicate AllWhitespace(s: string)
  {
    forall i :: 0 <= i < |s| ==> IsJsWhitespace(s[i])
  }

  /** `s.trimStart()`: the suffix left after dropping leading whitespace. */
  function TrimStart(s: string): (r: string)
    ensures |r| <= |s| && r == s[|s| - |r|..]
    ensures AllWhitespace(s[..|s| - |r|])
    ensures r == [] || !IsJsWhitespace(r[0])
    decreases |s|
  {
    if s != [] && IsJsWhitespace(s[0]) then
      var r := TrimStart(s[1..]);
      assert s[..|s| - |r|] == [s[0]] + s[1..][..|s| - 1 - |r|];
      r
    else s
  }

  /** `s.trimEnd()`: the prefix left after dropping trailing whitespace. */
  function TrimEnd(s: string): (r: string)
    ensures |r| <= |s| && r == s[..|r|]
    ensures AllWhitespace(s[|r|..])
    ensures r == [] || !IsJsWhitespace(r[|r| - 1])
    decreases |s|
  {
    if s != [] && IsJsWhitespace(s[|s| - 1]) then
      var r := TrimEnd(s[..|s| - 1]);
      assert s[|r|..] == s[..|s| - 1][|r|..] + [s[|s| - 1]];
      r
    else s
  }

  /** `s.trim()`. */
  function Trim(s: string): string
  {
    TrimEnd(TrimStart(s))
  }

  /** `!s.trim()` holds exactly when the field holds nothing but whitespace. */
  lemma {:induction false} TrimEmptyIffAllWhitespace(s: string)
    ensures Trim(s) == [] <==> AllWhitespace(s)
  {
    var t := TrimStart(s);
    if AllWhitespace(s) {
      assert t == [];
    } else {
      var i :| 0 <= i < |s| && !IsJsWhitespace(s[i]);
      assert i >= |s| - |t|;
      var k := i - (|s| - |t|);
      assert t[k] == s[i];
    }
  }

  /** The page guard `!s.trim()`: trimming leaves nothing. */
  predicate IsBlank(s: string)
    ensures IsBlank(s) <==> AllWhitespace(s)
  {
    TrimEmptyIffAllWhitespace(s);
    Trim(s) == []
  }

  /** `sep` occurs in `s` starting at index `i`. */
  predicate OccursAt(s: string, sep: string, i: nat)
  {
    i + |sep| <= |s| && s[i..i + |sep|] == sep
  }

  /** `sep` occurs nowhere in `s`. */
  ghost predicate Free(s: string, sep: string)
  {
    forall j: nat :: !OccursAt(s, sep, j)
  }

  /** `s.indexOf(sep, from)`, with `None` for -1. */
  function IndexOf(s: string, sep: string, from: nat): (r: Option<nat>)
    ensures r.Some? ==> from <= r.value && OccursAt(s, sep, r.value)
    ensures r.Some? ==> forall j: nat :: from <= j < r.value ==> !OccursAt(s, sep, j)
    ensures r.None? ==> forall j: nat :: from <= j ==> !OccursAt(s, sep, j)
    decreases |s| - from
  {
    if from + |sep| > |s| then None
    else if OccursAt(s, sep, from) then Some(from)
    else IndexOf(s, sep, from + 1)
  }

  /** Joins non-empty `parts` with `sep` between neighbours: `parts.join(sep)`. */
  function Join(parts: seq<string>, sep: string): string
    requires parts != []
  {
    if |parts| == 1 then parts[0] else parts[0] + sep + Join(parts[1..], sep)
  }

  /** A prefix of `s` that ends before the first occurrence of `sep` is free of `sep`. */
  lemma PrefixBeforeFirstIsFree(s: string, sep: string, i: nat)
    requires sep != [] && i <= |s|
    requires forall j: nat :: j < i ==> !OccursAt(s, sep, j)
    ensures Free(s[..i], sep)
  {
    forall j: nat | OccursAt(s[..i], sep, j) ensures false {
      assert s[..i][j..j + |sep|] == s[j..j + |sep|];
      assert OccursAt(s, sep, j);
    }
  }

  /** The piece before an occurrence of `sep`, then the pieces of what follows it, join back to `s`. */
  lemma SplitStep(s: string, sep: string, i: nat, rest: seq<string>)
    requires OccursAt(s, sep, i) && rest != [] && Join(rest, sep) == s[i + |sep|..]
    ensures Join([s[..i]] + rest, sep) == s && !Free(s, sep)
  {
    assert ([s[..i]] + rest)[1..] == rest;
    assert s == s[..i] + sep + s[i + |sep|..];
  }

  /**
   * `s.split(sep)` for a non-empty separator: the pieces between successive
   * leftmost occurrences of `sep`. Joining the pieces gives back `s`, and no
   * piece contains `sep`.
   */
  function Split(s: string, sep: string): (r: seq<string>)
    requires sep != []
    ensures r != [] && Join(r, sep) == s
    ensures forall k :: 0 <= k < |r| ==> Free(r[k], sep)
    ensures Free(s, sep) <==> |r| == 1
    decreases |s|
  {
    match IndexOf(s, sep, 0)
    case None =>
      [s]
    case Some(i) =>
      PrefixBeforeFirstIsFree(s, sep, i);
      var rest := Split(s[i + |sep|..], sep);
      SplitStep(s, sep, i, rest);
      [s[..i]] + rest
  }

  /** `parts.pop()` on the result of a split: its last piece. */
  function Last(parts: seq<string>): string
    requires parts != []
  {
    parts[|parts| - 1]
  }

  /** A join of several pieces is the join of all but the last, the separator, and the last. */
  lemma {:induction false} JoinSnoc(parts: seq<string>, sep: string)
    requires |parts| > 1
    ensures Join(parts, sep) == Join(parts[..|parts| - 1], sep) + sep + Last(parts)
    decreases |parts|
  {
    var init := parts[..|parts| - 1];
    if |parts| == 2 {
      assert init == [parts[0]];
    } else {
      JoinSnoc(parts[1..], sep);
      assert parts[1..][..|parts| - 2] == init[1..];
      assert Last(parts[1..]) == Last(parts);
      var a, b := Join(init[1..], sep), Last(parts);
      assert Join(init, sep) == parts[0] + sep + a;
      assert parts[0] + sep + (a + sep + b) == (parts[0] + sep + a) + sep + b;
    }
  }

  /**
   * The last piece of a join ends the joined string, and when there are
   * several pieces a separator comes right before it.
   */
  lemma JoinEndsWithLast(parts: seq<string>, sep: string)
    requires parts != []
    ensures var j, l := Join(parts, sep), Last(parts);
      && |l| <= |j| && j[|j| - |l|..] == l
      && (|parts| > 1 ==> |l| + |sep| <= |j| && j[|j| - |l| - |sep|..|j| - |l|] == sep)
  {
    if |parts| > 1 {
      JoinSnoc(parts, sep);
      var x, l := Join(parts[..|parts| - 1], sep), Last(parts);
      var j := x + sep + l;
      assert j[|j| - |l|..] == l;
      assert j[|x|..|x| + |sep|] == sep;
    }
  }

  /** The text before the first occurrence of `sep`, or all of `s` when there is none. */
  function BeforeFirst(s: string, sep: string): string
  {
    match IndexOf(s, sep, 0)
    case None => s
    case Some(j) => s[..j]
  }

  /** `s.split(sep)[0]` is the text before the first occurrence of `sep`. */
  lemma FirstPiece(s: string, sep: string)
    requires sep != []
    ensures Split(s, sep)[0] == BeforeFirst(s, sep)
  {
  }

  /**
   * `s.split(sep)` has one piece when `sep` does not occur; otherwise its
   * second piece is what comes after the first occurrence, up to the next one
   * or to the end.
   */
  lemma SecondPiece(s: string, sep: string)
    requires sep != []
    ensures match IndexOf(s, sep, 0)
      case None => |Split(s, sep)| == 1
      case Some(i) => i + |sep| <= |s| && |Split(s, sep)| > 1
    ensures match IndexOf(s, sep, 0)
      case None => true
      case Some(i) => Split(s, sep)[1] == BeforeFirst(s[i + |sep|..], sep)
  {
    match IndexOf(s, sep, 0) {
      case None =>
      case Some(i) =>
        SplitAfterFirst(s, sep, i);
        FirstPiece(s[i + |sep|..], sep);
    }
  }

  /** Past the first occurrence of `sep`, the second piece of `s` is the first piece of the text after it. */
  lemma SplitAfterFirst(s: string, sep: string, i: nat)
    requires sep != [] && IndexOf(s, sep, 0) == Some(i)
    ensures i + |sep| <= |s| && |Split(s, sep)| > 1
    ensures Split(s, sep)[1] == Split(s[i + |sep|..], sep)[0]
  {
  }

  /** A one-character separator is absent exactly when the character is. */
  lemma FreeOfChar(s: string, c: char)
    ensures Free(s, [c]) <==> c !in s
  {
    if c in s {
      var i :| 0 <= i < |s| && s[i] == c;
      assert s[i..i + 1] == [c];
      assert OccursAt(s, [c], i);
    } else {
      forall j: nat ensures !OccursAt(s, [c], j) {
        if j < |s| {
          assert s[j] != c;
        }
      }
    }
  }

  /**
   * When the character at offset `off` of `sep` occurs neither in `a` nor
   * earlier in `sep`, the first occurrence of `sep` in `a + sep + b` is the
   * one right after `a`.
   */
  lemma MarkerFirstAfter(a: string, sep: string, b: string, off: nat)
    requires off < |sep| && sep[off] !in a && sep[off] !in sep[..off]
    ensures forall j: nat :: j < |a| ==> !OccursAt(a + sep + b, sep, j)
  {
    var s := a + sep + b;
    forall j: nat | j < |a| ensures !OccursAt(s, sep, j) {
    }
  }

  /**
   * `r` is the last `c`-separated segment of `s`: a suffix of `s` without `c`,
   * right after a `c` unless it is all of `s`.
   */
  ghost predicate IsLastSegment(r: string, s: string, c: char)
  {
    c !in r && |r| <= |s| && s[|s| - |r|..] == r && (|r| < |s| ==> s[|s| - |r| - 1] == c)
  }

  /** `s.split(c).pop()`: the longest suffix of `s` without `c`, all of `s` when it has no `c`. */
  function LastSegment(s: string, c: char): (r: string)
    ensures IsLastSegment(r, s, c)
  {
    LastPieceIsLastSegment(s, c);
    Last(Split(s, [c]))
  }

  lemma LastPieceIsLastSegment(s: string, c: char)
    ensures IsLastSegment(Last(Split(s, [c])), s, c)
  {
    var parts := Split(s, [c]);
    FreeOfChar(Last(parts), c);
    LastJoinedPiece(parts, c);
  }

  /** The last piece of a join on `c`, when it holds no `c`, is the join's last `c`-segment. */
  lemma LastJoinedPiece(parts: seq<string>, c: char)
    requires parts != [] && c !in Last(parts)
    ensures IsLastSegment(Last(parts), Join(parts, [c]), c)
  {
    var l := Last(parts);
    var s := Join(parts, [c]);
    JoinEndsWithLast(parts, [c]);
    if |parts| > 1 {
      assert s[|s| - |l| - 1..|s| - |l|] == [c];
    }
  }

  /** A string free of `sep` splits into itself alone. */
  lemma SplitFree(s: string, sep: string)
    requires sep != [] && Free(s, sep)
    ensures Split(s, sep) == [s]
  {
  }

  /**
   * Splitting `a + sep + b`, where the first occurrence of `sep` is the one
   * after `a`, gives `a` followed by the pieces of `b`.
   */
  lemma SplitAtFirst(a: string, sep: string, b: string)
    requires sep != []
    requires forall j: nat :: j < |a| ==> !OccursAt(a + sep + b, sep, j)
    ensures Split(a + sep + b, sep) == [a] + Split(b, sep)
  {
    var s := a + sep + b;
    assert OccursAt(s, sep, |a|) by { assert s[|a|..|a| + |sep|] == sep; }
    assert IndexOf(s, sep, 0) == Some(|a|);
    assert s[..|a|] == a && s[|a| + |sep|..] == b;
  }

  /** A string with at most one '/' contains no separator that begins and ends with '/'. */
  lemma OneSlashIsFree(t: string, sep: string)
    requires |sep| >= 2 && sep[0] == '/' && sep[|sep| - 1] == '/'
    requires forall i, j :: 0 <= i < j < |t| ==> !(t[i] == '/' && t[j] == '/')
    ensures Free(t, sep)
  {
    forall j: nat | OccursAt(t, sep, j) ensures false {
    }
  }

  /** Lexicographic order on strings, character by character. */
  predicate LexLeq(a: string, b: string)
  {
    a == [] || (b != [] && (a[0] < b[0] || (a[0] == b[0] && LexLeq(a[1..], b[1..]))))
  }

  /** Any two strings are comparable. */
  lemma {:induction false} LexLeqTotal(a: string, b: string)
    ensures LexLeq(a, b) || LexLeq(b, a)
  {
    if a != [] && b != [] && a[0] == b[0] {
      LexLeqTotal(a[1..], b[1..]);
    }
  }

  lemma {:induction false} LexLeqTransitive(a: string, b: string, c: string)
    requires LexLeq(a, b) && LexLeq(b, c)
    ensures LexLeq(a, c)
  {
    if a != [] && b != [] && c != [] && a[0] == b[0] == c[0] {
      LexLeqTransitive(a[1..], b[1..], c[1..]);
    }
  }

  predicate IsDigit(c: char) { '0' <= c <= '9' }

  function DigitValue(c: char): nat requires IsDigit(c) { (c as int - '0' as int) as nat }

  function DigitChar(d: nat): (c: char)
    requires d < 10
    ensures IsDigit(c) && DigitValue(c) == d
  {
    ('0' as int + d) as char
  }

  /** The number a string of decimal digits denotes. */
  function DigitsValue(d: string): nat
    requires forall i :: 0 <= i < |d| ==> IsDigit(d[i])
  {
    if d == [] then 0 else DigitsValue(d[..|d| - 1]) * 10 + DigitValue(d[|d| - 1])
  }

  /** The length of the longest all-digit prefix. */
  function DigitPrefixLength(s: string): (n: nat)
    ensures n <= |s| && (forall i :: 0 <= i < n ==> IsDigit(s[i]))
    ensures n == |s| || !IsDigit(s[n])
  {
    if s != [] && IsDigit(s[0]) then 1 + DigitPrefixLength(s[1..]) else 0
  }

  predicate IsSign(c: char) { c == '-' || c == '+' }

  /** Before index `k` of `s` there is only whitespace, then at most one sign. */
  ghost predicate SignedLead(s: string, k: nat)
    requires k <= |s|
  {
    AllWhitespace(s[..k]) || (0 < k && IsSign(s[k - 1]) && AllWhitespace(s[..k - 1]))
  }

  /** Index `k` of `s` starts the run of digits `parseInt` reads. */
  ghost predicate DigitsStartAt(s: string, k: nat)
  {
    k < |s| && IsDigit(s[k]) && SignedLead(s, k)
  }

  /** Where `parseInt` starts reading digits: past the leading whitespace and a sign, if any. */
  function DigitsStart(s: string): (k: nat)
    ensures k <= |s|
  {
    var t := TrimStart(s);
    if t != [] && IsSign(t[0]) then |s| - |t| + 1 else |s| - |t|
  }

  /** A whitespace prefix followed by a non-whitespace character ends where `trimStart` begins. */
  lemma {:induction false} LeadEndsAtTrim(s: string, j: nat)
    requires j < |s| && AllWhitespace(s[..j]) && !IsJsWhitespace(s[j])
    ensures j == |s| - |TrimStart(s)|
    decreases j
  {
    if j > 0 {
      assert IsJsWhitespace(s[..j][0]);
      assert s[1..][..j - 1] == s[..j][1..];
      LeadEndsAtTrim(s[1..], j - 1);
    }
  }

  /** Neither a digit nor a sign is whitespace. */
  lemma DigitOrSignIsNotWhitespace(c: char)
    requires IsDigit(c) || IsSign(c)
    ensures !IsJsWhitespace(c)
  {
  }

  /** A digit right after the leading whitespace is at `DigitsStart(s)`. */
  lemma UnsignedDigitsStart(s: string, j: nat)
    requires j < |s| && IsDigit(s[j]) && AllWhitespace(s[..j])
    ensures j == DigitsStart(s)
  {
    DigitOrSignIsNotWhitespace(s[j]);
    LeadEndsAtTrim(s, j);
    assert TrimStart(s)[0] == s[j];
  }

  /** A digit right after the leading whitespace and a sign is at `DigitsStart(s)`. */
  lemma SignedDigitsStart(s: string, j: nat)
    requires 0 < j < |s| && IsSign(s[j - 1]) && AllWhitespace(s[..j - 1])
    ensures j == DigitsStart(s)
  {
    DigitOrSignIsNotWhitespace(s[j - 1]);
    LeadEndsAtTrim(s, j - 1);
    assert TrimStart(s)[0] == s[j - 1];
  }

  /** No index but `DigitsStart(s)` can start the digits. */
  lemma DigitsStartUnique(s: string, j: nat)
    requires DigitsStartAt(s, j)
    ensures j == DigitsStart(s)
  {
    if AllWhitespace(s[..j]) {
      UnsignedDigitsStart(s, j);
    } else {
      SignedDigitsStart(s, j);
    }
  }

  /** What follows `DigitsStart(s)` is what `trimStart` leaves once a leading sign is dropped. */
  lemma DigitsStartSuffix(s: string)
    ensures var t := TrimStart(s);
      s[DigitsStart(s)..] == if t != [] && IsSign(t[0]) then t[1..] else t
  {
  }

  /** A '-' comes right before `DigitsStart(s)` iff `trimStart` leaves a '-' first. */
  lemma DigitsStartSign(s: string)
    ensures var t := TrimStart(s); var k := DigitsStart(s);
      0 < k && s[k - 1] == '-' <==> t != [] && t[0] == '-'
  {
    var t := TrimStart(s);
    var w := |s| - |t|;
    if t != [] && IsSign(t[0]) {
      assert s[w] == t[0];
    } else if 0 < w {
      DigitOrSignIsNotWhitespace('-');
      assert IsJsWhitespace(s[..w][w - 1]);
    }
  }

  /** A digit at `DigitsStart(s)` does start the digits. */
  lemma DigitsStartDigit(s: string)
    ensures var k := DigitsStart(s); k < |s| && IsDigit(s[k]) ==> DigitsStartAt(s, k)
  {
    var t := TrimStart(s);
    var w := |s| - |t|;
    var k := DigitsStart(s);
    if k == w + 1 {
      assert s[w] == t[0];
      if k < |s| && IsDigit(s[k]) {
        assert s[..k - 1] == s[..w];
      }
    }
  }

  /**
   * The digits `parseInt` reads can start at one place only: right after the
   * leading whitespace, or one further on when a sign comes first.
   */
  lemma DigitsStartAfterLead(s: string)
    ensures var t := TrimStart(s); var k := DigitsStart(s);
      && s[k..] == (if t != [] && IsSign(t[0]) then t[1..] else t)
      && (0 < k && s[k - 1] == '-' <==> t != [] && t[0] == '-')
      && (k < |s| && IsDigit(s[k]) ==> DigitsStartAt(s, k))
      && (forall j: nat :: DigitsStartAt(s, j) ==> j == k)
  {
    DigitsStartSuffix(s);
    DigitsStartSign(s);
    DigitsStartDigit(s);
    forall j: nat | DigitsStartAt(s, j) ensures j == DigitsStart(s) {
      DigitsStartUnique(s, j);
    }
  }

  /**
   * `parseInt(s)` in base 10: past leading whitespace and an optional sign,
   * the longest run of digits, negated after a '-'; `None` stands for `NaN`
   * (no digit after the sign).
   */
  function ParseInt(s: string): (r: Option<int>)
    ensures r.None? <==> forall k: nat :: !DigitsStartAt(s, k)
  {
    DigitsStartAfterLead(s);
    var k := DigitsStart(s);
    var digits := s[k..][..DigitPrefixLength(s[k..])];
    if digits == [] then None
    else if 0 < k && s[k - 1] == '-' then Some(-(DigitsValue(digits) as int))
    else Some(DigitsValue(digits))
  }

  /**
   * Where the digits start, `parseInt` reads the longest run of them as a
   * decimal number, negated when a '-' comes right before.
   */
  lemma ParseIntReadsDigitRun(s: string, k: nat)
    requires DigitsStartAt(s, k)
    ensures var d := s[k..][..DigitPrefixLength(s[k..])];
      ParseInt(s) == Some(if 0 < k && s[k - 1] == '-' then -(DigitsValue(d) as int) else DigitsValue(d))
  {
    DigitsStartUnique(s, k);
  }

  /** `n.toString()` for a non-negative integer: its decimal digits, no leading zero. */
  function ToDecimal(n: nat): (r: string)
    ensures r != [] && forall i :: 0 <= i < |r| ==> IsDigit(r[i])
    ensures DigitsValue(r) == n
  {
    if n < 10 then [DigitChar(n)]
    else
      var r := ToDecimal(n / 10) + [DigitChar(n % 10)];
      assert r[..|r| - 1] == ToDecimal(n / 10);
      r
  }

  /** `trimStart` leaves a string that does not start with whitespace as it is. */
  lemma TrimStartOfNonWhitespace(s: string)
    requires s != [] && !IsJsWhitespace(s[0])
    ensures TrimStart(s) == s
  {
  }

  lemma DigitPrefixOfDigits(r: string)
    requires forall i :: 0 <= i < |r| ==> IsDigit(r[i])
    ensures DigitPrefixLength(r) == |r|
  {
  }

  /** A non-empty run of digits parses to the number it denotes. */
  lemma ParseIntOfDigits(r: string)
    requires r != [] && forall i :: 0 <= i < |r| ==> IsDigit(r[i])
    ensures ParseInt(r) == Some(DigitsValue(r))
  {
    var c := r[0];
    assert IsDigit(c);
    assert !IsJsWhitespace(c) && !IsSign(c);
    TrimStartOfNonWhitespace(r);
    assert DigitsStart(r) == 0 && r[0..] == r;
    DigitPrefixOfDigits(r);
    assert r[..|r|] == r;
  }

  /** `parseInt(n.toString()) === n`: the stored login time reads back unchanged. */
  lemma ParseIntToDecimal(n: nat)
    ensures ParseInt(ToDecimal(n)) == Some(n)
  {
    ParseIntOfDigits(ToDecimal(n));
  }
}

=== FILE: wrappers.dfy ===
/** Failure-compatible wrappers: an optional value, and a value or an error. */
module Wrappers {

  /** A value that may be absent: `null`/`undefined` in the source. */
  datatype Option<+T> = None | Some(value: T)

  /** The outcome of an operation that may throw: its value or the error it throws. */
  datatype Result<+R, +E> = Success(value: R) | Failure(error: E)
}
